=== FILE: README.md ===
# geom2 in Dafny

This is a verified model of the core of geom2, a small 2D geometry kernel. geom2 works in `f32`
with a global tolerance `EPS`. It provides:

- lines and line segments, and their tolerant intersections;
- half-planes, given by a unit normal that points into the occupied side and an offset;
- circles and disks;
- circular arcs and the disk segments they bound;
- polygons with straight edges;
- arc polygons, whose edges are circular arcs.

Every closed shape has a winding number (`winding_number_2`), and a shape contains a point when
that number is positive. The trait documents it as twice the turns of the edge around the point.
Disks and disk segments count 2 inside, while straight polygons count 1 per crossing (see below).
Every shape has a moment: its area and its centroid. Shapes intersect in pairs, and a result
that does not exist is `None`.

The model keeps the structure of the source.

- `f32` becomes `real`, and `EPS` is `0.00000001`.
- Pure code becomes datatypes and functions. For example, `Moment::merge`, the `Intersect`
  implementations and the winding numbers of disks and disk segments are functions.
- Loops become methods, each proved against a specification function. These are
  `is_convex`, the crossing count, the shoelace moment, the Sutherland-Hodgman clips, the arc
  polygon's winding number and moment, and the polygon-disk generator with its deduplication.
- `sqrt` and `PI` are constants without a definition. Lemmas that need an exact square root
  take the hypothesis `SqrtSpec()`.

Modules, one concern each:

- `Numeric`: `Vec2` and the `glam` operations it uses.
- `Geom`: `Moment` and the `Option`/`Either` shapes.
- `Polygons`: windows and edges of a polygon.
- `Lines`, `Plane`, `Circles` and `Arcs`: the basic shapes.
- `CircleIntersections`, with `CircleIntersectionProperties` and `DiskIntersectionProperties`
  holding its lemmas.
- `StraightPolygon`: convexity, winding number and shoelace moment.
- `ClipWalks` and `StraightClip`: Sutherland-Hodgman clipping.
- `ArcPolygons`: arc polygons.
- `DiskClips` and `DiskClipProperties`: a polygon intersected with a disk.
- `StraightPolygonTests`, `CircleTests` and `ArcTests`: the in-crate tests, stated as lemmas.

In four places the code and its own tests or documentation disagree. The members that model
an operation follow the code in each; where the code is logged under "## Findings", a separately
named corrected definition sits beside it, and the lemmas say which of the two they are about.

- **Distance sign in the half-plane tests.** `HalfPlane::distance` computes
  `point.dot(normal) - offset`. The in-file tests of src/plane.rs expect `dot + offset`, with
  the boundary at `-offset`. `Plane.OffsetSign` states the code's values.
- **Side kept by the polygon clip.** The `intersect_plane` test of src/polygon/line.rs expects
  the clip by `from_normal((1, 0), (1, 0))` to keep the half `x <= 1`. That half-plane's inside
  is `x >= 1`, and the clip keeps that side (`StraightPolygonTests.SquareClipInside`).
- **Side kept by the circle cut.** The circle/half-plane cut and the circle/line intersection
  are logged under "## Findings", together with the shoelace centroid. The disk cut, the
  circle/segment intersection, the polygon moment, the arc polygon moment and the polygon-disk
  clip are built on the code as written, as in the source. The corrected forms, which the
  crate's own circle tests expect, are `CircleHalfPlane`, `CircleLine`, `DiskHalfPlaneCorrected`
  and `ShoelaceMoment`. Rows marked "Corrected" are about them.
- **Winding number of a straight polygon.** The `Closed` trait at src/lib.rs:31-34 says that a
  simple counter-clockwise polygon gives 2 for points inside. The straight polygon's
  `winding_number_2` at src/polygon/line.rs:26-41 adds 1 per crossing, so an inside point gets 1.
  The model counts 1, as the code does (`StraightPolygonTests.TriangleContainsInterior`). The arc
  polygon's winding number at src/polygon/circle.rs:25-35 adds this count of 1 to the disk
  segments' counts of ±2. Containment uses only the sign, so it is unaffected.

## Model

| member | source | states |
|---|---|---|
| Geom.Merge | src/lib.rs:84-91 | A total area below `EPS` gives the default moment. Otherwise the areas add, and so do the first moments (centroid times area). |
| Geom.MergeCommutative | src/lib.rs:84-91 | Merging is symmetric. |
| Geom.MergeZeroArea | src/lib.rs:84-91 | Merging a zero-area moment into a non-negligible one leaves it unchanged. |
| Geom.MergeAssociative | src/lib.rs:84-91 | Merging is associative when every partial area is at least `EPS`. |
| Geom.OptionWinding | src/lib.rs:96-103 | `None` winds 0 around every point. `Some(s)` winds as `s` does. |
| Geom.NoneContainsNothing | src/lib.rs:96-103 | `None` contains no point. |
| Geom.OptionMoment | src/lib.rs:105-112 | `None` has the default moment. `Some(s)` has the moment of `s`. |
| Geom.EitherWinding | src/lib.rs:114-121 | `Left` and `Right` wind as the shape they carry. |
| Geom.EitherMoment | src/lib.rs:123-130 | `Left` and `Right` have the moment of the shape they carry. |
| Polygons.New | src/polygon/mod.rs:21-28 | The polygon has exactly the given vertices. |
| Polygons.FromIter | src/polygon/mod.rs:30-34 | The polygon collects the items in order. Its length is their number. |
| Polygons.Eq | src/polygon/mod.rs:36-42 | Two polygons are equal exactly when their vertex sequences are equal. |
| Polygons.SeqEq | src/polygon/mod.rs:39-41 | Slice equality is sequence equality. |
| Polygons.EqIsEquivalence | src/polygon/mod.rs:36-42 | Polygon equality is reflexive, symmetric and transitive. |
| Polygons.Len | src/polygon/mod.rs:49-51 | The length is the number of vertices. |
| Polygons.IsEmpty | src/polygon/mod.rs:52-54 | A polygon is empty exactly when its length is 0. |
| Polygons.Rotate | src/polygon/mod.rs:60-64 | One scan step shifts the window left by one and puts the new vertex last. |
| Polygons.ScanWindows | src/polygon/mod.rs:56-68 | The scan produces one window state per item. |
| Polygons.ScanState | src/polygon/mod.rs:60-64 | After `k + 1` items, the window holds the `N` most recent entries of the initial `None`s followed by the items. |
| Polygons.KeptStates | src/polygon/mod.rs:65-67 | After `skip(N - 1)`, each kept window holds `N` consecutive vertices of the doubled vertex list. |
| Polygons.WindowValues | src/polygon/mod.rs:56-68 | Unwrapped windows hold the vertices at cyclic indices `i, i + 1, …, i + N - 1`. |
| Polygons.VerticesWindow | src/polygon/mod.rs:56-68 | The number of windows is `min(n, max(0, 2n - N + 1))`. Window `i` holds the vertices at `(i + j) % n`. |
| Polygons.PairWindows | src/polygon/mod.rs:56-73 | A polygon with `n >= 1` vertices has `n` pairs, each a vertex and its cyclic successor. An empty polygon has none. |
| Polygons.Edges | src/polygon/mod.rs:70-73 | Edge `i` is built from vertex `i` and its cyclic successor. An empty polygon has no edges. |
| Polygons.MapPairs | src/polygon/mod.rs:71-72 | Every pair becomes the edge built from it, in order. |
| Polygons.EdgesOfSmallPolygons | src/polygon/mod.rs:70-73 | An empty polygon has no edges. A single vertex has one edge from itself to itself. |
| Lines.IntersectLines | src/line.rs:74-120 | Lines that are not nearly parallel meet in a point on both lines. Otherwise the result is `None` or one of the two start points. When `other` is not degenerate, it is `self.0` exactly when `other` is near `self.0`, and `None` otherwise. When only `other` is degenerate, it is `other.0` exactly when `self` is near `other.0`. |
| Lines.LinesMeetOnce | src/line.rs:74-120 | Lines that are not nearly parallel meet in their one common point. |
| Lines.LinesCommute | src/line.rs:74-120 | Lines that are not nearly parallel intersect in the same point in either order. |
| Lines.IntersectSegmentLine | src/line.rs:122-177 | A transversal crossing is kept exactly when its parameter on the segment is in range. A collinear overlap gives the segment's midpoint. A parallel, non-collinear line gives `None`. A degenerate segment gives its point exactly when that point is near the line. A degenerate line gives its point exactly when the point is near the segment's line and its parameter on the segment is in range. Two degenerate operands give the first point when they are within `EPS`. |
| Lines.IntersectLineSegment | src/line.rs:179-184 | The line/segment intersection is the segment/line one. |
| Lines.IntersectSegments | src/line.rs:186-265 | A transversal crossing is kept exactly when its parameter is in range on both segments. For parallel non-degenerate segments, the result is `self.0 + r * OverlapMid` exactly when `other.0` is near `self`'s line and the projections overlap; otherwise it is `None`. When only one segment is degenerate, its point is the result exactly when it is near the other segment's line and its parameter on the other segment is in range. Two degenerate segments give the first point when they are within `EPS`. |
| Lines.CollinearOverlapPoint | src/line.rs:214-229 | The point of two collinear segments lies on the first segment's line, and `other.0` is near that line. Its parameter there is within `EPS/2` of `[0, 1]` and of the span of the second segment's projected ends. |
| Lines.MidWithinEnds | src/line.rs:218-227 | When the projected span overlaps `[0, 1]` within `EPS`, the midpoint of `[max(t_min, 0), min(t_max, 1)]` is within `EPS/2` of `[t_min, t_max]`. |
| Lines.SegmentsCommute | src/line.rs:186-265 | Transversal segments intersect in the same point in either order. |
| Lines.BothDegenerate | src/line.rs:74-265 | When both operands are points, all three intersections give the first point if the two are within `EPS`, and `None` otherwise. |
| Lines.OverlapMidInRange | src/line.rs:214-229 | The midpoint parameter of a collinear overlap lies in `[-EPS/2, 1 + EPS/2]`. |
| Lines.LineNearOwnPoints | src/line.rs:18-29 | Every point on a non-degenerate line is near it. |
| Lines.SegmentNearOwnPoints | src/line.rs:44-61 | Every point between a segment's ends is near it. |
| Lines.SegmentNearImpliesLineNear | src/line.rs:18-61 | A point near a segment is near its line, except where the cross product is exactly `EPS`. |
| Lines.SegmentNearBoundary | src/line.rs:18-61 | The point `(0.5, EPS)` is near the segment `(0, 0) -> (1, 0)` but not near its line, because one test compares with `<= EPS` and the other with `< EPS`. |
| Lines.Line.IsDegenerate | src/line.rs:13-15 | A line is degenerate exactly when both coordinates of `1 - 0` are below `EPS` in absolute value. |
| Lines.Line.IsNear | src/line.rs:17-29 | No contract of its own. `Lines.LineNearOwnPoints` proves that every point of a non-degenerate line is near it. `Lines.SegmentNearBoundary` shows its strict `< EPS` test. `Lines.NearStarts` relates it to the cross products of the intersections. |
| Lines.LineSegment.ToLine | src/line.rs:33-36 | The line has the segment's direction, and both segment ends are near it. |
| Lines.LineSegment.IsDegenerate | src/line.rs:38-41 | A segment is degenerate exactly when both coordinates of its direction are below `EPS`, whichever way round its ends are taken. |
| Lines.LineSegment.IsNear | src/line.rs:43-61 | No contract of its own. `Lines.SegmentNearOwnPoints` proves every point between the ends near the segment, and `Lines.SegmentNearImpliesLineNear` relates it to the line test. |
| Plane.FromNormal | src/plane.rs:16-21 | The half-plane has the given normal, and the given point is on its boundary. |
| Plane.FromEdge | src/plane.rs:26-28 | The first edge point is on the boundary. |
| Plane.FromEdgeNormal | src/plane.rs:26-28 | With an exact square root, the normal is the edge direction turned left and normalised, so it is a unit vector. |
| Plane.FromEdgeSide | src/plane.rs:23-28 | The distance times the edge length is the cross product of the edge with the point. |
| Plane.FromEdgeContains | src/plane.rs:23-28 | The inside of `from_edge(a, b)` is the left of `a -> b`, its boundary included. |
| Plane.DistanceAlongNormal | src/plane.rs:30-34 | Moving by `k` along a unit normal adds `k` to the distance. |
| Plane.Distance | src/plane.rs:30-34 | No contract of its own. `Plane.DistanceToBoundary` and `Plane.DistanceAlongNormal` state what it measures. `Plane.OffsetSign` gives the test's values. |
| Plane.DistanceToBoundary | src/plane.rs:30-39 | With a unit normal, stepping back from a point by its distance along the normal lands on the boundary. The distance is the normal component of the point's offset from `boundary_point`. That point lies on the normal through the origin. |
| Plane.BoundaryPoint | src/plane.rs:36-39 | No contract of its own. `Plane.DistanceToBoundary` and `Plane.EdgeOnBoundary` prove that, with a unit normal, it lies on the boundary and on the normal through the origin. |
| Plane.OffsetSign | src/plane.rs:106-117 | The distance is `dot - offset`. For normal `(0, 1)` and offset `-2`, the distance of `(10, 2)` is 4 and of `(10, -2)` is 0. |
| Plane.Edge | src/plane.rs:36-44 | The boundary line starts at `normal * offset` and runs perpendicular to the normal. |
| Plane.EdgeOnBoundary | src/plane.rs:36-44 | With a unit normal, both points of `edge()` are at distance 0. |
| Plane.FromEdgeOfEdge | src/plane.rs:26-44 | With a unit normal, `from_edge` of the half-plane's own edge gives the half-plane back. |
| Plane.Winding2 | src/plane.rs:47-51 | The value is `signum(distance)`: 1 on the inside or the boundary, -1 outside. |
| Plane.ContainsIffDistance | src/plane.rs:47-51 | A half-plane contains exactly the points at non-negative distance. |
| Plane.HalfPlaneContains | src/lib.rs:40-42 | No contract of its own. `Plane.ContainsIffDistance` proves that it holds exactly at non-negative distance. |
| Circles.DiskEdge | src/circle.rs:52-55 | Filling the boundary circle gives the disk back. |
| Circles.NewDisk | src/circle.rs:47-50 | The disk has the given center and radius. |
| Circles.DiskContains | src/lib.rs:40-42 | No contract of its own. `Circles.DiskContainsIff`, `Circles.DiskContainsWithinRadius` and `Circles.InvertedDiskContainsNothing` state which points it holds. |
| Circles.DiskMoment | src/circle.rs:83-90 | The centroid is the center, and the area is `PI * |radius|^2`, whatever the radius's sign. |
| Circles.Signum | src/circle.rs:73-80 | The sign is -1 below zero and 1 otherwise. |
| Circles.DiskWinding | src/circle.rs:73-81 | The value is 0 or ±2. |
| Circles.DiskContainsIff | src/circle.rs:73-81 | A disk contains exactly the points within the radius in squared distance, and only when its radius is not negative. |
| Circles.DiskContainsWithinRadius | src/circle.rs:73-81 | With an exact square root, a disk of non-negative radius contains exactly the points at most `radius` from its center. |
| Circles.InvertedDiskContainsNothing | src/circle.rs:73-81 | A disk of negative radius winds -2 or 0 and contains nothing. |
| Circles.DiskMomentSignFree | src/circle.rs:83-90 | The moment is centered on the center and does not depend on the sign of the radius. |
| CircleIntersections.Complement | src/circle.rs:155-181 | The complement's distance is the negated distance, everywhere. |
| CircleIntersections.CircleHalfPlaneAsWritten | src/circle.rs:155-181 | As written: `None` exactly when `distance(center) > radius`. The whole circle when `radius + distance <= EPS`. Otherwise an arc of sagitta `radius - distance`. |
| CircleIntersections.CutAt | src/circle.rs:158-180 | The case split on the apothem, with the sagitta `radius - apothem`. |
| CircleIntersections.CircleHalfPlane | src/circle.rs:155-181 | Corrected: `None` exactly when the circle is entirely outside. The whole circle when it is inside up to `EPS`. Otherwise an arc of sagitta `radius + distance`. |
| CircleIntersections.DiskHalfPlane | src/circle.rs:190-198 | As written, `None` exactly when the center is more than a radius inside the half-plane. The whole disk comes back only when `radius + distance(center) <= EPS`. A disk segment carries the arc of the circle cut as written. |
| CircleIntersections.DiskHalfPlaneCorrected | src/circle.rs:190-198 | Corrected: `None` exactly when the disk lies entirely outside. The whole disk when it is inside up to `EPS`. A disk segment carries the arc of the corrected circle cut. |
| CircleIntersections.CircleLineAsWritten | src/circle.rs:102-128 | A degenerate line gives `None`. The order of the points is stated by `CircleIntersectionProperties.AsWrittenArcOrder`. |
| CircleIntersections.LineCut | src/circle.rs:105-127 | No contract of its own. `CircleIntersectionProperties.CircleLineAsWrittenPoints` and `CircleIntersectionProperties.LineArcEnds` state where its points lie, and `CircleTests.ReversedCut` states that the cuts by a half-plane and by its complement are reversed. |
| CircleIntersections.CircleLine | src/circle.rs:102-128 | Corrected: a degenerate line gives `None`. Where the points lie is stated by `CircleIntersectionProperties.CircleLinePoints`. |
| CircleIntersections.CircleSegment | src/circle.rs:137-146 | As written: `None` exactly when the line cut as written is `None`. Otherwise each of its points is kept exactly when it is between the segment's ends. |
| CircleIntersections.DiskDisk | src/circle.rs:207-250 | `None` exactly when the centers are farther apart than the sum of the radii. One disk inside the other gives the one with the smaller radius. Otherwise the result is a two-vertex lens. |
| CircleIntersectionProperties.AsWrittenArcGeometry | src/circle.rs:155-181 | With a unit normal: both arc ends are on the circle and on the boundary, and the chord midpoint is the foot from the center. The arc bulges on the side away from the occupied side. |
| CircleIntersectionProperties.CutChord | src/circle.rs:158-180 | The half chord satisfies `hc^2 = r^2 - a^2`. |
| CircleIntersectionProperties.CutBounds | src/circle.rs:158-180 | An arc cut has `-r < a <= r`. |
| CircleIntersectionProperties.CutArc | src/circle.rs:158-180 | Both ends of the chord arc are on the circle and at apothem `a` along the normal, `2 hc` apart. |
| CircleIntersectionProperties.ArcInsideHalfPlane | src/circle.rs:155-181 | Corrected: both arc ends are on the circle and on the boundary. The arc bulges into the occupied side, and its sagitta is the depth of the circle's farthest point. |
| CircleIntersectionProperties.InsideCircleWhole | src/circle.rs:163-168 | A circle inside the half-plane up to `EPS` comes back whole. |
| CircleIntersectionProperties.LinePlane | src/circle.rs:105-108 | `from_edge` of a non-degenerate line has a unit normal, and its boundary points lie on the line. |
| CircleIntersectionProperties.CircleLinePoints | src/circle.rs:95-128 | Corrected: both points lie on the line, in the line's direction. Unless the line is tangent, both are on the circle. |
| CircleIntersectionProperties.CircleLineAsWrittenPoints | src/circle.rs:102-128 | As written: both points lie on the line, against the line's direction. Unless the line is tangent, both are on the circle. |
| CircleIntersectionProperties.CircleSegmentPoints | src/circle.rs:137-146 | As written: each kept point lies on the segment's line and is between its ends. Two kept points come against the segment's direction. |
| CircleIntersectionProperties.LineArcEnds | src/circle.rs:109-114 | The reversed arc ends lie on the line and on the circle, ordered along the line. |
| CircleIntersectionProperties.LineTangent | src/circle.rs:115-121 | The tangent point lies on the line. |
| CircleIntersectionProperties.TangentOnBoundary | src/circle.rs:118-120 | The projected tangent point is on the boundary. |
| CircleIntersectionProperties.AsWrittenArcOrder | src/circle.rs:109-114 | As written, the points come back as the reversed arc ends, which run against the line's direction. |
| DiskIntersectionProperties.LensParts | src/circle.rs:210-226 | In the lens branch, `dir` is the unit vector between the centers, `a1` is the self apothem, and `h^2` is the common half chord squared from both circles. |
| DiskIntersectionProperties.LensApothems | src/circle.rs:218-224 | When the circles cross, `r1^2 - a1^2 = r2^2 - a2^2 >= 0`, with `a2 = distance - a1`. |
| DiskIntersectionProperties.LensBranch | src/circle.rs:214-237 | A lens result is exactly the two vertices `m -+ perp(dir) h` with sagittas `r1 - a1` and `r2 - a2`. |
| DiskIntersectionProperties.LensOf | src/circle.rs:214-237 | When the circles cross, the result is that lens. |
| DiskIntersectionProperties.LensOnBothCircles | src/circle.rs:207-237 | Both lens vertices lie on both circles. |
| DiskIntersectionProperties.LensChord | src/circle.rs:218-237 | The chord midpoint is `r - sagitta` along the center line from each center. The chord is perpendicular to that line and points to its left. |
| DiskIntersectionProperties.DiskDiskSwap | src/circle.rs:207-250 | Swapping the disks changes no `None` and no nested result, and reverses the lens's vertices. |
| DiskIntersectionProperties.SwapNested | src/circle.rs:238-245 | A nested result is the same in either order. |
| DiskIntersectionProperties.SwapLens | src/circle.rs:215-237 | The swapped lens has the same two vertices, in reverse order. |
| Arcs.SegmentWinding | src/arc.rs:62-82 | The value is 0 or ±2, and 0 for a sagitta below `EPS`. When non-zero, it has the sagitta's sign. For a sagitta of at least `EPS` and a non-empty chord, it is `2 * signum(sagitta)` exactly when the point is in the disk of the rebuilt circle and strictly on the bulge side of the chord. |
| Arcs.Chord | src/arc.rs:32-36 | The chord runs from the first end to the second. Its half length is `HalfChord`, and both ends are near it. |
| Arcs.ArcFromVertices | src/arc.rs:45-53 | The arc's chord is the straight edge between the two vertex points, and its sagitta is the first vertex's. |
| Arcs.BulgeOf | src/arc.rs:71-74 | The radius is positive. The rebuilt circle's farthest point along the normal is `|sagitta|` from the chord midpoint along that normal, which is the arc's midpoint. With an exact square root, `Arcs.BulgeThroughEnds` adds the rest. |
| Arcs.SegmentMoment | src/arc.rs:89-99 | A sagitta below `EPS` gives zero area and zero first moment, at the chord midpoint. |
| ArcTests.SegmentContainsTest | src/tests/arc.rs:44-56 | With an exact square root, the segment of the arc `(4, 1) -> (1, 1)` with sagitta 4 contains `(2.5, 4.99)` and `(2.5, 1.01)` (winding 2). It does not contain `(2.5, 5.01)` or `(2.5, 0.99)` (winding 0). |
| Arcs.BehindChordOutside | src/arc.rs:62-82 | Points on the chord or behind it are not in the segment. |
| Arcs.BulgeThroughEnds | src/arc.rs:71-74 | The rebuilt circle passes through both chord ends, and its normal is a unit vector perpendicular to the chord. |
| StraightPolygon.SegmentEdges | src/polygon/mod.rs:70-73 | Edge `i` of a straight polygon runs from vertex `i` to its cyclic successor. |
| StraightPolygon.EdgesOfReverse | src/polygon/mod.rs:70-73 | The edges of the reversed polygon are the original edges, flipped and in reverse cyclic order. |
| StraightPolygon.IsConvex | src/polygon/line.rs:7-19 | The method returns true exactly when no two turns have opposite signs, taking the first non-zero turn as the reference. |
| StraightPolygon.ConvexScan | src/polygon/line.rs:8-18 | The loop over the windows decides the same predicate. |
| StraightPolygon.OppositeTurns | src/polygon/line.rs:12-16 | A positive turn and a negative turn make a polygon non-convex. |
| StraightPolygon.SmallPolygonsConvex | src/polygon/line.rs:7-19 | Polygons of at most two vertices are convex. |
| StraightPolygon.LeftTriangleConvex | src/polygon/line.rs:192-231 | A triangle that never turns right is convex. |
| StraightPolygon.LeftQuadrilateralConvex | src/polygon/line.rs:192-231 | A quadrilateral that never turns right is convex. |
| StraightPolygon.MixedHexagon | src/polygon/line.rs:192-231 | A hexagon with a left turn and a right turn is not convex. |
| StraightPolygon.EdgeWinding | src/polygon/line.rs:26-41 | An edge counts +1 exactly for an upward crossing with the point strictly left of it, and -1 exactly for a downward crossing with the point strictly right of it. |
| StraightPolygon.HorizontalEdgeWinding | src/polygon/line.rs:26-41 | Horizontal edges never count. |
| StraightPolygon.EdgeWindingFlip | src/polygon/line.rs:26-41 | Flipping an edge negates its count. |
| StraightPolygon.WindingNumber2 | src/polygon/line.rs:22-45 | The method returns the sum of the edge counts. |
| StraightPolygon.Winding | src/polygon/line.rs:22-44 | No contract of its own: it specifies `WindingNumber2`. `StraightPolygon.WindingBound` and `StraightPolygon.WindingReversed` state its bounds and its behaviour under reversal. |
| StraightPolygon.CrossingCount | src/polygon/line.rs:24-43 | The loop computes the sum of the edge counts. |
| StraightPolygon.WindingBound | src/polygon/line.rs:22-45 | The winding number is between `-n` and `n` for `n` edges. |
| StraightPolygon.WindingReversed | src/polygon/line.rs:22-45 | Reversing the vertices negates the winding number. |
| StraightPolygon.PointOutsideVerticalRange | src/polygon/line.rs:22-45 | A point strictly below every vertex, or at or above every vertex, has winding 0 and is not contained. |
| StraightPolygon.TriangleWinding | src/polygon/line.rs:22-45 | A triangle winds as the sum of its three edge counts. |
| StraightPolygon.HexagonWinding | src/polygon/line.rs:22-45 | A hexagon winds as the sum of its six edge counts. |
| StraightPolygon.ShoelaceAsWritten | src/polygon/line.rs:47-65 | As written: the area is half the absolute shoelace sum. The centroid is 0 below `EPS`, and otherwise satisfies `centroid * 3|S| = sum (a + b)(a x b)`. |
| StraightPolygon.ShoelaceMoment | src/polygon/line.rs:47-65 | Corrected: the area is half the absolute shoelace sum. The centroid is 0 below `EPS`, and otherwise satisfies `centroid * 3S = sum (a + b)(a x b)`. |
| StraightPolygon.PolygonMoment | src/polygon/line.rs:47-65 | The method returns the shoelace moment as written. |
| StraightPolygon.MomentOfSums | src/polygon/line.rs:61-64 | From the two sums, the method computes the area and centroid as written. |
| StraightPolygon.ShoelaceSums | src/polygon/line.rs:50-56 | The loop accumulates the cross sum and the centroid sum. |
| StraightPolygon.SumsReversed | src/polygon/line.rs:47-65 | Reversing the vertices negates both shoelace sums. |
| StraightPolygon.MomentReversed | src/polygon/line.rs:47-65 | The corrected moment does not depend on the orientation. |
| StraightPolygon.AsWrittenCounterClockwise | src/polygon/line.rs:57-62 | For counter-clockwise polygons, the code as written equals the corrected moment. |
| StraightPolygon.AsWrittenClockwise | src/polygon/line.rs:57-62 | For clockwise polygons of area at least `EPS`, the code as written negates the centroid. |
| StraightPolygon.QuadrilateralSums | src/polygon/line.rs:141-156 | The shoelace sums of a quadrilateral, in closed form. |
| StraightPolygon.QuadrilateralSumsReversed | src/polygon/line.rs:141-156 | The sums of the reversed quadrilateral are the negated ones. |
| StraightPolygonTests.TriangleTurnValues | src/polygon/line.rs:192-231 | The triangle of the `is_convex` test turns left by 4 at each vertex. |
| StraightPolygonTests.ConvexTriangle | src/polygon/line.rs:192-231 | The triangle of the `is_convex` test is convex. |
| StraightPolygonTests.SquareTurnValues | src/polygon/line.rs:192-231 | The square of the `is_convex` test turns left by 4 at each vertex. |
| StraightPolygonTests.ConvexSquare | src/polygon/line.rs:192-231 | The square of the `is_convex` test is convex. |
| StraightPolygonTests.HexagonTurnValues | src/polygon/line.rs:192-231 | The L-shaped hexagon turns left at one vertex and right at another. |
| StraightPolygonTests.ConcaveExample | src/polygon/line.rs:192-231 | The L-shaped hexagon of the `is_convex` test is not convex. |
| StraightPolygonTests.TriangleInteriorEdges | src/polygon/line.rs:158-190 | Only the right edge of the `is_inside` test's triangle counts for the points `(x, 0.5)`, `0.5 <= x <= 1.5`. |
| StraightPolygonTests.TriangleContainsInterior | src/polygon/line.rs:158-190 | The triangle winds once around, and so contains, every point `(x, 0.5)` with `0.5 <= x <= 1.5`, the test's three inside points among them. |
| StraightPolygonTests.TriangleExteriorEdges | src/polygon/line.rs:158-190 | No edge counts for `(3, 3)` or `(-1, -1)`. |
| StraightPolygonTests.TriangleExcludesExterior | src/polygon/line.rs:158-190 | The triangle does not contain `(3, 3)` or `(-1, -1)`. |
| StraightPolygonTests.NotchFirstEdges | src/polygon/line.rs:158-190 | The counts of the first three edges of the L-shaped hexagon for the notch point `(0.5, 1.5)`: 0, 1 and 0. |
| StraightPolygonTests.NotchLastEdges | src/polygon/line.rs:158-190 | The counts of the last three edges for the notch point: -1, 0 and 0, so the total is 0. |
| StraightPolygonTests.BodyFirstEdges | src/polygon/line.rs:158-190 | The counts of the first three edges for `(1.5, 0.5)`: 0, 1 and 0. |
| StraightPolygonTests.BodyLastEdges | src/polygon/line.rs:158-190 | The counts of the last three edges for `(1.5, 0.5)`: all 0, so the total is 1. |
| StraightPolygonTests.ConcaveContainment | src/polygon/line.rs:158-190 | The L-shaped hexagon excludes its notch point and contains `(1.5, 0.5)`. |
| StraightPolygonTests.RectangleTerms | src/polygon/line.rs:141-156 | The shoelace sums of the 3 x 2 rectangle are 12 and `(54, 36)`. |
| StraightPolygonTests.RectangleFromSums | src/polygon/line.rs:141-156 | These sums give area 6 and centroid `(1.5, 1)`, both as written and corrected. |
| StraightPolygonTests.RectangleMoment | src/polygon/line.rs:141-156 | The rectangle of the `square_clump` test has area 6 and centroid `(1.5, 1)`. |
| StraightPolygonTests.ReversedRectangleFromSums | src/polygon/line.rs:57-62 | The reversed sums give centroid `(1.5, 1)` corrected, and `(-1.5, -1)` as written. |
| StraightPolygonTests.ReversedRectangleMoment | src/polygon/line.rs:57-62 | The clockwise rectangle gets centroid `(-1.5, -1)` as written and `(1.5, 1)` corrected. |
| StraightPolygonTests.IntersectPlaneValues | src/polygon/line.rs:233-256 | In the `intersect_plane` test, `(0, 0)` and `(0, 2)` are at distance -1 from the boundary of `from_normal((1, 0), (1, 0))`, and `(2, 0)` and `(2, 2)` at distance 1. |
| StraightPolygonTests.SquareClipInside | src/polygon/line.rs:70-104 | A quadrilateral with those four distances can be clipped, and every vertex of its clip is inside. So `(0, 0)` and `(0, 2)`, which the test expects in the result, are not in it. |
| StraightPolygonTests.SeparatedStep | src/polygon/line.rs:85-88 | A step whose end distances differ by more than `EPS` has a crossing within tolerance. |
| StraightPolygonTests.UnwrapCanFail | src/polygon/line.rs:83-90 | Clipping `[(1, 0), (0, -EPS)]` by `y >= 0` panics in the `unwrap()`. |
| StraightPolygonTests.TwoVertexPanics | src/polygon/line.rs:83-90 | A two-vertex polygon whose closing edge is a shallow entry cannot be clipped. |
| StraightPolygonTests.ShallowEntryValues | src/polygon/line.rs:83-90 | The distances of the panicking instance: `-EPS` and 0. |
| ClipWalks.StepCount | src/polygon/line.rs:79-96 | A step emits at most two vertices. It emits two exactly when it enters, none exactly when both ends are outside, an inside end last, and the crossing first when it changes side. |
| ClipWalks.ClipWalk | src/polygon/line.rs:71-97 | The `flat_map` loop computes the walk from the last vertex. |
| ClipWalks.WalkStep | src/polygon/line.rs:79-96 | Extending the walk by one vertex appends that step's output. |
| ClipWalks.WalkLength | src/polygon/line.rs:79-97 | A walk emits at most two vertices per step. |
| ClipWalks.AllInsideWalk | src/polygon/line.rs:82 | A walk that stays inside emits its vertices unchanged. |
| ClipWalks.NoneInsideWalk | src/polygon/line.rs:91 | A walk that stays outside emits nothing. |
| ClipWalks.WalkInside | src/polygon/line.rs:79-96 | When every crossing exists and is inside, the walk is defined and emits only inside points. |
| ClipWalks.FoldAppend | src/polygon/line.rs:125-128 | Folding over `a + b` is folding over `a`, then, unless that gave `None`, over `b`. |
| ClipWalks.FoldHead | src/polygon/line.rs:125-128 | One fold step: `None` stops the fold, and otherwise the fold continues on the rest. |
| StraightClip.Clip | src/polygon/line.rs:70-104 | An empty polygon gives `None`, and a `Some` result is never empty. |
| StraightClip.IntersectHalfPlane | src/polygon/line.rs:70-104 | The method returns the Sutherland-Hodgman clip when every `unwrap()` succeeds. |
| StraightClip.HalfPlaneIntersectPolygon | src/polygon/line.rs:107-113 | The swapped operands give the same clip. |
| StraightClip.ClipLength | src/polygon/line.rs:70-104 | The clip has at most twice as many vertices as the polygon. |
| StraightClip.AllInsideKeepsPolygon | src/polygon/line.rs:70-104 | A polygon entirely inside comes back unchanged. |
| StraightClip.NoneInsideIsNone | src/polygon/line.rs:70-104 | A polygon entirely outside gives `None`. |
| StraightClip.ShallowEntryHasNoCrossing | src/polygon/line.rs:87-88 | A step from distance `-EPS` to the boundary enters but has no crossing. |
| StraightClip.ShallowClosingEdgePanics | src/polygon/line.rs:71-88 | A polygon whose closing edge is such a step cannot be clipped. |
| StraightClip.TransversalCrossing | src/polygon/line.rs:83-90 | A transversal step that changes side has a crossing on the boundary. |
| StraightClip.ClipInside | src/polygon/line.rs:70-104 | When every side-changing edge is transversal, the clip is defined and every vertex is inside. |
| StraightClip.EdgePlanes | src/polygon/line.rs:125-126 | One half-plane `from_edge(a, b)` per edge of `other`, in edge order. |
| StraightClip.IntersectPolygon | src/polygon/line.rs:121-131 | The method returns the fold of the half-plane clips over `other`'s edges, stopping at the first `None`. |
| StraightClip.ClipByAll | src/polygon/line.rs:122-130 | The loop computes that fold. |
| StraightClip.NoEdgesKeepsSelf | src/polygon/line.rs:121-131 | Clipping by a polygon with no edges returns `self`. |
| StraightClip.EmptyStaysEmpty | src/polygon/line.rs:127 | Once empty, the clip stays empty. |
| StraightClip.InsideKeepsSelf | src/polygon/line.rs:121-131 | A polygon inside every half-plane of `other` is its own clip. |
| StraightClip.InsidePlanesKeepSelf | src/polygon/line.rs:125-128 | A polygon inside each half-plane passes through the fold unchanged. |
| ArcPolygons.Frame | src/polygon/circle.rs:11-15 | The frame has the vertex points, in order. |
| ArcPolygons.ArcEdges | src/polygon/mod.rs:70-73 | Edge `i` is the arc from vertex `i` to its cyclic successor. |
| ArcPolygons.ArcWindingNumber2 | src/polygon/circle.rs:25-35 | The method returns the frame's winding number plus the disk-segment counts. |
| ArcPolygons.ArcWinding | src/polygon/circle.rs:25-35 | No contract of its own: it specifies `ArcWindingNumber2`. `ArcPolygons.ArcWindingNearFrame` and `ArcPolygons.FlatArcsWinding` relate it to the frame's winding number. |
| ArcPolygons.AddSegmentWindings | src/polygon/circle.rs:29-31 | The loop adds every disk segment's count. |
| ArcPolygons.FrameEdgesAreChords | src/polygon/circle.rs:11-15 | The frame's edges are the chords of the arc edges, and each arc has its start vertex's sagitta. |
| ArcPolygons.FlatArcEdges | src/polygon/circle.rs:29-31 | A flat polygon's arcs all have sagitta below `EPS`. |
| ArcPolygons.FlatSegmentWindings | src/polygon/circle.rs:29-31 | Flat arcs add nothing to the count. |
| ArcPolygons.FlatArcsWinding | src/polygon/circle.rs:25-35 | A flat arc polygon winds, and contains, exactly as its frame does. |
| ArcPolygons.SegmentWindingsBound | src/polygon/circle.rs:29-31 | The arcs change the count by at most `2n`. |
| ArcPolygons.SegmentWindingsEven | src/polygon/circle.rs:29-31 | The arcs change the count by an even number. |
| ArcPolygons.ArcWindingNearFrame | src/polygon/circle.rs:25-35 | The arc polygon's count has the frame's parity and is within `2n` of it. |
| ArcPolygons.ArcPolygonMoment | src/polygon/circle.rs:37-47 | The method returns the frame's moment as written, merged with every segment moment. |
| ArcPolygons.ArcMoment | src/polygon/circle.rs:37-47 | No contract of its own: it specifies `ArcPolygonMoment`. `ArcPolygons.ArcMomentCounterClockwise` and `ArcPolygons.FlatArcsMoment` relate it to the frame's moment. |
| ArcPolygons.ArcMomentCounterClockwise | src/polygon/circle.rs:37-47 | With a counter-clockwise frame, the moment starts from the frame's corrected moment. |
| ArcPolygons.MergeSegmentMoments | src/polygon/circle.rs:41-43 | The loop merges every segment moment in order. |
| ArcPolygons.MergeFlatSegments | src/polygon/circle.rs:41-43 | Flat segments keep a non-negligible moment, and reset a negligible one to the default. |
| ArcPolygons.FlatArcsMoment | src/polygon/circle.rs:37-47 | A flat arc polygon has its frame's moment as written, or the default moment below `EPS`. |
| DiskClips.Step | src/polygon/circle.rs:63-121 | Each step moves to the next vertex and records whether it is inside. |
| DiskClips.IntersectTo | src/polygon/circle.rs:52-148 | The method returns the deduplicated generator output, or else the whole disk when the polygon contains the center, or else `None`. |
| DiskClips.ClipGenerator | src/polygon/circle.rs:54-128 | The generator computes the walk over the edges from the first vertex round to itself, closing the last open arc. |
| DiskClips.ClipEdge | src/polygon/circle.rs:64-120 | The loop body performs exactly one step of the walk. |
| DiskClips.EnterClip | src/polygon/circle.rs:79-96 | Entering emits the arc from `last` or records `first`, then the entry point. |
| DiskClips.Deduplicate | src/polygon/circle.rs:131-141 | The `filter_map` keeps exactly the vertices that differ from their cyclic successor. |
| DiskClips.PolygonDisk | src/polygon/circle.rs:52-148 | No contract of its own: it is the reference that `DiskClips.IntersectTo` is proved equal to. `DiskClipProperties.AllInsideIntersection`, `DiskClipProperties.MissIntersection`, `DiskClipProperties.EmptyPolygonIntersection` and `DiskClipProperties.ClipEdgesOfDisk` state its cases. |
| DiskClips.ClipVertices | src/polygon/circle.rs:54-128 | No contract of its own: it specifies `DiskClips.ClipGenerator`. `DiskClipProperties.AllInsideVertices`, `DiskClipProperties.MissVertices` and `DiskClipProperties.ClipEdgesOfDisk` state what it yields. |
| DiskClips.Enter | src/polygon/circle.rs:79-96 | No contract of its own: it specifies `DiskClips.EnterClip`. `DiskClipProperties.EnterShape` proves that it keeps the generator's invariant. |
| DiskClips.Close | src/polygon/circle.rs:122-127 | No contract of its own. `DiskClipProperties.CloseShape` proves that closing on `first` makes the chain cyclic. |
| DiskClips.Dedup | src/polygon/circle.rs:131-141 | No contract of its own: it specifies `DiskClips.Deduplicate`. `DiskClipProperties.DedupMembers`, `DiskClipProperties.DedupAllDiffer` and `DiskClipProperties.DedupSingle` state what it keeps. |
| DiskClipProperties.DedupPrefixAllDiffer | src/polygon/circle.rs:131-141 | When all vertices differ from their successors, the prefix is kept as is. |
| DiskClipProperties.DedupAllDiffer | src/polygon/circle.rs:131-141 | Then deduplication changes nothing. |
| DiskClipProperties.DedupPrefixMembers | src/polygon/circle.rs:131-141 | The kept prefix holds exactly the differing vertices, and it is no longer than the input. |
| DiskClipProperties.DedupMembers | src/polygon/circle.rs:131-141 | Deduplication keeps exactly the vertices that differ from their cyclic successor, and never lengthens. |
| DiskClipProperties.DedupSingle | src/polygon/circle.rs:131-141 | A single vertex is its own successor and is dropped. |
| DiskClipProperties.AllInsideWalk | src/polygon/circle.rs:63-71 | When every vertex is inside, the walk emits each start with a straight edge and never sets `first` or `last`. |
| DiskClipProperties.StepInside | src/polygon/circle.rs:66-71 | An inside-to-inside edge emits its start. |
| DiskClipProperties.AllInsideVertices | src/polygon/circle.rs:54-128 | A polygon inside the disk yields its own vertices with straight edges. |
| DiskClipProperties.AllInsideIntersection | src/polygon/circle.rs:52-148 | A polygon inside the disk whose consecutive vertices are more than `EPS` apart is its own intersection. |
| DiskClipProperties.StraightVerticesWinding | src/polygon/circle.rs:25-35 | The arc polygon with straight edges has the polygon as its frame and winds as it does. |
| DiskClipProperties.SingleVertexInside | src/polygon/circle.rs:131-142 | One vertex inside gives an empty arc polygon. |
| DiskClipProperties.StepMiss | src/polygon/circle.rs:97-117 | An outside edge that does not pass through the disk changes nothing but `prev`. |
| DiskClipProperties.MissWalk | src/polygon/circle.rs:63-121 | A polygon that misses the disk leaves the state empty. |
| DiskClipProperties.RotatedStep | src/polygon/circle.rs:63 | Step `k` runs from vertex `k - 1` to its cyclic successor. |
| DiskClipProperties.MissVertices | src/polygon/circle.rs:54-128 | A polygon that misses the disk yields nothing. |
| DiskClipProperties.MissIntersection | src/polygon/circle.rs:143-147 | The result is then the whole disk if the polygon contains the center, and `None` otherwise. |
| DiskClipProperties.EmptyPolygonIntersection | src/polygon/circle.rs:52-148 | The empty polygon meets no disk. |
| DiskClipProperties.AppendStraight | src/polygon/circle.rs:66-95 | Appending a straight vertex keeps the chain of edges. |
| DiskClipProperties.AppendArc | src/polygon/circle.rs:81-95 | Appending an arc and then its end keeps the chain. |
| DiskClipProperties.EnterShape | src/polygon/circle.rs:79-115 | Entering keeps the generator's invariant. |
| DiskClipProperties.StepShape | src/polygon/circle.rs:63-121 | Every step keeps the invariant. |
| DiskClipProperties.WalkKeepsShape | src/polygon/circle.rs:63-121 | The whole walk keeps the invariant. |
| DiskClipProperties.CloseShape | src/polygon/circle.rs:122-127 | Closing on `first` makes the chain cyclic. |
| DiskClipProperties.ClipEdgesOfDisk | src/polygon/circle.rs:54-128 | Every yielded vertex starts a straight edge or the arc of the disk's circle to the next vertex, cyclically. |
| CircleTests.UnitDisk | src/tests/circle.rs:12-26 | The unit disk holds exactly the points of squared norm at most 1. |
| CircleTests.UnitDiskPoints | src/tests/circle.rs:12-26 | The inside and outside points of the `contains` test. |
| CircleTests.HalfPlaneOutside | src/tests/circle.rs:29-38 | The unit disk lies outside `x >= 2`. The disk cut as written returns the whole disk. The corrected one returns `None`, as the test expects. |
| CircleTests.HalfPlaneInside | src/tests/circle.rs:41-55 | The unit disk lies inside `x >= -2`. The disk cut as written returns `None`. The corrected one returns the whole disk, as the test expects. |
| CircleTests.DiskInsideLost | src/circle.rs:190-198 | A disk more than a radius inside a half-plane is lost as written and kept whole when corrected. |
| CircleTests.DiskOutsideWhole | src/circle.rs:190-198 | A disk more than a radius outside a half-plane is kept whole as written and lost when corrected. |
| CircleTests.AxisCut | src/tests/circle.rs:58-145 | Corrected: the cut of any circle by `x >= k` is the arc over the chord `x = k`, symmetric about the center's height. It has half chord `sqrt(r^2 - a^2)` and sagitta `r - a`, where `a = k - center.x`. The intersecting, tangent and negative-apothem tests are instances. |
| CircleTests.AxisCutAsWritten | src/circle.rs:155-181 | As written, `x >= k` yields the arc over the same chord on the other side, from the upper end to the lower, with sagitta `r + a`. |
| CircleTests.HalfPlaneIntersecting | src/tests/circle.rs:58-86 | Corrected: the unit circle cut by `x >= 0.5` gives half chord `sqrt(0.75)` and sagitta 0.5. |
| CircleTests.AxisApart | src/tests/circle.rs:148-156 | Disks farther apart along an axis than the sum of their radii do not meet. |
| CircleTests.DisksConcentric | src/tests/circle.rs:269-283 | Of two concentric disks, the smaller one is the intersection. |
| CircleTests.AxisLens | src/tests/circle.rs:186-369 | Crossing disks on a horizontal axis meet in the lens over the vertical chord at `a1`, with sagittas `r1 - a1` and `r2 - (x - a1)`. |
| CircleTests.HalfPlaneSideInverted | src/circle.rs:155-181 | As written, the unit circle inside `x >= -2` is reported not to meet it. |
| CircleTests.HalfPlaneSideCorrected | src/circle.rs:155-181 | Corrected, the same circle comes back whole. |
| CircleTests.SideInverted | src/circle.rs:155-181 | Any circle more than a radius inside is lost as written and kept whole when corrected. |
| CircleTests.LineOrderReversed | src/circle.rs:102-128 | Away from tangency, the line intersection as written returns the corrected points swapped. |
| CircleTests.ReversedCut | src/circle.rs:109-114 | The cuts by a half-plane and by its complement end at the same points, in opposite orders. |

## Left out

- Floating point: `f32` rounding, overflow, NaN and infinities are not modelled. Values are reals, so exact ties such as `signum(-0.0)` do not arise. Comparisons against `EPS` are kept exactly as the source writes them.
- `sqrt` and `PI` are constants without a definition. Lemmas that need exact square roots assume `SqrtSpec()`, so statements about lengths hold only for an exact square root.
- `glam`'s `normalize` of the zero vector gives NaN in `f32`. The model's `Normalize` returns the zero vector instead, and every lemma that uses it requires a non-zero vector. One consequence reaches `StraightClip.IntersectPolygon`: when `other` repeats a vertex consecutively, `from_edge` of that edge has a NaN normal in the source, every comparison against it fails and the result is `None`. In the model that edge's half-plane has the zero normal and offset, contains every point, and the clip by it keeps every vertex.
- Arcs.SegmentMoment: the trigonometric and parabolic formulas of `DiskSegment::moment` (src/arc.rs:100-125) are not modelled. The moment of a curved segment is the undefined constant `CurvedSegmentMoment`, and only flat segments are specified.
- `ArcPolygon::from_circle` and `Disk::polygon` (src/polygon/circle.rs:16-23, src/circle.rs:61-63) use trigonometry. The two-vertex disk polygon is the undefined constant `DiskPolygon2`.
- `Line::signed_distance` and `LineSegment::is_between` are called by src/circle.rs and src/polygon/circle.rs but are not part of this model. They are the undefined constants `SignedDistance` and `IsBetween`.
- The operand-swapping impls only delegate and are not modelled separately. These are at src/circle.rs:130-135, 148-153, 183-188 and 200-205, and at src/polygon/circle.rs:151-157. The blanket `IntersectTo` impl at src/lib.rs:68-72 also only delegates. The one at src/polygon/line.rs:107-113 is `StraightClip.HalfPlaneIntersectPolygon`.
- StraightClip.IntersectHalfPlane: the panic of `unwrap()` at src/polygon/line.rs:85 and 88 is the precondition `ClipDefined`. The inputs that panic are described by `ShallowClosingEdgePanics` and `UnwrapCanFail`.
- The winding numbers are `i32` in the source and unbounded integers here. The counts are bounded by twice the number of edges, so overflow would need more than 2^30 edges.
- The concrete numbers of the disk-disk tests are covered by the general lemmas `CircleTests.AxisApart`, `CircleTests.AxisLens` and `CircleTests.DisksConcentric`. These are the disk-inside case at src/tests/circle.rs:158-184, the lens, tangent and negative-apothem cases at 185-369, and the commutativity checks (`DiskIntersectionProperties.DiskDiskSwap`). They are not instantiated on the tests' own numbers.
- The `intersect_polygon` test (src/polygon/line.rs:258-284), an intersection of two squares, is not evaluated on its numbers. The general fold lemmas of `StraightClip` cover that path.
- The `approx` equality macros and `Debug`/`PartialEq` derives are not modelled. They are not part of the geometry.
- The generator of `IntersectTo<Disk> for Polygon` is a coroutine. Here it is a loop that collects its output into a sequence before deduplication. Laziness is not observable in the result.

## Findings

| source | as written | input that shows it | evidently intended | confidence | as-written member | corrected member |
|---|---|---|---|---|---|---|
| src/polygon/line.rs:57-61 | The centroid is divided by `6 * |S|/2`, the absolute area, so a clockwise polygon gets its centroid negated. | The 3 x 2 rectangle listed clockwise, `(0, 2), (3, 2), (3, 0), (0, 0)`: centroid `(-1.5, -1)` (`StraightPolygonTests.ReversedRectangleMoment`). `StraightPolygon.AsWrittenClockwise` shows this for every clockwise polygon. | Divide by the signed area, so the centroid is `(1.5, 1)` in either orientation (`StraightPolygon.MomentReversed`). | not executed | StraightPolygon.ShoelaceAsWritten | StraightPolygon.ShoelaceMoment |
| src/circle.rs:158-180 | The apothem is `plane.distance(center)`, which is positive inside, so the cut keeps the part of the circle in the complement of the half-plane. | The unit circle at the origin with normal `(1, 0)` and offset -2 (inside `x >= -2`): the result is `None` instead of the whole circle (`CircleTests.HalfPlaneSideInverted`). The crate's own tests at src/tests/circle.rs:28-56 expect the corrected results. `CircleTests.SideInverted` shows it for every circle more than a radius inside. | Use `-distance(center)` as the apothem, which cuts the part inside the half-plane (`CircleIntersectionProperties.ArcInsideHalfPlane`, `CircleIntersectionProperties.InsideCircleWhole`). | not executed | CircleIntersections.CircleHalfPlaneAsWritten | CircleIntersections.CircleHalfPlane |
| src/circle.rs:109-114 | The line intersection swaps the cut's arc ends, assuming they run against the line. With the inverted cut they already do, so the result runs against the line. `CircleIntersections.CircleSegment` and the polygon-disk clip (`DiskClips`) are built on this order, as in the source. | The unit circle and the line `(0, 0) -> (1, 0)`: as written `((1, 0), (-1, 0))`, corrected `((-1, 0), (1, 0))` (`CircleTests.LineOrderReversed`, `CircleIntersectionProperties.AsWrittenArcOrder`). | The first point returned is met first when walking from `line.0` to `line.1`, as the doc comment at src/circle.rs:100-101 says (`CircleIntersectionProperties.CircleLinePoints`). | not executed | CircleIntersections.CircleLineAsWritten | CircleIntersections.CircleLine |

=== FILE: arc.dfy ===
/**
 * Circular arcs and disk segments (src/arc.rs). An arc is a chord `(a, b)` and a signed
 * sagitta: the distance from the chord's midpoint to the arc's midpoint, positive when the arc
 * lies to the right of `a -> b`. A disk segment is the region between an arc and its chord.
 */
module Arcs {
  import opened Numeric
  import opened Geom
  import opened Lines
  import opened Circles

  datatype Arc = Arc(points: (Vec2, Vec2), sagitta: real)

  /** The start point of an arc edge together with that edge's sagitta. */
  datatype ArcVertex = ArcVertex(point: Vec2, sagitta: real)

  datatype DiskSegment = DiskSegment(arc: Arc)

  /** `Arc::chord`. */
  function Chord(arc: Arc): (c: LineSegment)
    ensures c.Dir() == arc.points.1.Sub(arc.points.0)
    ensures HalfChord(arc) == 0.5 * Length(c.Dir())
    ensures c.IsNear(arc.points.0) && c.IsNear(arc.points.1)
  {
    LineSegment(arc.points.0, arc.points.1)
  }

  /** `Edge for Arc`: the arc from `a` to `b` takes the sagitta stored with `a`. */
  function ArcFromVertices(a: ArcVertex, b: ArcVertex): (arc: Arc)
    ensures Chord(arc) == LineSegment(a.point, b.point)
    ensures arc.sagitta == a.sagitta
  {
    Arc((a.point, b.point), a.sagitta)
  }

  /** The chord midpoint `0.5 * (a + b)`. */
  function Mid(arc: Arc): Vec2 {
    arc.points.0.Add(arc.points.1).Scale(0.5)
  }

  /** Half the chord length, `0.5 * |b - a|`. */
  function HalfChord(arc: Arc): real {
    0.5 * Length(arc.points.1.Sub(arc.points.0))
  }

  /**
   * The circle an arc lies on, rebuilt from its chord and sagitta: `radius = (h^2 + s^2) / 2s`
   * with `s = |sagitta|`; `normal` is the unit normal of the chord on the side of the bulge,
   * and the center is `radius - s` behind the chord midpoint along it.
   */
  datatype Bulge = Bulge(radius: real, normal: Vec2, center: Vec2)

  function BulgeOf(arc: Arc): (g: Bulge)
    requires Abs(arc.sagitta) >= EPS && HalfChord(arc) != 0.0
    ensures g.radius > 0.0
    ensures g.center.Add(g.normal.Scale(g.radius)) == Mid(arc).Add(g.normal.Scale(Abs(arc.sagitta)))
  {
    var (a, b) := arc.points;
    var s, h := Abs(arc.sagitta), HalfChord(arc);
    var radius := (h * h + s * s) / (2.0 * s);
    var normal := b.Sub(a).Perp().Neg().Div(2.0 * h).Scale(Signum(arc.sagitta) as real);
    Bulge(radius, normal, Mid(arc).Add(normal.Scale(s - radius)))
  }

  /**
   * `Bounded for DiskSegment`: `2 * signum(sagitta)` for points in the rebuilt disk and strictly
   * on the bulge side of the chord, `0` otherwise and for a sagitta below the tolerance. For a
   * zero-length chord the code divides by zero and every comparison with the resulting NaN
   * fails, which gives `0`.
   */
  function SegmentWinding(seg: DiskSegment, point: Vec2): (w: int)
    ensures w == 0 || w == 2 || w == -2
    ensures Abs(seg.arc.sagitta) < EPS ==> w == 0
    ensures w != 0 ==> (w > 0 <==> seg.arc.sagitta > 0.0)
    ensures Abs(seg.arc.sagitta) >= EPS && HalfChord(seg.arc) != 0.0 ==>
              var g := BulgeOf(seg.arc);
              (w == 2 * Signum(seg.arc.sagitta) <==>
                 DiskContains(NewDisk(g.center, g.radius), point) && point.Sub(Mid(seg.arc)).Dot(g.normal) > 0.0)
  {
    var arc := seg.arc;
    if Abs(arc.sagitta) < EPS || HalfChord(arc) == 0.0 then 0
    else
      var g := BulgeOf(arc);
      if DiskContains(NewDisk(g.center, g.radius), point) && point.Sub(Mid(arc)).Dot(g.normal) > 0.0
      then 2 * Signum(arc.sagitta)
      else 0
  }

  /**
   * The moment of a disk segment with a non-negligible sagitta: the trigonometric and parabolic
   * formulas of `DiskSegment::moment` are not modelled, and this value is left unspecified.
   */
  const CurvedSegmentMoment: Arc -> Moment

  /** `Integrate for DiskSegment`: a flat segment has zero area at the chord midpoint. */
  function SegmentMoment(seg: DiskSegment): (m: Moment)
    ensures Abs(seg.arc.sagitta) < EPS ==> m.area == 0.0 && FirstMoment(m) == ZERO && m.centroid == Mid(seg.arc)
  {
    if Abs(seg.arc.sagitta) < EPS then Moment(0.0, Mid(seg.arc)) else CurvedSegmentMoment(seg.arc)
  }

  // ---------------------------------------------------------------------------------------
  // Properties

  /** A point on the chord's side away from the bulge (or on the chord) is not in the segment. */
  lemma BehindChordOutside(seg: DiskSegment, point: Vec2)
    requires Abs(seg.arc.sagitta) >= EPS && HalfChord(seg.arc) != 0.0
    requires point.Sub(Mid(seg.arc)).Dot(BulgeOf(seg.arc).normal) <= 0.0
    ensures SegmentWinding(seg, point) == 0
  {
  }

  /**
   * With an exact square root, the rebuilt circle passes through both ends of the chord, its
   * normal is a unit vector perpendicular to the chord, and the radius is positive.
   */
  lemma BulgeThroughEnds(arc: Arc)
    requires SqrtSpec() && Abs(arc.sagitta) >= EPS && HalfChord(arc) != 0.0
    ensures var g := BulgeOf(arc);
            g.radius > 0.0 && IsUnit(g.normal) && g.normal.Dot(arc.points.1.Sub(arc.points.0)) == 0.0 &&
            arc.points.0.Sub(g.center).LengthSquared() == g.radius * g.radius &&
            arc.points.1.Sub(g.center).LengthSquared() == g.radius * g.radius
  {
    var (a, b) := arc.points;
    var h := HalfChord(arc);
    LengthSpec(b.Sub(a));
    assert 4.0 * (h * h) == b.Sub(a).LengthSquared();
    CircleThroughChordEnds(a, b, Abs(arc.sagitta), h, Signum(arc.sagitta) as real, BulgeOf(arc));
  }

  /** `BulgeThroughEnds` over the chord ends, the absolute sagitta, the half chord and the sign. */
  lemma CircleThroughChordEnds(a: Vec2, b: Vec2, s: real, h: real, sign: real, g: Bulge)
    requires s > 0.0 && h != 0.0 && 4.0 * (h * h) == b.Sub(a).LengthSquared() && (sign == 1.0 || sign == -1.0)
    requires g.radius == (h * h + s * s) / (2.0 * s)
    requires g.normal == b.Sub(a).Perp().Neg().Div(2.0 * h).Scale(sign)
    requires g.center == a.Add(b).Scale(0.5).Add(g.normal.Scale(s - g.radius))
    ensures g.radius > 0.0 && IsUnit(g.normal) && g.normal.Dot(b.Sub(a)) == 0.0
    ensures a.Sub(g.center).LengthSquared() == g.radius * g.radius
    ensures b.Sub(g.center).LengthSquared() == g.radius * g.radius
  {
    var m := a.Add(b).Scale(0.5);
    NormalOfChord(b.Sub(a), h, sign);
    RadiusIdentity(h, s);
    assert (s - g.radius) * (s - g.radius) == (g.radius - s) * (g.radius - s);
    HalfChordEnd(a, b, m, g.normal, h);
    HalfChordEnd(b, a, m, g.normal, h);
    EndOnCircle(a, m, g.normal, s - g.radius, g.radius);
    EndOnCircle(b, m, g.normal, s - g.radius, g.radius);
  }

  /** The chord ends are at distance `h` from the midpoint, perpendicular to the chord normal. */
  lemma HalfChordEnd(e: Vec2, o: Vec2, m: Vec2, n: Vec2, h: real)
    requires m == e.Add(o).Scale(0.5) || m == o.Add(e).Scale(0.5)
    requires h * h == 0.25 * o.Sub(e).LengthSquared() || h * h == 0.25 * e.Sub(o).LengthSquared()
    requires n.Dot(o.Sub(e)) == 0.0 || n.Dot(e.Sub(o)) == 0.0
    ensures e.Sub(m).LengthSquared() == h * h && n.Dot(e.Sub(m)) == 0.0
  {
    var u := e.Sub(o);
    assert e.Sub(m) == u.Scale(0.5);
    assert o.Sub(e).LengthSquared() == u.LengthSquared();
    assert u.Scale(0.5).LengthSquared() == 0.25 * u.LengthSquared();
  }

  /** A point at distance `h` from `m` perpendicular to `n` is at distance `r` from `m + n j` when `h^2 + j^2 = r^2`. */
  lemma EndOnCircle(e: Vec2, m: Vec2, n: Vec2, j: real, r: real)
    requires IsUnit(n) && n.Dot(e.Sub(m)) == 0.0 && e.Sub(m).LengthSquared() + j * j == r * r
    ensures e.Sub(m.Add(n.Scale(j))).LengthSquared() == r * r
  {
    assert e.Sub(m.Add(n.Scale(j))) == e.Sub(m).Add(n.Scale(-j));
    Pythagoras(e.Sub(m), n, -j);
  }

  /** `(d.y, -d.x) / 2h * sign` is a unit normal of `d` when `4 h^2 = |d|^2` and `sign` is `+-1`. */
  lemma NormalOfChord(d: Vec2, h: real, sign: real)
    requires h != 0.0 && 4.0 * (h * h) == d.LengthSquared() && (sign == 1.0 || sign == -1.0)
    ensures var n := d.Perp().Neg().Div(2.0 * h).Scale(sign);
            IsUnit(n) && n.Dot(d) == 0.0
  {
    var n := d.Perp().Neg().Div(2.0 * h).Scale(sign);
    var k := sign / (2.0 * h);
    assert n == Vec2(d.y * k, -d.x * k);
    assert n.Dot(n) == (d.y * d.y + d.x * d.x) * (k * k);
    assert k * k == 1.0 / (4.0 * (h * h));
  }

  /** `h^2 + (r - s)^2 == r^2` for `r = (h^2 + s^2) / 2s`, and `r > 0`. */
  lemma RadiusIdentity(h: real, s: real)
    requires s > 0.0
    ensures var r := (h * h + s * s) / (2.0 * s);
            r > 0.0 && h * h + (r - s) * (r - s) == r * r
  {
    var r := (h * h + s * s) / (2.0 * s);
    assert 2.0 * s * r == h * h + s * s;
    assert (r - s) * (r - s) == r * r - 2.0 * s * r + s * s;
    assert h * h + s * s > 0.0;
  }

  /** For a unit `n` perpendicular to `u`: `|u + n k|^2 == |u|^2 + k^2`. */
  lemma Pythagoras(u: Vec2, n: Vec2, k: real)
    requires IsUnit(n) && n.Dot(u) == 0.0
    ensures u.Add(n.Scale(k)).LengthSquared() == u.LengthSquared() + k * k
  {
    assert u.Add(n.Scale(k)).LengthSquared() == u.LengthSquared() + 2.0 * k * n.Dot(u) + k * k * n.Dot(n);
  }
}

=== FILE: arc_tests.dfy ===
/**
 * The containment scenario of the disk-segment tests (src/tests/arc.rs): the segment cut from the
 * arc `(4, 1) -> (1, 1)` of sagitta 4. Its chord has half length 1.5, so the circle rebuilt from
 * the chord and the sagitta has radius `(1.5^2 + 4^2) / 8 = 2.28125`, bulges upwards (normal
 * `(0, 1)`) and is centered at `(2.5, 2.71875)`; the arc's top is at `y = 5`.
 */
module ArcTests {
  import opened Numeric
  import opened Geom
  import opened Circles
  import opened Arcs

  /**
   * With an exact square root: the segment holds the points just below its top and just above
   * its chord, and not the points just above its top or just below its chord.
   */
  lemma SegmentContainsTest()
    requires SqrtSpec()
    ensures var seg := DiskSegment(Arc((Vec2(4.0, 1.0), Vec2(1.0, 1.0)), 4.0));
            SegmentWinding(seg, Vec2(2.5, 4.99)) == 2 && SegmentWinding(seg, Vec2(2.5, 1.01)) == 2 &&
            SegmentWinding(seg, Vec2(2.5, 5.01)) == 0 && SegmentWinding(seg, Vec2(2.5, 0.99)) == 0
  {
    var seg := DiskSegment(Arc((Vec2(4.0, 1.0), Vec2(1.0, 1.0)), 4.0));
    TestCircle(seg.arc);
    assert Mid(seg.arc) == Vec2(2.5, 1.0);
    BelowTop(seg);
    AboveChord(seg);
    AboveTop(seg);
    BelowChord(seg);
  }

  /** The arc of the test. */
  predicate TestArc(arc: Arc) {
    arc.points.0 == Vec2(4.0, 1.0) && arc.points.1 == Vec2(1.0, 1.0) && arc.sagitta == 4.0
  }

  /** What the winding number of a segment needs of the test's arc: its sagitta, chord midpoint and circle. */
  predicate TestCircleKnown(arc: Arc) {
    arc.sagitta == 4.0 && HalfChord(arc) == 1.5 && Mid(arc) == Vec2(2.5, 1.0) &&
    BulgeOf(arc).radius == 2.28125 && BulgeOf(arc).normal == Vec2(0.0, 1.0) &&
    BulgeOf(arc).center == Vec2(2.5, 2.71875)
  }

  /** With an exact square root, the test's chord has half length 1.5, and its circle is the one above. */
  lemma TestCircle(arc: Arc)
    requires SqrtSpec() && TestArc(arc)
    ensures TestCircleKnown(arc)
  {
    TestHalfChord(arc);
    TestRadius(arc);
    TestNormal(arc);
    TestCenter(arc);
    assert Mid(arc) == Vec2(2.5, 1.0);
  }

  /** With an exact square root, the chord from `(4, 1)` to `(1, 1)` has half length 1.5. */
  lemma TestHalfChord(arc: Arc)
    requires SqrtSpec() && TestArc(arc)
    ensures HalfChord(arc) == 1.5
  {
    assert arc.points.1.Sub(arc.points.0).LengthSquared() == 3.0 * 3.0;
    SqrtOfSquare(3.0);
  }

  lemma TestRadius(arc: Arc)
    requires HalfChord(arc) == 1.5 && TestArc(arc)
    ensures BulgeOf(arc).radius == 2.28125
  {
  }

  lemma TestNormal(arc: Arc)
    requires HalfChord(arc) == 1.5 && TestArc(arc)
    ensures BulgeOf(arc).normal == Vec2(0.0, 1.0)
  {
  }

  lemma TestCenter(arc: Arc)
    requires HalfChord(arc) == 1.5 && TestArc(arc)
    requires BulgeOf(arc).radius == 2.28125 && BulgeOf(arc).normal == Vec2(0.0, 1.0)
    ensures BulgeOf(arc).center == Vec2(2.5, 2.71875)
  {
    var g := BulgeOf(arc);
    assert Mid(arc) == Vec2(2.5, 1.0);
    CenterBelowTop(g.center, g.normal, g.radius, Mid(arc), Abs(arc.sagitta));
  }

  /** The center lies `radius` below the arc's top `(2.5, 5)`. */
  lemma CenterBelowTop(c: Vec2, n: Vec2, r: real, m: Vec2, s: real)
    requires c.Add(n.Scale(r)) == m.Add(n.Scale(s))
    requires n.x == 0.0 && n.y == 1.0 && r == 2.28125 && m.x == 2.5 && m.y == 1.0 && s == 4.0
    ensures c == Vec2(2.5, 2.71875)
  {
    assert c.x + n.x * r == m.x + n.x * s;
    assert c.y + n.y * r == m.y + n.y * s;
  }

  /** On the test's segment, the winding number is 2 in the circle strictly above the chord's line `y = 1`, and 0 elsewhere. */
  lemma KnownCircleWinding(seg: DiskSegment, point: Vec2)
    requires TestCircleKnown(seg.arc)
    ensures SegmentWinding(seg, point) ==
              if Vec2(2.5, 2.71875).Sub(point).LengthSquared() <= 2.28125 * 2.28125 && point.y > 1.0 then 2 else 0
  {
    UpwardDistance(point, Mid(seg.arc), BulgeOf(seg.arc).normal);
  }

  /** The signed distance above the chord's line, along the normal `(0, 1)`. */
  lemma UpwardDistance(p: Vec2, m: Vec2, n: Vec2)
    requires m.x == 2.5 && m.y == 1.0 && n.x == 0.0 && n.y == 1.0
    ensures p.Sub(m).Dot(n) == p.y - 1.0
  {
  }

  /** The squared distances of the test points to the center, against the squared radius. */
  lemma TestDistances()
    ensures Vec2(2.5, 2.71875).Sub(Vec2(2.5, 4.99)).LengthSquared() <= 2.28125 * 2.28125
    ensures Vec2(2.5, 2.71875).Sub(Vec2(2.5, 1.01)).LengthSquared() <= 2.28125 * 2.28125
    ensures Vec2(2.5, 2.71875).Sub(Vec2(2.5, 5.01)).LengthSquared() > 2.28125 * 2.28125
  {
  }

  lemma BelowTop(seg: DiskSegment)
    requires TestCircleKnown(seg.arc)
    ensures SegmentWinding(seg, Vec2(2.5, 4.99)) == 2
  {
    KnownCircleWinding(seg, Vec2(2.5, 4.99));
    TestDistances();
  }

  lemma AboveChord(seg: DiskSegment)
    requires TestCircleKnown(seg.arc)
    ensures SegmentWinding(seg, Vec2(2.5, 1.01)) == 2
  {
    KnownCircleWinding(seg, Vec2(2.5, 1.01));
    TestDistances();
  }

  lemma AboveTop(seg: DiskSegment)
    requires TestCircleKnown(seg.arc)
    ensures SegmentWinding(seg, Vec2(2.5, 5.01)) == 0
  {
    KnownCircleWinding(seg, Vec2(2.5, 5.01));
    TestDistances();
  }

  lemma BelowChord(seg: DiskSegment)
    requires TestCircleKnown(seg.arc)
    ensures SegmentWinding(seg, Vec2(2.5, 0.99)) == 0
  {
    KnownCircleWinding(seg, Vec2(2.5, 0.99));
  }
}

=== FILE: circle.dfy ===
/**
 * Circles and disks (src/circle.rs): a circle is a center and a signed radius, a disk the
 * region it bounds. A negative radius turns the disk inside out for the winding number.
 */
module Circles {
  import opened Numeric
  import opened Geom

  datatype Circle = Circle(center: Vec2, radius: real)

  datatype Disk = Disk(circle: Circle) {
    function Center(): Vec2 { circle.center }
    function Radius(): real { circle.radius }
  }

  /** `Circle::fill`. */
  function Fill(c: Circle): Disk { Disk(c) }

  /** `Disk::new`. */
  function NewDisk(center: Vec2, radius: real): (d: Disk)
    ensures d.Center() == center && d.Radius() == radius
  {
    Disk(Circle(center, radius))
  }

  /** `Disk::edge`: the boundary circle. */
  function DiskEdge(d: Disk): (c: Circle)
    ensures Fill(c) == d
  {
    d.circle
  }

  /** `f32::signum` on a number that is not NaN: `-1` below zero, `1` otherwise (zero included). */
  function Signum(r: real): (s: int)
    ensures s == 1 || s == -1
    ensures s == 1 <==> r >= 0.0
  {
    if r < 0.0 then -1 else 1
  }

  /** The point lies on the circle: its squared distance to the center is the squared radius. */
  predicate OnCircle(point: Vec2, c: Circle) {
    point.Sub(c.center).LengthSquared() == c.radius * c.radius
  }

  /** `Closed for Disk`: twice the sign of the radius on the closed disk, zero outside it. */
  function DiskWinding(d: Disk, point: Vec2): (w: int)
    ensures w == 0 || w == 2 || w == -2
  {
    var r := d.Radius();
    if d.Center().Sub(point).LengthSquared() <= r * r then 2 * Signum(r) else 0
  }

  /** `Closed::contains` for a disk. */
  predicate DiskContains(d: Disk, point: Vec2) {
    DiskWinding(d, point) > 0
  }

  /** `Integrable for Disk`: centroid at the center, area `PI * radius^2`. */
  function DiskMoment(d: Disk): (m: Moment)
    ensures m.centroid == d.Center()
    ensures m.area == PI * (Abs(d.Radius()) * Abs(d.Radius()))
  {
    assert Abs(d.Radius()) * Abs(d.Radius()) == d.Radius() * d.Radius();
    Moment(PI * (d.Radius() * d.Radius()), d.Center())
  }

  // ---------------------------------------------------------------------------------------
  // Properties

  /**
   * A disk contains exactly the points whose squared distance to the center is at most the
   * squared radius, provided the radius is not negative.
   */
  lemma DiskContainsIff(d: Disk, point: Vec2)
    ensures DiskContains(d, point) <==>
              d.Radius() >= 0.0 && d.Center().Sub(point).LengthSquared() <= d.Radius() * d.Radius()
  {
  }

  /** With an exact square root: a disk of non-negative radius contains the points within `radius` of its center. */
  lemma DiskContainsWithinRadius(d: Disk, point: Vec2)
    requires SqrtSpec() && d.Radius() >= 0.0
    ensures DiskContains(d, point) <==> Length(d.Center().Sub(point)) <= d.Radius()
  {
    var v, r := d.Center().Sub(point), d.Radius();
    LengthSpec(v);
    var l := Length(v);
    if l <= r {
      MulMonotone(l, r);
    } else {
      MulMonotone(r, l);
      assert r * r < l * l by { StrictSquare(r, l); }
    }
  }

  /** A disk of negative radius contains no point; its winding number is `-2` or `0`. */
  lemma InvertedDiskContainsNothing(d: Disk, point: Vec2)
    requires d.Radius() < 0.0
    ensures DiskWinding(d, point) <= 0 && !DiskContains(d, point)
  {
  }

  /** The disk moment does not depend on the sign of the radius. */
  lemma DiskMomentSignFree(center: Vec2, radius: real)
    ensures DiskMoment(NewDisk(center, -radius)) == DiskMoment(NewDisk(center, radius))
    ensures DiskMoment(NewDisk(center, radius)).centroid == center
  {
    assert (-radius) * (-radius) == radius * radius;
  }

  lemma MulMonotone(a: real, b: real)
    requires 0.0 <= a <= b
    ensures a * a <= b * b
  {
    assert a * a <= a * b <= b * b;
  }

  lemma StrictSquare(a: real, b: real)
    requires 0.0 <= a < b
    ensures a * a < b * b
  {
    var x, y := b - a, b + a;
    assert b * b - a * a == x * y;
    PositiveProduct(x, y);
  }

  lemma PositiveProduct(x: real, y: real)
    requires x > 0.0 && y > 0.0
    ensures x * y > 0.0
  {
  }
}

=== FILE: circle_intersect.dfy ===
/**
 * Intersections of circles and disks with half-planes, lines, segments and other disks
 * (src/circle.rs).
 *
 * A half-plane's normal points from the free side into the occupied side, and `Distance` is
 * positive inside (src/plane.rs). `Circle ∩ HalfPlane` as written takes the apothem to be the
 * distance of the center and cuts on the wrong side: it yields the part of the circle in the
 * complement of the half-plane. `CircleHalfPlaneAsWritten` models that code; `CircleHalfPlane`,
 * the same computation on the complement, is the intersection the half-plane documentation and
 * the crate's own circle tests call for. `Circle ∩ Line` is built on the half-plane cut and is
 * corrected the same way (`CircleLineAsWritten`, `CircleLine`): as written it returns the two
 * points against the direction of the line. The operations built on these cuts (`DiskHalfPlane`,
 * `CircleSegment` and the polygon-disk clip) follow the code and use the cuts as written;
 * `DiskHalfPlaneCorrected` is the disk cut on the corrected circle cut.
 */
module CircleIntersections {
  import opened Numeric
  import opened Geom
  import opened Lines
  import opened Plane
  import opened Polygons
  import opened Circles
  import opened Arcs

  /** The same boundary with the occupied and free sides exchanged. */
  function Complement(h: HalfPlane): (c: HalfPlane)
    ensures forall p :: Distance(c, p) == -Distance(h, p)
  {
    HalfPlane(h.normal.Neg(), -h.offset)
  }

  // ---------------------------------------------------------------------------------------
  // Circle ∩ HalfPlane

  /**
   * `Intersect<HalfPlane> for Circle` as written: the cut at the apothem `distance(center)`,
   * which is `None` when the apothem exceeds the radius, the whole circle when
   * `radius + apothem <= EPS`, and an arc of sagitta `radius - apothem` otherwise.
   */
  function CircleHalfPlaneAsWritten(c: Circle, h: HalfPlane): (r: Option<Either<Arc, Circle>>)
    ensures r.None? <==> Distance(h, c.center) > c.radius
    ensures r.Some? && r.value.Right? ==> r.value.right == c && c.radius + Distance(h, c.center) <= EPS
    ensures r.Some? && r.value.Left? ==>
              c.radius + Distance(h, c.center) > EPS && r.value.left.sagitta == c.radius - Distance(h, c.center)
  {
    CutAt(c, h.normal, Distance(h, c.center))
  }

  /**
   * The body of `Intersect<HalfPlane> for Circle` once the apothem is known: the arc of
   * `ChordArc` over the half chord `sqrt(radius^2 - apothem^2)`.
   */
  function CutAt(c: Circle, normal: Vec2, apothem: real): (r: Option<Either<Arc, Circle>>)
    ensures r.None? <==> apothem > c.radius
    ensures r.Some? && r.value.Right? ==> r.value.right == c && c.radius + apothem <= EPS
    ensures r.Some? && r.value.Left? ==> c.radius + apothem > EPS && r.value.left.sagitta == c.radius - apothem
  {
    if apothem > c.radius then None
    else if c.radius + apothem <= EPS then Some(Right(c))
    else Some(Left(ChordArc(c, normal, apothem, Sqrt(HalfChordSquared(c.radius, apothem)))))
  }

  /** The square of the half chord at distance `apothem` from the center: `radius^2 - apothem^2`. */
  function HalfChordSquared(radius: real, apothem: real): real {
    radius * radius - apothem * apothem
  }

  /**
   * The arc of the circle `c` over the chord at distance `apothem` from the center along `-normal`
   * with half chord `halfChord`: the ends are `mid +- perp(normal) * halfChord` for the chord
   * midpoint `mid = center - normal * apothem`, and the sagitta is `radius - apothem`.
   */
  function ChordArc(c: Circle, normal: Vec2, apothem: real, halfChord: real): Arc {
    var mid := c.center.Sub(normal.Scale(apothem));
    Arc((mid.Add(normal.Perp().Scale(halfChord)), mid.Sub(normal.Perp().Scale(halfChord))), c.radius - apothem)
  }

  /**
   * The intersection of a circle with a half-plane: `None` when the circle lies entirely
   * outside, the whole circle when it lies inside up to the tolerance, otherwise the arc inside
   * the half-plane, whose sagitta is how deep the circle reaches into it.
   */
  function CircleHalfPlane(c: Circle, h: HalfPlane): (r: Option<Either<Arc, Circle>>)
    ensures r.None? <==> Distance(h, c.center) < -c.radius
    ensures r.Some? && r.value.Right? ==> r.value.right == c && Distance(h, c.center) >= c.radius - EPS
    ensures r.Some? && r.value.Left? ==>
              Distance(h, c.center) < c.radius - EPS && r.value.left.sagitta == c.radius + Distance(h, c.center)
  {
    CircleHalfPlaneAsWritten(c, Complement(h))
  }

  /**
   * `Intersect<HalfPlane> for Disk`: the circle cut as written, as a disk segment or the whole
   * disk. Like the circle cut, it keeps the part of the disk outside the half-plane.
   */
  function DiskHalfPlane(d: Disk, h: HalfPlane): (r: Option<Either<DiskSegment, Disk>>)
    ensures r.None? <==> Distance(h, d.Center()) > d.Radius()
    ensures r.Some? && r.value.Right? ==> r.value.right == d && d.Radius() + Distance(h, d.Center()) <= EPS
    ensures r.Some? && r.value.Left? ==> CircleHalfPlaneAsWritten(d.circle, h) == Some(Left(r.value.left.arc))
  {
    DiskOfCut(d, CircleHalfPlaneAsWritten(d.circle, h))
  }

  /** The disk cut built on the corrected circle cut: the part of the disk inside the half-plane. */
  function DiskHalfPlaneCorrected(d: Disk, h: HalfPlane): (r: Option<Either<DiskSegment, Disk>>)
    ensures r.None? <==> Distance(h, d.Center()) < -d.Radius()
    ensures r.Some? && r.value.Right? ==> r.value.right == d && Distance(h, d.Center()) >= d.Radius() - EPS
    ensures r.Some? && r.value.Left? ==> CircleHalfPlane(d.circle, h) == Some(Left(r.value.left.arc))
  {
    DiskOfCut(d, CircleHalfPlane(d.circle, h))
  }

  /** A cut of the disk's circle, as a disk segment or the whole disk. */
  function DiskOfCut(d: Disk, cut: Option<Either<Arc, Circle>>): (r: Option<Either<DiskSegment, Disk>>)
    requires cut.Some? && cut.value.Right? ==> cut.value.right == d.circle
    ensures r.None? <==> cut.None?
    ensures r.Some? && r.value.Left? ==> cut == Some(Left(r.value.left.arc))
    ensures r.Some? && r.value.Right? ==> r.value.right == d && cut == Some(Right(d.circle))
  {
    match cut
    case None => None
    case Some(Left(arc)) => Some(Left(DiskSegment(arc)))
    case Some(Right(circle)) => Some(Right(Disk(circle)))
  }

  /** The direction a positive sagitta bulges towards: the right of the chord `points.0 -> points.1`. */
  function BulgeSide(arc: Arc): Vec2 {
    arc.points.1.Sub(arc.points.0).Perp().Neg()
  }

  // ---------------------------------------------------------------------------------------
  // Circle ∩ Line

  /** The foot of the perpendicular from the circle's center to the boundary of `plane`. */
  function TangentPoint(plane: HalfPlane, c: Circle): Vec2 {
    c.center.Add(ProjectOntoNormalized(BoundaryPoint(plane).Sub(c.center), plane.normal))
  }

  /**
   * `Intersect<Line> for Circle` once the half-plane of the line is built: the arc's two ends in
   * reverse order; for a whole circle, the tangent point twice when the center is less than a
   * radius outside the boundary, otherwise `None`.
   */
  function LineCut(c: Circle, plane: HalfPlane): Option<(Vec2, Vec2)> {
    match CircleHalfPlaneAsWritten(c, plane)
    case None => None
    case Some(Left(arc)) => Some((arc.points.1, arc.points.0))
    case Some(Right(circle)) =>
      if Distance(plane, circle.center) > -circle.radius then
        var point := TangentPoint(plane, circle);
        Some((point, point))
      else None
  }

  /** `Intersect<Line> for Circle` as written: the cut by `from_edge(line.0, line.1)`. */
  function CircleLineAsWritten(c: Circle, line: Line): (r: Option<(Vec2, Vec2)>)
    ensures line.IsDegenerate() ==> r.None?
  {
    if line.IsDegenerate() then None else LineCut(c, FromEdge(line.0, line.1))
  }

  /**
   * The intersection of a circle with a non-degenerate line: the corrected half-plane cut, that
   * is the as-written cut on the complement of `from_edge(line.0, line.1)`.
   */
  function CircleLine(c: Circle, line: Line): (r: Option<(Vec2, Vec2)>)
    ensures line.IsDegenerate() ==> r.None?
  {
    if line.IsDegenerate() then None else LineCut(c, Complement(FromEdge(line.0, line.1)))
  }

  /**
   * `Intersect<LineSegment> for Circle`: the two points of the line cut as written on the
   * segment's line, each kept only when `is_between` places it on the segment.
   */
  function CircleSegment(c: Circle, seg: LineSegment): (r: Option<(Option<Vec2>, Option<Vec2>)>)
    ensures r.None? <==> CircleLineAsWritten(c, seg.ToLine()).None?
    ensures r.Some? ==> var (a, b) := CircleLineAsWritten(c, seg.ToLine()).value;
              (r.value.0.Some? <==> IsBetween(seg, a)) && (r.value.0.Some? ==> r.value.0.value == a) &&
              (r.value.1.Some? <==> IsBetween(seg, b)) && (r.value.1.Some? ==> r.value.1.value == b)
  {
    match CircleLineAsWritten(c, Line(seg.0, seg.1))
    case None => None
    case Some((a, b)) =>
      Some((if IsBetween(seg, a) then Some(a) else None, if IsBetween(seg, b) then Some(b) else None))
  }

  // ---------------------------------------------------------------------------------------
  // Disk ∩ Disk

  /**
   * The apothem of the common chord measured from the first center, for centers `distance`
   * apart: `0.5 * (distance + (r1^2 - r2^2) / distance)`.
   */
  function SelfApothem(distance: real, r1: real, r2: real): real
    requires distance != 0.0
  {
    0.5 * (distance + (r1 * r1 - r2 * r2) / distance)
  }

  /**
   * The two vertices of the lens: the common chord's ends `m -+ perp(dir) * h` around its
   * midpoint `m = c1 + dir * a1`, with the sagittas `r1 - a1` (the arc of the first circle) and
   * `r2 - a2` (the arc of the second).
   */
  function LensVertices(c1: Vec2, dir: Vec2, r1: real, r2: real, a1: real, a2: real, h: real): seq<ArcVertex> {
    var m := c1.Add(dir.Scale(a1));
    [ArcVertex(m.Sub(dir.Perp().Scale(h)), r1 - a1), ArcVertex(m.Add(dir.Perp().Scale(h)), r2 - a2)]
  }

  /**
   * `Intersect<Disk> for Disk`: `None` when the centers are farther apart than the sum of the
   * radii; the smaller disk (the second one on equal radii) when one lies inside the other; the
   * lens, an arc polygon of two vertices, otherwise.
   */
  function DiskDisk(d1: Disk, d2: Disk): (r: Option<Either<Polygon<ArcVertex>, Disk>>)
    ensures var distance := Length(d2.Center().Sub(d1.Center()));
            (r.None? <==> distance > d1.Radius() + d2.Radius()) &&
            (r.Some? && r.value.Right? ==>
               distance <= Abs(d1.Radius() - d2.Radius()) && (r.value.right == d1 || r.value.right == d2) &&
               r.value.right.Radius() == Min(d1.Radius(), d2.Radius())) &&
            (r.Some? && r.value.Left? ==>
               Abs(d1.Radius() - d2.Radius()) < distance <= d1.Radius() + d2.Radius() && |r.value.left.vertices| == 2)
  {
    var (r1, r2) := (d1.Radius(), d2.Radius());
    var rel := d2.Center().Sub(d1.Center());
    var distance := Length(rel);
    if distance <= r1 + r2 then
      if distance > Abs(r1 - r2) then
        var a1 := SelfApothem(distance, r1, r2);
        var h := Sqrt(HalfChordSquared(r1, a1));
        Some(Left(New(LensVertices(d1.Center(), rel.Div(distance), r1, r2, a1, distance - a1, h))))
      else if r1 < r2 then Some(Right(d1))
      else Some(Right(d2))
    else None
  }
}

=== FILE: circle_intersect_props.dfy ===
/**
 * Properties of the circle intersections: where the ends of a cut arc lie, which way it bulges,
 * and the order of the points of a line cut, for the code as written and as corrected.
 */
module CircleIntersectionProperties {
  import opened Numeric
  import opened Geom
  import opened Lines
  import opened Plane
  import opened Polygons
  import opened Circles
  import opened Arcs
  import opened CircleIntersections

  // ---------------------------------------------------------------------------------------
  // Circle ∩ HalfPlane

  /**
   * The arc cut by a plane with a unit normal, as written: both ends on the circle and on the
   * boundary, chord midpoint the foot of the perpendicular from the center, and the bulge
   * against the normal, that is out of the half-plane. `hc` is the half chord.
   */
  lemma AsWrittenArcGeometry(c: Circle, h: HalfPlane, arc: Arc) returns (hc: real)
    requires SqrtSpec() && IsUnit(h.normal)
    requires CircleHalfPlaneAsWritten(c, h) == Some(Left(arc))
    ensures arc.points.0.Sub(c.center).LengthSquared() == c.radius * c.radius
    ensures arc.points.1.Sub(c.center).LengthSquared() == c.radius * c.radius
    ensures Distance(h, arc.points.0) == 0.0 && Distance(h, arc.points.1) == 0.0
    ensures Mid(arc) == c.center.Sub(h.normal.Scale(Distance(h, c.center)))
    ensures hc >= 0.0 && arc.points.0.Sub(arc.points.1) == h.normal.Perp().Scale(2.0 * hc)
    ensures BulgeSide(arc) == h.normal.Scale(-(2.0 * hc))
  {
    var a := Distance(h, c.center);
    hc := CutChord(c, h.normal, a, arc);
    CutArc(c, h.normal, a, hc, arc);
  }

  /** `radius^2 - apothem^2 >= 0` whenever `apothem <= radius` and `radius + apothem > 0`. */
  lemma NonNegativeHalfChord(r: real, a: real)
    requires a <= r && r + a > 0.0
    ensures r * r - a * a >= 0.0
  {
    assert r * r - a * a == (r - a) * (r + a);
  }

  /** The half chord of an arc of the cut at apothem `a`: `hc^2 = radius^2 - a^2`. */
  lemma CutChord(c: Circle, n: Vec2, a: real, arc: Arc) returns (hc: real)
    requires SqrtSpec() && CutAt(c, n, a) == Some(Left(arc))
    ensures hc >= 0.0 && hc * hc == c.radius * c.radius - a * a && arc == ChordArc(c, n, a, hc)
  {
    CutBounds(c, n, a, arc);
    var x := HalfChordSquared(c.radius, a);
    NonNegativeHalfChord(c.radius, a);
    SqrtOf(x);
    hc := Sqrt(x);
  }

  /** The cut yields an arc only for `-radius < a <= radius`. */
  lemma CutBounds(c: Circle, n: Vec2, a: real, arc: Arc)
    requires CutAt(c, n, a) == Some(Left(arc))
    ensures a <= c.radius && c.radius + a > 0.0
  {
  }

  /**
   * The chord of `ChordArc` for a unit normal `n` and `hc^2 = r^2 - a^2`: both ends on the
   * circle and at the level `center . n - a` along `n`, the midpoint at `center - n a`, the
   * chord along `-perp(n)` and the bulge against `n`.
   */
  lemma CutArc(c: Circle, n: Vec2, a: real, hc: real, arc: Arc)
    requires IsUnit(n) && hc * hc == c.radius * c.radius - a * a
    requires arc == ChordArc(c, n, a, hc)
    ensures arc.points.0.Sub(c.center).LengthSquared() == c.radius * c.radius
    ensures arc.points.1.Sub(c.center).LengthSquared() == c.radius * c.radius
    ensures arc.points.0.Dot(n) == c.center.Dot(n) - a && arc.points.1.Dot(n) == c.center.Dot(n) - a
    ensures Mid(arc) == c.center.Sub(n.Scale(a))
    ensures arc.points.0.Sub(arc.points.1) == n.Perp().Scale(2.0 * hc)
    ensures BulgeSide(arc) == n.Scale(-(2.0 * hc))
  {
    var m := c.center.Sub(n.Scale(a));
    ChordEnd(c, n, a, hc, true, arc.points.0);
    ChordEnd(c, n, a, hc, false, arc.points.1);
    ChordShape(m, n, hc, arc);
  }

  /**
   * A chord end `center - a n +- hc perp(n)` with `hc^2 = r^2 - a^2` is on the circle, at level
   * `center . n - a`.
   */
  lemma ChordEnd(c: Circle, n: Vec2, a: real, hc: real, plus: bool, e: Vec2)
    requires IsUnit(n) && hc * hc == c.radius * c.radius - a * a
    requires var m, q := c.center.Sub(n.Scale(a)), n.Perp().Scale(hc); e == if plus then m.Add(q) else m.Sub(q)
    ensures e.Sub(c.center).LengthSquared() == c.radius * c.radius
    ensures e.Dot(n) == c.center.Dot(n) - a
  {
    var y := if plus then hc else -hc;
    assert y * y == hc * hc;
    if plus {
      assert e.Sub(c.center) == n.Scale(-a).Add(n.Perp().Scale(y));
    } else {
      assert e.Sub(c.center) == n.Scale(-a).Add(n.Perp().Scale(y));
    }
    OffsetFromCenter(n, a, y, e.Sub(c.center));
    assert e == c.center.Add(e.Sub(c.center));
  }

  /** The offset `-a n + y perp(n)` from the center, for a unit `n`: length `a^2 + y^2`, level `-a`. */
  lemma OffsetFromCenter(n: Vec2, a: real, y: real, u: Vec2)
    requires IsUnit(n) && u == n.Scale(-a).Add(n.Perp().Scale(y))
    ensures u.LengthSquared() == a * a + y * y && u.Dot(n) == -a
  {
    assert u == Vec2(-a * n.x - y * n.y, -a * n.y + y * n.x);
    RotatedSquare(a, y, n.x, n.y);
    assert u.Dot(n) == -a * (n.x * n.x + n.y * n.y) + y * (n.x * n.y - n.y * n.x);
  }

  /** The chord `m +- perp(n) hc` has midpoint `m`, runs along `-perp(n)` and bulges against `n`. */
  lemma ChordShape(m: Vec2, n: Vec2, hc: real, arc: Arc)
    requires arc.points == (m.Add(n.Perp().Scale(hc)), m.Sub(n.Perp().Scale(hc)))
    ensures Mid(arc) == m
    ensures arc.points.0.Sub(arc.points.1) == n.Perp().Scale(2.0 * hc)
    ensures BulgeSide(arc) == n.Scale(-(2.0 * hc))
  {
  }

  /** `|(-a nx - y ny, -a ny + y nx)|^2 == (a^2 + y^2) (nx^2 + ny^2)`. */
  lemma RotatedSquare(a: real, y: real, nx: real, ny: real)
    ensures (-a * nx - y * ny) * (-a * nx - y * ny) + (-a * ny + y * nx) * (-a * ny + y * nx) ==
            (a * a + y * y) * (nx * nx + ny * ny)
  {
  }

  /** `k n` has component `k` along the unit `n` and none across it. */
  lemma ScaledNormal(n: Vec2, k: real)
    requires IsUnit(n)
    ensures n.Scale(k).Dot(n) == k && n.Scale(k).PerpDot(n) == 0.0
  {
    assert n.Scale(k).Dot(n) == k * n.Dot(n);
  }

  lemma ComplementUnit(h: HalfPlane)
    requires IsUnit(h.normal)
    ensures IsUnit(Complement(h).normal)
  {
  }

  /**
   * With an exact square root and a unit normal, the arc of the intersection has both ends on
   * the circle and on the boundary, its chord midpoint is the foot of the perpendicular from the
   * center, it bulges into the half-plane, and its sagitta is the distance by which the circle
   * reaches into the half-plane.
   */
  lemma ArcInsideHalfPlane(c: Circle, h: HalfPlane, arc: Arc)
    requires SqrtSpec() && IsUnit(h.normal)
    requires CircleHalfPlane(c, h) == Some(Left(arc))
    ensures arc.points.0.Sub(c.center).LengthSquared() == c.radius * c.radius
    ensures arc.points.1.Sub(c.center).LengthSquared() == c.radius * c.radius
    ensures Distance(h, arc.points.0) == 0.0 && Distance(h, arc.points.1) == 0.0
    ensures Mid(arc) == c.center.Sub(h.normal.Scale(Distance(h, c.center)))
    ensures BulgeSide(arc).Dot(h.normal) >= 0.0 && BulgeSide(arc).PerpDot(h.normal) == 0.0
    ensures arc.sagitta == Distance(h, c.center.Add(h.normal.Scale(c.radius)))
  {
    var g := Complement(h);
    ComplementUnit(h);
    var hc := AsWrittenArcGeometry(c, g, arc);
    var d := Distance(h, c.center);
    assert Distance(g, c.center) == -d;
    NegatedNormal(h.normal, d, 2.0 * hc);
    ScaledNormal(h.normal, 2.0 * hc);
    DistanceAlongNormal(h, c.center, c.radius);
  }

  /** `(-n) (-k) == n k`. */
  lemma NegatedNormal(n: Vec2, d: real, k: real)
    ensures n.Neg().Scale(-d) == n.Scale(d) && n.Neg().Scale(-k) == n.Scale(k)
  {
  }

  /**
   * A circle whose center is at least a radius (less the tolerance) inside the half-plane comes
   * back whole: with the `ensures` of `CircleHalfPlane`, the whole circle is returned exactly in
   * this case.
   */
  lemma InsideCircleWhole(c: Circle, h: HalfPlane)
    requires Distance(h, c.center) >= c.radius - EPS && Distance(h, c.center) >= -c.radius
    ensures CircleHalfPlane(c, h) == Some(Right(c))
  {
  }

  // ---------------------------------------------------------------------------------------
  // Circle ∩ Line

  /** The half-plane of a non-degenerate line: unit normal `perp(dir) / |dir|`, zero distance exactly on the line. */
  lemma LinePlane(line: Line)
    requires SqrtSpec() && !line.IsDegenerate()
    ensures IsUnit(FromEdge(line.0, line.1).normal)
    ensures forall x :: Distance(FromEdge(line.0, line.1), x) == 0.0 ==> OnLine(line.0, line.1, x)
    ensures Length(line.Dir()) > 0.0 && FromEdge(line.0, line.1).normal == line.Dir().Perp().Scale(1.0 / Length(line.Dir()))
  {
    var (a, b) := (line.0, line.1);
    assert a != b;
    FromEdgeNormal(a, b);
    forall x | Distance(FromEdge(a, b), x) == 0.0
      ensures OnLine(a, b, x)
    {
      FromEdgeSide(a, b, x);
    }
  }

  /**
   * With an exact square root, the two points of `CircleLine` lie on the line, in the order of
   * the line's direction, and they are either one point or both on the circle.
   */
  lemma CircleLinePoints(c: Circle, line: Line, p: Vec2, q: Vec2)
    requires SqrtSpec() && CircleLine(c, line) == Some((p, q))
    ensures OnLine(line.0, line.1, p) && OnLine(line.0, line.1, q)
    ensures q.Sub(p).Dot(line.Dir()) >= 0.0
    ensures p == q || (p.Sub(c.center).LengthSquared() == c.radius * c.radius &&
                       q.Sub(c.center).LengthSquared() == c.radius * c.radius)
  {
    match CircleHalfPlaneAsWritten(c, Complement(FromEdge(line.0, line.1)))
    case Some(Left(arc)) => LineArcEnds(c, line, arc);
    case Some(Right(circle)) => LineTangent(c, line);
  }

  /**
   * With an exact square root, the two points of `CircleLineAsWritten` lie on the line, against
   * the line's direction, and they are either one point or both on the circle.
   */
  lemma CircleLineAsWrittenPoints(c: Circle, line: Line, p: Vec2, q: Vec2)
    requires SqrtSpec() && CircleLineAsWritten(c, line) == Some((p, q))
    ensures OnLine(line.0, line.1, p) && OnLine(line.0, line.1, q)
    ensures q.Sub(p).Dot(line.Dir()) <= 0.0
    ensures p == q || (p.Sub(c.center).LengthSquared() == c.radius * c.radius &&
                       q.Sub(c.center).LengthSquared() == c.radius * c.radius)
  {
    var plane := FromEdge(line.0, line.1);
    match CircleHalfPlaneAsWritten(c, plane)
    case Some(Left(arc)) =>
      ArcCutPoints(c, line, arc);
    case Some(Right(circle)) =>
      TangentCutPoint(c, line, circle);
  }

  /** The cut through an arc: its two ends, on the line and the circle, against the line's direction. */
  lemma ArcCutPoints(c: Circle, line: Line, arc: Arc)
    requires SqrtSpec() && !line.IsDegenerate()
    requires CircleHalfPlaneAsWritten(c, FromEdge(line.0, line.1)) == Some(Left(arc))
    ensures CircleLineAsWritten(c, line) == Some((arc.points.1, arc.points.0))
    ensures OnLine(line.0, line.1, arc.points.0) && OnLine(line.0, line.1, arc.points.1)
    ensures arc.points.0.Sub(arc.points.1).Dot(line.Dir()) <= 0.0
    ensures arc.points.0.Sub(c.center).LengthSquared() == c.radius * c.radius
    ensures arc.points.1.Sub(c.center).LengthSquared() == c.radius * c.radius
  {
    var plane := FromEdge(line.0, line.1);
    LinePlane(line);
    var hc := AsWrittenArcGeometry(c, plane, arc);
    AsWrittenArcOrder(c, line, arc);
  }

  /** The cut of a tangent line: one point, on the line. */
  lemma TangentCutPoint(c: Circle, line: Line, circle: Circle)
    requires SqrtSpec() && !line.IsDegenerate()
    requires CircleHalfPlaneAsWritten(c, FromEdge(line.0, line.1)) == Some(Right(circle))
    ensures CircleLineAsWritten(c, line).Some? ==>
              var (p, q) := CircleLineAsWritten(c, line).value;
              p == q && OnLine(line.0, line.1, p)
  {
    var plane := FromEdge(line.0, line.1);
    LinePlane(line);
    TangentOnBoundary(plane, circle);
  }

  /**
   * With an exact square root, each point `CircleSegment` keeps lies on the segment's line and
   * between its ends, and two kept points come against the direction of the segment.
   */
  lemma CircleSegmentPoints(c: Circle, seg: LineSegment, r: (Option<Vec2>, Option<Vec2>))
    requires SqrtSpec() && CircleSegment(c, seg) == Some(r)
    ensures r.0.Some? ==> OnLine(seg.0, seg.1, r.0.value) && IsBetween(seg, r.0.value)
    ensures r.1.Some? ==> OnLine(seg.0, seg.1, r.1.value) && IsBetween(seg, r.1.value)
    ensures r.0.Some? && r.1.Some? ==> r.1.value.Sub(r.0.value).Dot(seg.Dir()) <= 0.0
  {
    var (p, q) := CircleLineAsWritten(c, seg.ToLine()).value;
    CircleLineAsWrittenPoints(c, seg.ToLine(), p, q);
  }

  /** The ends of an arc cut by the complement of a line's half-plane: on the line and the circle, in line order. */
  lemma LineArcEnds(c: Circle, line: Line, arc: Arc)
    requires SqrtSpec() && !line.IsDegenerate()
    requires CircleHalfPlaneAsWritten(c, Complement(FromEdge(line.0, line.1))) == Some(Left(arc))
    ensures OnLine(line.0, line.1, arc.points.0) && OnLine(line.0, line.1, arc.points.1)
    ensures arc.points.0.Sub(arc.points.1).Dot(line.Dir()) >= 0.0
    ensures arc.points.0.Sub(c.center).LengthSquared() == c.radius * c.radius
    ensures arc.points.1.Sub(c.center).LengthSquared() == c.radius * c.radius
  {
    var plane := FromEdge(line.0, line.1);
    var g := Complement(plane);
    LinePlane(line);
    ComplementUnit(plane);
    var hc := AsWrittenArcGeometry(c, g, arc);
    assert Distance(plane, arc.points.0) == 0.0 && Distance(plane, arc.points.1) == 0.0;
    ComplementChordOrder(line.Dir(), Length(line.Dir()), g.normal, arc.points.0.Sub(arc.points.1), hc);
  }

  /** A chord along `perp(n) * 2hc`, for `n` the reversed unit normal `-perp(d) / len`, points along `d`. */
  lemma ComplementChordOrder(d: Vec2, len: real, n: Vec2, chord: Vec2, hc: real)
    requires len > 0.0 && hc >= 0.0
    requires n == d.Perp().Scale(1.0 / len).Neg() && chord == n.Perp().Scale(2.0 * hc)
    ensures chord.Dot(d) >= 0.0
  {
    NegScale(d.Perp(), 1.0 / len);
    ChordAlongLine(d, -(1.0 / len), 2.0 * hc);
    PositiveInverse(len);
    NonNegativeProduct(2.0 * hc * (1.0 / len), d.LengthSquared());
  }

  /** The tangent point of the complement of a line's half-plane is on the line. */
  lemma LineTangent(c: Circle, line: Line)
    requires SqrtSpec() && !line.IsDegenerate()
    ensures OnLine(line.0, line.1, TangentPoint(Complement(FromEdge(line.0, line.1)), c))
  {
    var plane := FromEdge(line.0, line.1);
    var g := Complement(plane);
    LinePlane(line);
    ComplementUnit(plane);
    TangentOnBoundary(g, c);
    assert Distance(plane, TangentPoint(g, c)) == 0.0;
  }

  /** The tangent point is on the boundary of a plane with a unit normal. */
  lemma TangentOnBoundary(plane: HalfPlane, c: Circle)
    requires IsUnit(plane.normal)
    ensures Distance(plane, TangentPoint(plane, c)) == 0.0
  {
    var b := BoundaryPoint(plane);
    EdgeOnBoundary(plane);
    DotOfDifference(b, c.center, plane.normal);
    DistanceAlongNormal(plane, c.center, b.Sub(c.center).Dot(plane.normal));
  }

  lemma NegScale(v: Vec2, k: real)
    ensures v.Scale(k).Neg() == v.Scale(-k)
  {
  }

  lemma DotOfDifference(a: Vec2, b: Vec2, n: Vec2)
    ensures a.Sub(b).Dot(n) == a.Dot(n) - b.Dot(n)
  {
  }

  /** `perp(k perp(d)) t . d == -(t k) |d|^2`. */
  lemma ChordAlongLine(d: Vec2, k: real, t: real)
    ensures d.Perp().Scale(k).Perp().Scale(t).Dot(d) == -(t * k) * d.LengthSquared()
  {
    assert d.Perp().Scale(k).Perp() == d.Scale(-k);
  }

  lemma PositiveInverse(len: real)
    requires len > 0.0
    ensures 1.0 / len > 0.0
  {
  }

  lemma NonNegativeProduct(x: real, y: real)
    requires x >= 0.0 && y >= 0.0
    ensures x * y >= 0.0
  {
  }

  /** As written, the cut by a line's own half-plane returns the ends against the line's direction. */
  lemma AsWrittenArcOrder(c: Circle, line: Line, arc: Arc)
    requires SqrtSpec() && !line.IsDegenerate()
    requires CircleHalfPlaneAsWritten(c, FromEdge(line.0, line.1)) == Some(Left(arc))
    ensures CircleLineAsWritten(c, line) == Some((arc.points.1, arc.points.0))
    ensures arc.points.0.Sub(arc.points.1).Dot(line.Dir()) <= 0.0
  {
    var plane := FromEdge(line.0, line.1);
    LinePlane(line);
    var d, len := line.Dir(), Length(line.Dir());
    var hc := AsWrittenArcGeometry(c, plane, arc);
    ChordAlongLine(d, 1.0 / len, 2.0 * hc);
    PositiveInverse(len);
    NonNegativeProduct(2.0 * hc * (1.0 / len), d.LengthSquared());
  }
}

=== FILE: circle_tests.dfy ===
/**
 * The scenarios of the circle tests (src/tests/circle.rs): containment in the unit disk, the cut
 * of a disk by the half-plane `x >= k`, and two disks whose centers lie on a horizontal line.
 * The cuts and lenses are stated for every circle and every offset along the axis, so that each
 * numbered case of the tests (tangent, negative apothem, ...) is an instance; several cases are
 * also stated on the tests' own numbers. The last part exhibits
 * the inputs on which the circle cuts as written differ from the corrected ones.
 */
module CircleTests {
  import opened Numeric
  import opened Geom
  import opened Lines
  import opened Plane
  import opened Polygons
  import opened Circles
  import opened Arcs
  import opened CircleIntersections

  // ---------------------------------------------------------------------------------------
  // Disk containment

  /** The unit disk at the origin holds exactly the points of squared norm at most one. */
  lemma UnitDisk(d: Disk, p: Vec2)
    requires d == NewDisk(Vec2(0.0, 0.0), 1.0)
    ensures DiskContains(d, p) <==> p.x * p.x + p.y * p.y <= 1.0
  {
  }

  /** The unit disk contains its center and `(0.5, 0)`, `(0, 0.5)`, `(0.3, 0.4)`, but not `(1.5, 0)`, `(0, 1.5)`, `(0.9, 0.9)`. */
  lemma UnitDiskPoints(d: Disk)
    requires d == NewDisk(Vec2(0.0, 0.0), 1.0)
    ensures DiskContains(d, Vec2(0.0, 0.0)) && DiskContains(d, Vec2(0.5, 0.0)) && DiskContains(d, Vec2(0.0, 0.5))
    ensures DiskContains(d, Vec2(0.3, 0.4))
    ensures !DiskContains(d, Vec2(1.5, 0.0)) && !DiskContains(d, Vec2(0.0, 1.5)) && !DiskContains(d, Vec2(0.9, 0.9))
  {
    UnitDisk(d, Vec2(0.0, 0.0));
    UnitDisk(d, Vec2(0.5, 0.0));
    UnitDisk(d, Vec2(0.0, 0.5));
    UnitDisk(d, Vec2(0.3, 0.4));
    UnitDisk(d, Vec2(1.5, 0.0));
    UnitDisk(d, Vec2(0.0, 1.5));
    UnitDisk(d, Vec2(0.9, 0.9));
  }

  // ---------------------------------------------------------------------------------------
  // Disk ∩ HalfPlane

  /**
   * The unit disk misses the half-plane `x >= 2` (`from_normal((2, 0), (1, 0))`): the test
   * expects `None`, which the corrected disk cut gives, while the cut as written returns the
   * whole disk.
   */
  lemma HalfPlaneOutside(d: Disk, h: HalfPlane)
    requires d.Center() == Vec2(0.0, 0.0) && d.Radius() == 1.0 && h.normal == Vec2(1.0, 0.0) && h.offset == 2.0
    ensures DiskHalfPlane(d, h) == Some(Right(d))
    ensures DiskHalfPlaneCorrected(d, h) == None
  {
    DiskOutsideWhole(d, h);
  }

  /**
   * The unit disk lies inside the half-plane `x >= -2` (`from_normal((-2, 0), (1, 0))`): the test
   * expects the whole disk, which the corrected disk cut gives, while the cut as written returns
   * `None`.
   */
  lemma HalfPlaneInside(d: Disk, h: HalfPlane)
    requires d.Center() == Vec2(0.0, 0.0) && d.Radius() == 1.0 && h.normal == Vec2(1.0, 0.0) && h.offset == -2.0
    ensures DiskHalfPlane(d, h) == None
    ensures DiskHalfPlaneCorrected(d, h) == Some(Right(d))
  {
    DiskInsideLost(d, h);
  }

  /** A disk more than a radius inside a half-plane is lost as written and kept whole when corrected. */
  lemma DiskInsideLost(d: Disk, h: HalfPlane)
    requires d.Radius() >= 0.0 && Distance(h, d.Center()) > d.Radius()
    ensures DiskHalfPlane(d, h) == None && DiskHalfPlaneCorrected(d, h) == Some(Right(d))
  {
    SideInverted(d.circle, h);
  }

  /** A disk more than a radius outside a half-plane is kept whole as written and lost when corrected. */
  lemma DiskOutsideWhole(d: Disk, h: HalfPlane)
    requires d.Radius() >= 0.0 && Distance(h, d.Center()) < -d.Radius()
    ensures DiskHalfPlane(d, h) == Some(Right(d)) && DiskHalfPlaneCorrected(d, h) == None
  {
  }

  /**
   * The half-plane `x >= k` cuts a circle whose center lies less than a radius (up to the
   * tolerance) to the left of `x = k` in the arc over the chord on the line `x = k`, symmetric
   * about the center's height, with half chord `sqrt(radius^2 - a^2)` and sagitta
   * `radius - a` for the apothem `a = k - center.x`: the intersecting, tangent (`a = radius`)
   * and negative-apothem (`a < 0`) cases of the tests.
   */
  lemma AxisCut(c: Circle, k: real)
    requires k - c.center.x <= c.radius && c.radius + (k - c.center.x) > EPS
    ensures var a := k - c.center.x;
            var hc := Sqrt(HalfChordSquared(c.radius, a));
            CircleHalfPlane(c, HalfPlane(Vec2(1.0, 0.0), k)) ==
              Some(Left(Arc((Vec2(k, c.center.y - hc), Vec2(k, c.center.y + hc)), c.radius - a)))
  {
    var h := HalfPlane(Vec2(1.0, 0.0), k);
    assert Complement(h) == HalfPlane(Vec2(-1.0, 0.0), -k);
    assert Distance(Complement(h), c.center) == k - c.center.x;
  }

  /**
   * As written, the same half-plane `x >= k` yields the arc over the same chord on the other
   * side of it, from the upper end to the lower, with sagitta `radius + a`: the part of the
   * circle in `x <= k`.
   */
  lemma AxisCutAsWritten(c: Circle, k: real)
    requires c.center.x - k <= c.radius && c.radius - (k - c.center.x) > EPS
    ensures var a := k - c.center.x;
            var hc := Sqrt(HalfChordSquared(c.radius, a));
            CircleHalfPlaneAsWritten(c, HalfPlane(Vec2(1.0, 0.0), k)) ==
              Some(Left(Arc((Vec2(k, c.center.y + hc), Vec2(k, c.center.y - hc)), c.radius + a)))
  {
    var a := k - c.center.x;
    assert Distance(HalfPlane(Vec2(1.0, 0.0), k), c.center) == -a;
    assert HalfChordSquared(c.radius, -a) == HalfChordSquared(c.radius, a);
  }

  /** The half-plane `x >= 0.5` cuts the unit circle over the chord `x = 0.5`: half chord `sqrt(0.75)`, sagitta `0.5`. */
  lemma HalfPlaneIntersecting(c: Circle, h: HalfPlane)
    requires c == Circle(Vec2(0.0, 0.0), 1.0) && h == HalfPlane(Vec2(1.0, 0.0), 0.5)
    ensures var hc := Sqrt(0.75);
            CircleHalfPlane(c, h) == Some(Left(Arc((Vec2(0.5, -hc), Vec2(0.5, hc)), 0.5)))
  {
    AxisCut(c, 0.5);
    assert HalfChordSquared(1.0, 0.5) == 0.75;
  }

  // ---------------------------------------------------------------------------------------
  // Disk ∩ Disk

  /** With an exact square root, the length of `(x, 0)` is `x`. */
  lemma LengthOnAxis(x: real)
    requires SqrtSpec() && x >= 0.0
    ensures Length(Vec2(x, 0.0)) == x
  {
    assert Vec2(x, 0.0).LengthSquared() == x * x;
    SqrtOfSquare(x);
  }

  lemma UnitQuotients(x: real)
    requires x > 0.0
    ensures x / x == 1.0 && 0.0 / x == 0.0
  {
  }

  /** Disks whose centers are `x` apart on a horizontal line, more than the sum of the radii, do not meet. */
  lemma AxisApart(d1: Disk, d2: Disk, x: real)
    requires SqrtSpec() && x >= 0.0 && d2.Center() == d1.Center().Add(Vec2(x, 0.0))
    requires x > d1.Radius() + d2.Radius()
    ensures DiskDisk(d1, d2) == None
  {
    assert d2.Center().Sub(d1.Center()) == Vec2(x, 0.0);
    LengthOnAxis(x);
  }

  /** Of two concentric disks, the smaller one is the intersection. */
  lemma DisksConcentric(d1: Disk, d2: Disk)
    requires SqrtSpec() && d1.Center() == Vec2(0.0, 0.0) && d1.Radius() == 2.0
    requires d2.Center() == Vec2(0.0, 0.0) && d2.Radius() == 1.0
    ensures DiskDisk(d1, d2) == Some(Right(d2))
  {
    SameCenter(d1.Center(), d2.Center());
  }

  lemma SameCenter(c1: Vec2, c2: Vec2)
    requires SqrtSpec() && c1 == c2
    ensures Length(c2.Sub(c1)) == 0.0
  {
    assert c2.Sub(c1) == Vec2(0.0, 0.0);
    LengthOnAxis(0.0);
  }

  /**
   * Two disks whose centers are `x` apart on a horizontal line, neither inside the other, meet
   * in a lens over the vertical chord at the apothem `a1` from the first center: the lower end
   * carries the first circle's sagitta `r1 - a1`, the upper end the second's `r2 - (x - a1)`.
   * This is the intersecting, tangent and negative-apothem cases of the tests.
   */
  lemma AxisLens(d1: Disk, d2: Disk, x: real)
    requires SqrtSpec() && x > 0.0 && d2.Center() == d1.Center().Add(Vec2(x, 0.0))
    requires Abs(d1.Radius() - d2.Radius()) < x <= d1.Radius() + d2.Radius()
    ensures var (c, r1, r2) := (d1.Center(), d1.Radius(), d2.Radius());
            var a1 := SelfApothem(x, r1, r2);
            var h := Sqrt(HalfChordSquared(r1, a1));
            DiskDisk(d1, d2) ==
              Some(Left(Polygon([ArcVertex(Vec2(c.x + a1, c.y - h), r1 - a1), ArcVertex(Vec2(c.x + a1, c.y + h), r2 - (x - a1))])))
  {
    var (c, r1, r2) := (d1.Center(), d1.Radius(), d2.Radius());
    var rel := d2.Center().Sub(c);
    assert rel == Vec2(x, 0.0);
    LengthOnAxis(x);
    UnitQuotients(x);
    var dir := rel.Div(x);
    assert dir == Vec2(1.0, 0.0);
    var a1 := SelfApothem(x, r1, r2);
    var h := Sqrt(HalfChordSquared(r1, a1));
    assert dir.Scale(a1) == Vec2(a1, 0.0) && dir.Perp().Scale(h) == Vec2(0.0, h);
    assert LensVertices(c, dir, r1, r2, a1, x - a1, h) ==
      [ArcVertex(Vec2(c.x + a1, c.y - h), r1 - a1), ArcVertex(Vec2(c.x + a1, c.y + h), r2 - (x - a1))];
  }

  // ---------------------------------------------------------------------------------------
  // The cuts as written

  /** As written, the unit circle deep inside the half-plane `x >= -2` is reported not to meet it. */
  lemma HalfPlaneSideInverted(c: Circle, h: HalfPlane)
    requires c == Circle(Vec2(0.0, 0.0), 1.0) && h == HalfPlane(Vec2(1.0, 0.0), -2.0)
    ensures CircleHalfPlaneAsWritten(c, h) == None
  {
    assert Distance(h, c.center) == 2.0;
    SideInverted(c, h);
  }

  /** Corrected, the same cut is the whole circle. */
  lemma HalfPlaneSideCorrected(c: Circle, h: HalfPlane)
    requires c == Circle(Vec2(0.0, 0.0), 1.0) && h == HalfPlane(Vec2(1.0, 0.0), -2.0)
    ensures CircleHalfPlane(c, h) == Some(Right(c))
  {
    assert Distance(h, c.center) == 2.0;
    SideInverted(c, h);
  }

  /**
   * Every circle of non-negative radius whose center lies more than a radius inside a
   * half-plane is lost by the cut as written and kept whole by the corrected one.
   */
  lemma SideInverted(c: Circle, h: HalfPlane)
    requires Distance(h, c.center) > c.radius && c.radius >= 0.0
    ensures CircleHalfPlaneAsWritten(c, h) == None
    ensures CircleHalfPlane(c, h) == Some(Right(c))
  {
  }

  /**
   * Whenever a line crosses a circle away from tangency, the cut as written returns the same two
   * points as the corrected one, in the opposite order.
   */
  lemma LineOrderReversed(c: Circle, line: Line)
    requires !line.IsDegenerate()
    requires var a := Distance(FromEdge(line.0, line.1), c.center); -c.radius + EPS < a < c.radius - EPS
    ensures CircleLineAsWritten(c, line).Some? && CircleLine(c, line).Some?
    ensures CircleLineAsWritten(c, line).value == (CircleLine(c, line).value.1, CircleLine(c, line).value.0)
  {
    ReversedCut(c, FromEdge(line.0, line.1));
  }

  /** The cut by a half-plane and by its complement, away from tangency, end at the same two points in opposite orders. */
  lemma ReversedCut(c: Circle, plane: HalfPlane)
    requires var a := Distance(plane, c.center); -c.radius + EPS < a < c.radius - EPS
    ensures LineCut(c, plane).Some? && LineCut(c, Complement(plane)).Some?
    ensures LineCut(c, plane).value == (LineCut(c, Complement(plane)).value.1, LineCut(c, Complement(plane)).value.0)
  {
    var n, a := plane.normal, Distance(plane, c.center);
    var g := Complement(plane);
    assert g.normal == n.Neg() && Distance(g, c.center) == -a;
    assert HalfChordSquared(c.radius, -a) == HalfChordSquared(c.radius, a);
    var hc := Sqrt(HalfChordSquared(c.radius, a));
    var arc1 := ChordArc(c, n, a, hc);
    var arc2 := ChordArc(c, n.Neg(), -a, hc);
    assert CircleHalfPlaneAsWritten(c, plane) == Some(Left(arc1));
    assert CircleHalfPlaneAsWritten(c, g) == Some(Left(arc2));
    assert c.center.Sub(n.Neg().Scale(-a)) == c.center.Sub(n.Scale(a));
    assert n.Neg().Perp().Scale(hc) == n.Perp().Scale(hc).Neg();
    assert arc2.points == (arc1.points.1, arc1.points.0);
  }
}

=== FILE: clip_walk.dfy ===
/**
 * The walk at the heart of Sutherland-Hodgman clipping (the `flat_map` in src/polygon/line.rs),
 * written for any membership test `contains` and any crossing computation `cross`; the
 * half-plane clip instantiates it with `plane.contains` and the boundary/edge intersection.
 *
 * The walk visits `prev -> vs[0] -> vs[1] -> ...`. Each step emits its end when that is inside,
 * preceded by the crossing when the step enters the region, or the crossing alone when it
 * leaves it.
 */
module ClipWalks {
  import opened Numeric
  import opened Geom

  /** `o.unwrap()`, with `fallback` standing in where the code would panic. */
  function UnwrapOr(o: Option<Vec2>, fallback: Vec2): Vec2 {
    match o
    case Some(x) => x
    case None => fallback
  }

  /** The vertices the step `a -> b` contributes, the pair of options already flattened. */
  function StepOutput(contains: Vec2 -> bool, cross: (Vec2, Vec2) -> Option<Vec2>, a: Vec2, b: Vec2): seq<Vec2> {
    match (contains(a), contains(b))
    case (true, true) => [b]
    case (true, false) => [UnwrapOr(cross(a, b), a)]
    case (false, true) => [UnwrapOr(cross(a, b), a), b]
    case (false, false) => []
  }

  /** The `unwrap()` of a step succeeds: a step that changes side has a crossing. */
  predicate StepDefined(contains: Vec2 -> bool, cross: (Vec2, Vec2) -> Option<Vec2>, a: Vec2, b: Vec2) {
    contains(a) != contains(b) ==> cross(a, b).Some?
  }

  /**
   * A step emits at most two vertices, two exactly when it enters the region and none exactly
   * when both ends are outside; an inside end is emitted last, and a step that changes side
   * emits its crossing first.
   */
  lemma StepCount(contains: Vec2 -> bool, cross: (Vec2, Vec2) -> Option<Vec2>, a: Vec2, b: Vec2)
    requires StepDefined(contains, cross, a, b)
    ensures var out := StepOutput(contains, cross, a, b);
            |out| <= 2 &&
            (|out| == 0 <==> !contains(a) && !contains(b)) &&
            (|out| == 2 <==> !contains(a) && contains(b)) &&
            (contains(b) ==> out[|out| - 1] == b) &&
            (contains(a) != contains(b) ==> out[0] == cross(a, b).value)
  {
  }

  /** The vertex before `vs[i]` in a walk that starts from `prev`. */
  function PrevOf(prev: Vec2, vs: seq<Vec2>, i: nat): Vec2
    requires i <= |vs|
  {
    if i == 0 then prev else vs[i - 1]
  }

  /** Every step of the walk `prev -> vs[0] -> vs[1] -> ...` has the crossing it needs. */
  predicate WalkDefined(contains: Vec2 -> bool, cross: (Vec2, Vec2) -> Option<Vec2>, prev: Vec2, vs: seq<Vec2>) {
    forall i :: 0 <= i < |vs| ==> StepDefined(contains, cross, PrevOf(prev, vs, i), vs[i])
  }

  /** The concatenated outputs of the walk `prev -> vs[0] -> vs[1] -> ...`. */
  function Walk(contains: Vec2 -> bool, cross: (Vec2, Vec2) -> Option<Vec2>, prev: Vec2, vs: seq<Vec2>): seq<Vec2>
    decreases |vs|
  {
    if vs == [] then []
    else
      var n := |vs| - 1;
      Walk(contains, cross, prev, vs[..n]) + StepOutput(contains, cross, PrevOf(prev, vs, n), vs[n])
  }

  /** The `flat_map` over the vertices, carrying the previous vertex and whether it is inside. */
  method ClipWalk(contains: Vec2 -> bool, cross: (Vec2, Vec2) -> Option<Vec2>, start: Vec2, vs: seq<Vec2>)
    returns (out: seq<Vec2>)
    requires WalkDefined(contains, cross, start, vs)
    ensures out == Walk(contains, cross, start, vs)
  {
    var prev := start;
    var prevInside := contains(prev);
    out := [];
    for i := 0 to |vs|
      invariant prev == PrevOf(start, vs, i)
      invariant prevInside == contains(prev)
      invariant out == Walk(contains, cross, start, vs[..i])
    {
      var v := vs[i];
      var inside := contains(v);
      assert StepDefined(contains, cross, PrevOf(start, vs, i), vs[i]);
      var step: seq<Vec2>;
      if prevInside && inside {
        step := [v];
      } else if prevInside {
        step := [cross(prev, v).value];
      } else if inside {
        step := [cross(prev, v).value, v];
      } else {
        step := [];
      }
      assert step == StepOutput(contains, cross, prev, v);
      WalkStep(contains, cross, start, vs, i);
      out := out + step;
      prev, prevInside := v, inside;
    }
    assert vs[..|vs|] == vs;
  }

  /** Extending the walk by one vertex appends that step's output. */
  lemma WalkStep(contains: Vec2 -> bool, cross: (Vec2, Vec2) -> Option<Vec2>, prev: Vec2, vs: seq<Vec2>, i: nat)
    requires i < |vs|
    ensures Walk(contains, cross, prev, vs[..i + 1]) ==
            Walk(contains, cross, prev, vs[..i]) + StepOutput(contains, cross, PrevOf(prev, vs, i), vs[i])
  {
    var w := vs[..i + 1];
    assert w[..i] == vs[..i] && w[i] == vs[i] && PrevOf(prev, w, i) == PrevOf(prev, vs, i);
  }

  /** A walk emits at most two vertices per step. */
  lemma {:induction false} WalkLength(contains: Vec2 -> bool, cross: (Vec2, Vec2) -> Option<Vec2>, prev: Vec2, vs: seq<Vec2>)
    ensures |Walk(contains, cross, prev, vs)| <= 2 * |vs|
    decreases |vs|
  {
    if vs != [] {
      var n := |vs| - 1;
      WalkLength(contains, cross, prev, vs[..n]);
    }
  }

  /** A walk that starts inside and stays inside emits its vertices unchanged. */
  lemma {:induction false} AllInsideWalk(contains: Vec2 -> bool, cross: (Vec2, Vec2) -> Option<Vec2>, prev: Vec2, vs: seq<Vec2>)
    requires contains(prev)
    requires forall i :: 0 <= i < |vs| ==> contains(vs[i])
    ensures Walk(contains, cross, prev, vs) == vs
    decreases |vs|
  {
    if vs != [] {
      var n := |vs| - 1;
      var init, last := vs[..n], vs[n];
      AllInsideWalk(contains, cross, prev, init);
      var a := PrevOf(prev, vs, n);
      assert contains(a);
      calc {
        Walk(contains, cross, prev, vs);
        Walk(contains, cross, prev, init) + StepOutput(contains, cross, a, last);
        init + [last];
      }
      assert init + [last] == vs;
    }
  }

  /** A walk that starts outside and stays outside emits nothing. */
  lemma {:induction false} NoneInsideWalk(contains: Vec2 -> bool, cross: (Vec2, Vec2) -> Option<Vec2>, prev: Vec2, vs: seq<Vec2>)
    requires !contains(prev)
    requires forall i :: 0 <= i < |vs| ==> !contains(vs[i])
    ensures Walk(contains, cross, prev, vs) == []
    decreases |vs|
  {
    if vs != [] {
      var n := |vs| - 1;
      NoneInsideWalk(contains, cross, prev, vs[..n]);
      var a := PrevOf(prev, vs, n);
      assert !contains(a);
      assert StepOutput(contains, cross, a, vs[n]) == [];
    }
  }

  /** A step that changes side has a crossing, and the crossing is inside. */
  predicate CrossingInside(contains: Vec2 -> bool, cross: (Vec2, Vec2) -> Option<Vec2>, a: Vec2, b: Vec2) {
    contains(a) != contains(b) ==> cross(a, b).Some? && contains(cross(a, b).value)
  }

  /** When every crossing the walk needs exists and is inside, the walk is defined and emits only inside vertices. */
  lemma {:induction false} WalkInside(contains: Vec2 -> bool, cross: (Vec2, Vec2) -> Option<Vec2>, prev: Vec2, vs: seq<Vec2>)
    requires forall i :: 0 <= i < |vs| ==> CrossingInside(contains, cross, PrevOf(prev, vs, i), vs[i])
    ensures WalkDefined(contains, cross, prev, vs)
    ensures forall x :: x in Walk(contains, cross, prev, vs) ==> contains(x)
    decreases |vs|
  {
    if vs != [] {
      var n := |vs| - 1;
      forall i | 0 <= i < n
        ensures CrossingInside(contains, cross, PrevOf(prev, vs[..n], i), vs[..n][i])
      {
        assert PrevOf(prev, vs[..n], i) == PrevOf(prev, vs, i);
      }
      WalkInside(contains, cross, prev, vs[..n]);
      assert CrossingInside(contains, cross, PrevOf(prev, vs, n), vs[n]);
    }
  }

  // ---------------------------------------------------------------------------------------
  // Folding a partial operation over a sequence

  /** Applies `step` with each of `hs` in turn, stopping at the first `None` (`?` inside a loop). */
  function Fold<H, P>(step: (H, P) -> Option<P>, p: P, hs: seq<H>): Option<P>
    decreases |hs|
  {
    if hs == [] then Some(p)
    else
      match step(hs[0], p)
      case None => None
      case Some(q) => Fold(step, q, hs[1..])
  }

  /** `defined` holds of every step the fold takes, up to the first `None`. */
  predicate FoldDefined<H, P>(defined: (H, P) -> bool, step: (H, P) -> Option<P>, p: P, hs: seq<H>)
    decreases |hs|
  {
    hs == [] ||
    (defined(hs[0], p) && (step(hs[0], p).Some? ==> FoldDefined(defined, step, step(hs[0], p).value, hs[1..])))
  }

  /** The fold over `a + b` is the fold over `a` followed, unless it came out `None`, by the fold over `b`. */
  lemma {:induction false} FoldAppend<H, P>(step: (H, P) -> Option<P>, p: P, a: seq<H>, b: seq<H>)
    ensures Fold(step, p, a + b) == match Fold(step, p, a)
                                    case None => None
                                    case Some(q) => Fold(step, q, b)
    decreases |a|
  {
    if a != [] {
      assert (a + b)[0] == a[0] && (a + b)[1..] == a[1..] + b;
      if step(a[0], p).Some? {
        FoldAppend(step, step(a[0], p).value, a[1..], b);
      }
    } else {
      assert a + b == b;
    }
  }

  /** One step of the fold: the head half-plane's step, then the rest. */
  lemma FoldHead<H, P>(defined: (H, P) -> bool, step: (H, P) -> Option<P>, p: P, hs: seq<H>)
    requires hs != []
    ensures step(hs[0], p).None? ==> Fold(step, p, hs).None?
    ensures step(hs[0], p).Some? ==> Fold(step, p, hs) == Fold(step, step(hs[0], p).value, hs[1..])
    ensures FoldDefined(defined, step, p, hs) ==>
              defined(hs[0], p) && (step(hs[0], p).Some? ==> FoldDefined(defined, step, step(hs[0], p).value, hs[1..]))
  {
  }
}

=== FILE: disk_clip.dfy ===
/**
 * The intersection of a straight polygon with a disk (`IntersectTo<Disk> for Polygon`,
 * src/polygon/circle.rs). A generator walks the edges `v[i] -> v[i + 1]` (closing with
 * `v[n - 1] -> v[0]`) and emits arc vertices: vertices inside the disk are kept with a straight
 * edge, edges that enter or leave the disk are clipped at the circle, and each stretch of the
 * boundary spent outside the disk becomes one arc of the circle, from the point where the
 * polygon left the disk (`last`) to the point where it comes back. The first entry point is
 * remembered (`first`) so that an arc still open when the walk ends is closed on it. The emitted
 * vertices are then deduplicated cyclically. When nothing is emitted the result is the disk
 * itself if the polygon contains its center, and `None` otherwise.
 *
 * The generator is modelled as a method with a loop over the state `prev`, `prev_inside`,
 * `first`, `last` and the output so far, proved against `Walk`, a fold of `Step` over the
 * vertices; the circle-line cuts are the ones of `CircleIntersections` as written.
 */
module DiskClips {
  import opened Numeric
  import opened Geom
  import opened Lines
  import opened Polygons
  import opened StraightPolygon
  import opened Circles
  import opened Arcs
  import opened CircleIntersections
  import opened ArcPolygons

  /** The generator's state after some edges: the edge start, whether it is inside, and the output so far. */
  datatype ClipState = ClipState(prev: Vec2, prevInside: bool, first: Option<Vec2>, last: Option<Vec2>,
                                 out: seq<ArcVertex>)

  /** `disk.polygon::<2>()`: the disk as an arc polygon of two vertices, built by `from_circle`. */
  const DiskPolygon2: Disk -> Polygon<ArcVertex>

  /** A vertex followed by a straight edge. */
  function Straight(point: Vec2): ArcVertex { ArcVertex(point, 0.0) }

  /**
   * The sagitta of the arc of the disk's circle from `from` to `to`:
   * `radius - Line(from, to).signed_distance(center)`.
   */
  function ArcSagitta(d: Disk, from: Vec2, to: Vec2): real {
    d.Radius() - SignedDistance(Line(from, to), d.Center())
  }

  /** `disk.edge().intersect(&Line(a, b)).unwrap_or([a, b])`. */
  function LineCrossings(d: Disk, a: Vec2, b: Vec2): (Vec2, Vec2) {
    match CircleLineAsWritten(d.circle, Line(a, b))
    case Some(q) => q
    case None => (a, b)
  }

  /**
   * The polygon comes back into the disk at `clip`: the arc from `last` is emitted when the
   * polygon left the disk before, otherwise `clip` is remembered as `first` if nothing was;
   * then `clip` itself, followed by a straight edge.
   */
  function Enter(d: Disk, s: ClipState, clip: Vec2): ClipState {
    if s.last.Some? then
      s.(out := s.out + [ArcVertex(s.last.value, ArcSagitta(d, s.last.value, clip)), Straight(clip)])
    else
      s.(first := if s.first.None? then Some(clip) else s.first, out := s.out + [Straight(clip)])
  }

  /** One iteration of the generator's loop: the edge from `s.prev` to `v`. */
  function Step(d: Disk, s: ClipState, v: Vec2): (t: ClipState)
    ensures t.prev == v && t.prevInside == DiskContains(d, v)
  {
    var inside := DiskContains(d, v);
    var s' :=
      if s.prevInside && inside then
        s.(out := s.out + [Straight(s.prev)])
      else if s.prevInside then
        s.(last := Some(LineCrossings(d, s.prev, v).1), out := s.out + [Straight(s.prev)])
      else if inside then
        Enter(d, s, LineCrossings(d, s.prev, v).0)
      else
        match CircleSegment(d.circle, LineSegment(s.prev, v))
        case Some((Some(a), Some(b))) => Enter(d, s, a).(last := Some(b))
        case _ => s;
    s'.(prev := v, prevInside := inside)
  }

  /** The steps over `vs`, in order, from the state `s`. */
  function Walk(d: Disk, s: ClipState, vs: seq<Vec2>): ClipState
  {
    if vs == [] then s else Step(d, Walk(d, s, vs[..|vs| - 1]), vs[|vs| - 1])
  }

  /** The state before the loop: the first vertex, nothing emitted, no entry or exit point. */
  function Start(d: Disk, v0: Vec2): ClipState {
    ClipState(v0, DiskContains(d, v0), None, None, [])
  }

  /** After the loop: an arc still open at `last` is closed on the first entry point. */
  function Close(d: Disk, s: ClipState): seq<ArcVertex> {
    if s.first.Some? && s.last.Some? then
      s.out + [ArcVertex(s.last.value, ArcSagitta(d, s.last.value, s.first.value))]
    else s.out
  }

  /** The vertices the generator yields for the polygon `vs`: nothing for an empty polygon. */
  function ClipVertices(d: Disk, vs: seq<Vec2>): seq<ArcVertex> {
    if vs == [] then [] else Close(d, Walk(d, Start(d, vs[0]), vs[1..] + [vs[0]]))
  }

  /** The element after `s[i]`, wrapping round from the last to the first. */
  function Next<T>(s: seq<T>, i: nat): T
    requires i < |s|
  {
    s[(i + 1) % |s|]
  }

  /** `(a.point - b.point).abs().max_element() > EPS`. */
  predicate Differs(a: ArcVertex, b: ArcVertex) {
    a.point.Sub(b.point).MaxAbs() > EPS
  }

  /** The deduplication of the first `j` vertices: vertex `k` is kept when it differs from vertex `k + 1`, cyclically. */
  function DedupPrefix(out: seq<ArcVertex>, j: nat): seq<ArcVertex>
    requires j <= |out|
  {
    if j == 0 then []
    else DedupPrefix(out, j - 1) + (if Differs(out[j - 1], Next(out, j - 1)) then [out[j - 1]] else [])
  }

  /** The `filter_map` pass that drops every vertex within `EPS` of its successor. */
  function Dedup(out: seq<ArcVertex>): seq<ArcVertex> {
    DedupPrefix(out, |out|)
  }

  /**
   * `Polygon::intersect_to(&Disk)`: the deduplicated vertices when the generator yields any;
   * otherwise the whole disk when the polygon contains its center, and `None` when it does not.
   */
  function PolygonDisk(p: Polygon<Vec2>, d: Disk): Option<Polygon<ArcVertex>> {
    var out := ClipVertices(d, p.vertices);
    if out != [] then Some(FromIter(Dedup(out)))
    else if Contains(Winding, p, d.Center()) then Some(FromIter(DiskPolygon2(d).vertices))
    else None
  }

  // ---------------------------------------------------------------------------------------
  // The algorithm

  /** `intersect_to`: run the generator, then deduplicate or fall back on the center test. */
  method IntersectTo(p: Polygon<Vec2>, d: Disk) returns (r: Option<Polygon<ArcVertex>>)
    ensures r == PolygonDisk(p, d)
  {
    var out := ClipGenerator(d, p.vertices);
    if out != [] {
      var kept := Deduplicate(out);
      r := Some(FromIter(kept));
    } else {
      var w := WindingNumber2(p, d.Center());
      if w > 0 {
        r := Some(FromIter(DiskPolygon2(d).vertices));
      } else {
        r := None;
      }
    }
  }

  /** The generator: one pass over the edges updating `prev`, `prev_inside`, `first` and `last`. */
  method ClipGenerator(d: Disk, vs: seq<Vec2>) returns (out: seq<ArcVertex>)
    ensures out == ClipVertices(d, vs)
  {
    if vs == [] {
      return [];
    }
    var rest := vs[1..] + [vs[0]];
    var prev := vs[0];
    var prevInside := DiskContains(d, prev);
    var first: Option<Vec2> := None;
    var last: Option<Vec2> := None;
    out := [];
    for i := 0 to |rest|
      invariant ClipState(prev, prevInside, first, last, out) == Walk(d, Start(d, vs[0]), rest[..i])
    {
      var v := rest[i];
      first, last, out := ClipEdge(d, prev, prevInside, first, last, out, v);
      prevInside := DiskContains(d, v);
      prev := v;
      assert rest[..i + 1][..i] == rest[..i];
    }
    assert rest[..|rest|] == rest;
    if first.Some? && last.Some? {
      out := out + [ArcVertex(last.value, ArcSagitta(d, last.value, first.value))];
    }
  }

  /**
   * The body of the generator's loop for the edge from `prev` to `v`: keep, clip or skip it,
   * and update `first`, `last` and the output.
   */
  method ClipEdge(d: Disk, prev: Vec2, prevInside: bool, first: Option<Vec2>, last: Option<Vec2>,
                  out: seq<ArcVertex>, v: Vec2)
    returns (first': Option<Vec2>, last': Option<Vec2>, out': seq<ArcVertex>)
    ensures ClipState(v, DiskContains(d, v), first', last', out') ==
            Step(d, ClipState(prev, prevInside, first, last, out), v)
  {
    first', last', out' := first, last, out;
    var inside := DiskContains(d, v);
    if prevInside && inside {
      out' := out + [Straight(prev)];
    } else if prevInside {
      last' := Some(LineCrossings(d, prev, v).1);
      out' := out + [Straight(prev)];
    } else if inside {
      first', out' := EnterClip(d, first, last, out, LineCrossings(d, prev, v).0);
    } else {
      match CircleSegment(d.circle, LineSegment(prev, v))
      case Some((Some(a), Some(b))) =>
        first', out' := EnterClip(d, first, last, out, a);
        last' := Some(b);
      case _ =>
    }
  }

  /** The polygon comes back into the disk at `clip`: close the open arc or remember `first`, then emit `clip`. */
  method EnterClip(d: Disk, first: Option<Vec2>, last: Option<Vec2>, out: seq<ArcVertex>, clip: Vec2)
    returns (first': Option<Vec2>, out': seq<ArcVertex>)
    ensures forall prev, prevInside :: var s := ClipState(prev, prevInside, first, last, out);
              Enter(d, s, clip) == s.(first := first', out := out')
  {
    first', out' := first, out;
    if last.Some? {
      out' := out' + [ArcVertex(last.value, ArcSagitta(d, last.value, clip))];
    } else if first.None? {
      first' := Some(clip);
    }
    out' := out' + [Straight(clip)];
  }

  /** The deduplicating `filter_map`: `prev` trails one vertex behind, wrapping round to the first. */
  method Deduplicate(out: seq<ArcVertex>) returns (kept: seq<ArcVertex>)
    ensures kept == Dedup(out)
  {
    if out == [] {
      return [];
    }
    var n := |out|;
    var rest := out[1..] + [out[0]];
    var prev := out[0];
    kept := [];
    for i := 0 to n
      invariant i < n ==> prev == out[i]
      invariant kept == DedupPrefix(out, i)
    {
      var v := rest[i];
      if i + 1 < n {
        ModBelow(i + 1, n);
      } else {
        ModWrap(i + 1, n);
      }
      assert v == Next(out, i);
      if prev.point.Sub(v.point).MaxAbs() > EPS {
        kept := kept + [prev];
      }
      prev := v;
    }
  }
}

=== FILE: disk_clip_props.dfy ===
/**
 * Properties of the polygon-disk intersection (src/polygon/circle.rs): a polygon inside the disk
 * comes back unchanged with straight edges, a polygon whose edges miss the disk gives the whole
 * disk or nothing according to whether it contains the center, every curved edge of the clip is
 * the arc from its vertex to the next one, and the deduplication keeps exactly the vertices that
 * differ from their successor.
 */
module DiskClipProperties {
  import opened Numeric
  import opened Geom
  import opened Lines
  import opened Polygons
  import opened StraightPolygon
  import opened Circles
  import opened Arcs
  import opened CircleIntersections
  import opened ArcPolygons
  import opened DiskClips

  /** The polygon with every vertex kept and every edge straight. */
  function StraightVertices(vs: seq<Vec2>): (r: seq<ArcVertex>)
    ensures |r| == |vs| && forall i :: 0 <= i < |vs| ==> r[i] == Straight(vs[i])
  {
    seq(|vs|, i requires 0 <= i < |vs| => Straight(vs[i]))
  }

  /** Every vertex of the polygon lies in the disk. */
  predicate AllInside(d: Disk, vs: seq<Vec2>) {
    forall i :: 0 <= i < |vs| ==> DiskContains(d, vs[i])
  }

  /** Every vertex differs from its cyclic successor by more than the tolerance. */
  predicate AllDiffer(out: seq<ArcVertex>) {
    forall i {:trigger Next(out, i)} :: 0 <= i < |out| ==> Differs(out[i], Next(out, i))
  }

  // ---------------------------------------------------------------------------------------
  // Deduplication

  lemma {:induction false} DedupPrefixAllDiffer(out: seq<ArcVertex>, j: nat)
    requires j <= |out| && AllDiffer(out)
    ensures DedupPrefix(out, j) == out[..j]
  {
    if j > 0 {
      DedupPrefixAllDiffer(out, j - 1);
      assert Differs(out[j - 1], Next(out, j - 1));
      assert DedupPrefix(out, j) == DedupPrefix(out, j - 1) + [out[j - 1]];
      assert out[..j] == out[..j - 1] + [out[j - 1]];
    }
  }

  /** When every vertex differs from its successor, deduplication changes nothing. */
  lemma DedupAllDiffer(out: seq<ArcVertex>)
    requires AllDiffer(out)
    ensures Dedup(out) == out
  {
    DedupPrefixAllDiffer(out, |out|);
  }

  lemma {:induction false} DedupPrefixMembers(out: seq<ArcVertex>, j: nat)
    requires j <= |out|
    ensures |DedupPrefix(out, j)| <= j
    ensures forall x :: x in DedupPrefix(out, j) <==>
              exists i :: 0 <= i < j && out[i] == x && Differs(out[i], Next(out, i))
  {
    if j > 0 {
      DedupPrefixMembers(out, j - 1);
    }
  }

  /**
   * Deduplication keeps a vertex exactly when some occurrence of it differs from its cyclic
   * successor by more than the tolerance, and never lengthens the sequence.
   */
  lemma DedupMembers(out: seq<ArcVertex>)
    ensures |Dedup(out)| <= |out|
    ensures forall x :: x in Dedup(out) <==>
              exists i :: 0 <= i < |out| && out[i] == x && Differs(out[i], Next(out, i))
  {
    DedupPrefixMembers(out, |out|);
  }

  /** A single emitted vertex is its own successor, so deduplication leaves nothing. */
  lemma DedupSingle(a: ArcVertex)
    ensures Dedup([a]) == []
  {
    assert Next([a], 0) == a;
    assert !Differs(a, a);
    assert DedupPrefix([a], 0) == [];
    assert DedupPrefix([a], 1) == [];
  }

  // ---------------------------------------------------------------------------------------
  // A polygon inside the disk

  /** With every vertex inside, the walk emits each edge start with a straight edge and never sets `first` or `last`. */
  lemma {:induction false} AllInsideWalk(d: Disk, vs: seq<Vec2>, rest: seq<Vec2>, k: nat)
    requires |vs| >= 1 && rest == vs[1..] + [vs[0]] && AllInside(d, vs) && k <= |vs|
    ensures Walk(d, Start(d, vs[0]), rest[..k]) ==
              ClipState(if k == 0 then vs[0] else rest[k - 1], true, None, None, StraightVertices(vs[..k]))
  {
    if k > 0 {
      AllInsideWalk(d, vs, rest, k - 1);
      RotatedStep(vs, rest, k);
      var prev := if k == 1 then vs[0] else rest[k - 2];
      var s := ClipState(prev, true, None, None, StraightVertices(vs[..k - 1]));
      var w := Walk(d, Start(d, vs[0]), rest[..k]);
      assert w == Step(d, s, rest[k - 1]);
      assert DiskContains(d, vs[k % |vs|]);
      StepInside(d, s, rest[k - 1]);
      assert w == ClipState(rest[k - 1], true, None, None, StraightVertices(vs[..k - 1]) + [Straight(vs[k - 1])]);
      assert StraightVertices(vs[..k]) == StraightVertices(vs[..k - 1]) + [Straight(vs[k - 1])];
    }
  }

  /** An edge between two inside vertices keeps its start with a straight edge. */
  lemma StepInside(d: Disk, s: ClipState, v: Vec2)
    requires s.prevInside && DiskContains(d, v)
    ensures Step(d, s, v) == ClipState(v, true, s.first, s.last, s.out + [Straight(s.prev)])
  {
  }

  /** A polygon with every vertex in the disk yields its own vertices, each with a straight edge. */
  lemma AllInsideVertices(d: Disk, vs: seq<Vec2>)
    requires AllInside(d, vs)
    ensures ClipVertices(d, vs) == StraightVertices(vs)
  {
    if vs != [] {
      var rest := vs[1..] + [vs[0]];
      AllInsideWalk(d, vs, rest, |vs|);
      assert rest[..|vs|] == rest;
      assert vs[..|vs|] == vs;
    }
  }

  /**
   * A non-empty polygon inside the disk whose consecutive vertices are more than the tolerance
   * apart is its own intersection with the disk, every edge straight.
   */
  lemma AllInsideIntersection(p: Polygon<Vec2>, d: Disk)
    requires |p.vertices| >= 1 && AllInside(d, p.vertices) && AllDiffer(StraightVertices(p.vertices))
    ensures PolygonDisk(p, d) == Some(Polygon(StraightVertices(p.vertices)))
  {
    AllInsideVertices(d, p.vertices);
    DedupAllDiffer(StraightVertices(p.vertices));
  }

  /**
   * The polygon with straight edges built from a straight polygon has that polygon as its frame
   * and winds around every point as it does.
   */
  lemma StraightVerticesWinding(p: Polygon<Vec2>)
    ensures ArcPolygons.Frame(Polygon(StraightVertices(p.vertices))) == p
    ensures forall point :: ArcWinding(Polygon(StraightVertices(p.vertices)), point) == Winding(p, point)
  {
    var q := Polygon(StraightVertices(p.vertices));
    assert ArcPolygons.Frame(q).vertices == p.vertices;
    assert Flat(q);
    forall point
      ensures ArcWinding(q, point) == Winding(p, point)
    {
      FlatArcsWinding(q, point);
    }
  }

  /** A polygon of one vertex inside the disk gives an arc polygon with no vertices at all. */
  lemma SingleVertexInside(v: Vec2, d: Disk)
    requires DiskContains(d, v)
    ensures PolygonDisk(Polygon([v]), d) == Some(Polygon([]))
  {
    AllInsideVertices(d, [v]);
    assert StraightVertices([v]) == [Straight(v)];
    DedupSingle(Straight(v));
  }

  // ---------------------------------------------------------------------------------------
  // A polygon whose edges miss the disk

  /** The segment from `a` to `b` passes through the disk: its line meets the circle twice within it. */
  predicate Crosses(d: Disk, a: Vec2, b: Vec2) {
    match CircleSegment(d.circle, LineSegment(a, b))
    case Some((Some(_), Some(_))) => true
    case _ => false
  }

  /** Every vertex is outside the disk and no edge passes through it. */
  predicate Misses(d: Disk, vs: seq<Vec2>) {
    (forall i :: 0 <= i < |vs| ==> !DiskContains(d, vs[i])) &&
    (forall i {:trigger Next(vs, i)} :: 0 <= i < |vs| ==> !Crosses(d, vs[i], Next(vs, i)))
  }

  /** An edge between two outside vertices that does not pass through the disk changes nothing but `prev`. */
  lemma StepMiss(d: Disk, s: ClipState, v: Vec2)
    requires !s.prevInside && !DiskContains(d, v) && !Crosses(d, s.prev, v)
    ensures Step(d, s, v) == s.(prev := v)
  {
  }

  lemma {:induction false} MissWalk(d: Disk, vs: seq<Vec2>, rest: seq<Vec2>, k: nat)
    requires |vs| >= 1 && rest == vs[1..] + [vs[0]] && Misses(d, vs) && k <= |vs|
    ensures Walk(d, Start(d, vs[0]), rest[..k]) == ClipState(if k == 0 then vs[0] else rest[k - 1], false, None, None, [])
  {
    if k > 0 {
      MissWalk(d, vs, rest, k - 1);
      RotatedStep(vs, rest, k);
      var prev := if k == 1 then vs[0] else rest[k - 2];
      var s := ClipState(prev, false, None, None, []);
      assert Walk(d, Start(d, vs[0]), rest[..k]) == Step(d, s, rest[k - 1]);
      assert !DiskContains(d, vs[k % |vs|]) && !Crosses(d, vs[k - 1], Next(vs, k - 1));
      StepMiss(d, s, rest[k - 1]);
    }
  }

  /** Step `k` of the walk over the rotated vertices goes from `vs[k - 1]` to `vs[k % n]`, the successor of `vs[k - 1]`. */
  lemma RotatedStep(vs: seq<Vec2>, rest: seq<Vec2>, k: nat)
    requires |vs| >= 1 && rest == vs[1..] + [vs[0]] && 1 <= k <= |vs|
    ensures rest[..k][..k - 1] == rest[..k - 1]
    ensures (if k == 1 then vs[0] else rest[k - 2]) == vs[k - 1]
    ensures rest[k - 1] == vs[k % |vs|] == Next(vs, k - 1)
  {
    assert rest[..k][..k - 1] == rest[..k - 1];
    if k < |vs| {
      ModBelow(k, |vs|);
    } else {
      ModWrap(k, |vs|);
    }
  }

  /** When no vertex is in the disk and no edge passes through it, the generator yields nothing. */
  lemma MissVertices(d: Disk, vs: seq<Vec2>)
    requires Misses(d, vs)
    ensures ClipVertices(d, vs) == []
  {
    if vs != [] {
      var rest := vs[1..] + [vs[0]];
      MissWalk(d, vs, rest, |vs|);
      assert rest[..|vs|] == rest;
    }
  }

  /**
   * When no vertex is in the disk and no edge passes through it, the result is the whole disk
   * if the polygon contains the center, `None` otherwise.
   */
  lemma MissIntersection(p: Polygon<Vec2>, d: Disk)
    requires Misses(d, p.vertices)
    ensures PolygonDisk(p, d) == if Winding(p, d.Center()) > 0 then Some(DiskPolygon2(d)) else None
  {
    MissVertices(d, p.vertices);
  }

  /** The empty polygon meets no disk. */
  lemma EmptyPolygonIntersection(d: Disk)
    ensures PolygonDisk(Polygon([]), d) == None
  {
    var empty: Polygon<Vec2> := Polygon([]);
    assert SegmentEdges(empty) == [];
  }

  // ---------------------------------------------------------------------------------------
  // Curved edges

  /** The edge from `a` to the next vertex `b` is straight or the arc of the disk's circle from `a` to `b`. */
  predicate EdgeOfDisk(d: Disk, a: ArcVertex, b: ArcVertex) {
    a.sagitta == 0.0 || a.sagitta == ArcSagitta(d, a.point, b.point)
  }

  /**
   * What the generator's state keeps true: consecutive outputs form straight edges or arcs of
   * the disk, the latest output has a straight edge, `first` is the first output, and nothing
   * has been emitted while the walk is outside the disk without having left it.
   */
  predicate WalkShape(d: Disk, s: ClipState) {
    (forall i :: 0 <= i < |s.out| - 1 ==> EdgeOfDisk(d, s.out[i], s.out[i + 1])) &&
    (s.out != [] ==> s.out[|s.out| - 1].sagitta == 0.0) &&
    (s.first.Some? ==> s.out != [] && s.out[0].point == s.first.value) &&
    (s.last.None? && !s.prevInside ==> s.out == [])
  }

  /** Appending a straight vertex after a straight one keeps the chain. */
  lemma AppendStraight(d: Disk, out: seq<ArcVertex>, x: Vec2)
    requires forall i :: 0 <= i < |out| - 1 ==> EdgeOfDisk(d, out[i], out[i + 1])
    requires out != [] ==> out[|out| - 1].sagitta == 0.0
    ensures var o := out + [Straight(x)];
            forall i :: 0 <= i < |o| - 1 ==> EdgeOfDisk(d, o[i], o[i + 1])
  {
  }

  /** Appending an arc from `l` to `x` and then `x` itself after a straight vertex keeps the chain. */
  lemma AppendArc(d: Disk, out: seq<ArcVertex>, l: Vec2, x: Vec2)
    requires forall i :: 0 <= i < |out| - 1 ==> EdgeOfDisk(d, out[i], out[i + 1])
    requires out != [] ==> out[|out| - 1].sagitta == 0.0
    ensures var o := out + [ArcVertex(l, ArcSagitta(d, l, x)), Straight(x)];
            forall i :: 0 <= i < |o| - 1 ==> EdgeOfDisk(d, o[i], o[i + 1])
  {
    var o := out + [ArcVertex(l, ArcSagitta(d, l, x)), Straight(x)];
    forall i | 0 <= i < |o| - 1
      ensures EdgeOfDisk(d, o[i], o[i + 1])
    {
      if i < |out| - 1 {
        assert o[i] == out[i] && o[i + 1] == out[i + 1];
      } else if i == |out| - 1 {
        assert o[i] == out[i];
      }
    }
  }

  /** Entering the disk at `clip` keeps the shape of the state, whichever of `last` and `first` is set. */
  lemma EnterShape(d: Disk, s: ClipState, clip: Vec2)
    requires WalkShape(d, s) && !s.prevInside
    ensures var t := Enter(d, s, clip);
            (forall i :: 0 <= i < |t.out| - 1 ==> EdgeOfDisk(d, t.out[i], t.out[i + 1])) &&
            t.out != [] && t.out[|t.out| - 1].sagitta == 0.0 &&
            (t.first.Some? ==> t.out[0].point == t.first.value)
  {
    if s.last.Some? {
      AppendArc(d, s.out, s.last.value, clip);
    } else {
      assert s.out == [];
    }
  }

  /** One step of the generator keeps the shape of its state. */
  lemma StepShape(d: Disk, s: ClipState, v: Vec2)
    requires WalkShape(d, s)
    ensures WalkShape(d, Step(d, s, v))
  {
    var inside := DiskContains(d, v);
    if s.prevInside {
      AppendStraight(d, s.out, s.prev);
    } else if inside {
      EnterShape(d, s, LineCrossings(d, s.prev, v).0);
    } else {
      match CircleSegment(d.circle, LineSegment(s.prev, v))
      case Some((Some(a), Some(b))) =>
        EnterShape(d, s, a);
      case _ =>
    }
  }

  lemma {:induction false} WalkKeepsShape(d: Disk, s: ClipState, vs: seq<Vec2>)
    requires WalkShape(d, s)
    ensures WalkShape(d, Walk(d, s, vs))
  {
    if vs != [] {
      WalkKeepsShape(d, s, vs[..|vs| - 1]);
      StepShape(d, Walk(d, s, vs[..|vs| - 1]), vs[|vs| - 1]);
    }
  }

  /** Closing the last open arc on `first` makes the chain of edges cyclic. */
  lemma CloseShape(d: Disk, s: ClipState)
    requires WalkShape(d, s)
    ensures var out := Close(d, s);
            forall i {:trigger Next(out, i)} :: 0 <= i < |out| ==> EdgeOfDisk(d, out[i], Next(out, i))
  {
    var out := Close(d, s);
    forall i | 0 <= i < |out|
      ensures EdgeOfDisk(d, out[i], Next(out, i))
    {
      if i < |out| - 1 {
        ModBelow(i + 1, |out|);
        if i < |s.out| - 1 {
          assert out[i] == s.out[i] && out[i + 1] == s.out[i + 1];
        } else {
          assert out[i] == s.out[i];
        }
      } else {
        ModWrap(i + 1, |out|);
        if out != s.out {
          assert out[0] == s.out[0];
        }
      }
    }
  }

  /**
   * Every vertex the generator yields starts a straight edge or the arc of the disk's circle from
   * its point to the next vertex's point, the last vertex's arc ending at the first vertex.
   */
  lemma ClipEdgesOfDisk(d: Disk, vs: seq<Vec2>)
    ensures var out := ClipVertices(d, vs);
            forall i {:trigger Next(out, i)} :: 0 <= i < |out| ==> EdgeOfDisk(d, out[i], Next(out, i))
  {
    if vs != [] {
      var start := Start(d, vs[0]);
      WalkKeepsShape(d, start, vs[1..] + [vs[0]]);
      CloseShape(d, Walk(d, start, vs[1..] + [vs[0]]));
    }
  }
}

=== FILE: disk_intersect_props.dfy ===
/**
 * Properties of the intersection of two disks (src/circle.rs): the lens vertices lie on both
 * circles, the common chord is perpendicular to the line of centers, both arcs bulge outwards,
 * and exchanging the disks gives the same lens with its two vertices exchanged.
 */
module DiskIntersectionProperties {
  import opened Numeric
  import opened Geom
  import opened Polygons
  import opened Circles
  import opened Arcs
  import opened Plane
  import opened CircleIntersections
  import opened CircleIntersectionProperties

  /**
   * The quantities of a lens: the center distance `dist`, the unit direction `dir` from the
   * first center to the second, the apothem `a1` of the common chord seen from the first center
   * and the half chord `h`, which squares to the same value seen from either center.
   */
  lemma LensParts(d1: Disk, d2: Disk, p: Polygon<ArcVertex>) returns (dist: real, dir: Vec2, a1: real, h: real)
    requires SqrtSpec() && DiskDisk(d1, d2) == Some(Left(p))
    ensures var rel := d2.Center().Sub(d1.Center());
            dist == Length(rel) && dist > 0.0 && Abs(d1.Radius() - d2.Radius()) < dist <= d1.Radius() + d2.Radius() &&
            dir == rel.Div(dist) && IsUnit(dir) && d2.Center() == d1.Center().Add(dir.Scale(dist))
    ensures a1 == SelfApothem(dist, d1.Radius(), d2.Radius())
    ensures h >= 0.0 && h * h == HalfChordSquared(d1.Radius(), a1)
    ensures HalfChordSquared(d1.Radius(), a1) == HalfChordSquared(d2.Radius(), dist - a1)
    ensures p.vertices == LensVertices(d1.Center(), dir, d1.Radius(), d2.Radius(), a1, dist - a1, h)
  {
    LensBranch(d1, d2, p);
    dist, dir, a1, h := LensQuantities(d1.Center(), d2.Center(), d1.Radius(), d2.Radius());
  }

  /** `LensParts` over the centers and radii. */
  lemma LensQuantities(c1: Vec2, c2: Vec2, r1: real, r2: real) returns (dist: real, dir: Vec2, a1: real, h: real)
    requires SqrtSpec() && Abs(r1 - r2) < Length(c2.Sub(c1)) <= r1 + r2
    ensures dist == Length(c2.Sub(c1)) && dist > 0.0
    ensures dir == c2.Sub(c1).Div(dist) && IsUnit(dir) && c2 == c1.Add(dir.Scale(dist))
    ensures a1 == SelfApothem(dist, r1, r2)
    ensures h == Sqrt(HalfChordSquared(r1, a1)) && h >= 0.0 && h * h == HalfChordSquared(r1, a1)
    ensures HalfChordSquared(r1, a1) == HalfChordSquared(r2, dist - a1)
  {
    var rel := c2.Sub(c1);
    dist := Length(rel);
    dir := rel.Div(dist);
    DirectionOfLength(rel, dist);
    assert c2 == c1.Add(rel);
    a1 := SelfApothem(dist, r1, r2);
    LensApothems(dist, r1, r2, a1);
    var x := HalfChordSquared(r1, a1);
    SqrtOf(x);
    h := Sqrt(x);
  }

  /** The lens branch of `DiskDisk`, unfolded. */
  lemma LensBranch(d1: Disk, d2: Disk, p: Polygon<ArcVertex>)
    requires DiskDisk(d1, d2) == Some(Left(p))
    ensures var dist := Length(d2.Center().Sub(d1.Center()));
            var a1 := SelfApothem(dist, d1.Radius(), d2.Radius());
            Abs(d1.Radius() - d2.Radius()) < dist <= d1.Radius() + d2.Radius() &&
            p.vertices == LensVertices(d1.Center(), d2.Center().Sub(d1.Center()).Div(dist), d1.Radius(), d2.Radius(),
                                       a1, dist - a1, Sqrt(HalfChordSquared(d1.Radius(), a1)))
  {
  }

  /** `rel / dist` is a unit vector that scales back to `rel`, when `dist` is the positive length of `rel`. */
  lemma DirectionOfLength(rel: Vec2, dist: real)
    requires SqrtSpec() && dist == Length(rel) && dist > 0.0
    ensures IsUnit(rel.Div(dist)) && rel.Div(dist).Scale(dist) == rel
  {
    LengthSpec(rel);
    NormalizeSpec(rel);
    DivScale(rel, dist);
  }

  /**
   * For centers `dist` apart with `|r1 - r2| < dist <= r1 + r2`, the half chord square
   * `r1^2 - a1^2` is not negative and equals `r2^2 - a2^2` for the other apothem `a2 = dist - a1`.
   */
  lemma LensApothems(dist: real, r1: real, r2: real, a1: real)
    requires dist > 0.0 && Abs(r1 - r2) < dist <= r1 + r2 && a1 == SelfApothem(dist, r1, r2)
    ensures HalfChordSquared(r1, a1) >= 0.0
    ensures HalfChordSquared(r1, a1) == HalfChordSquared(r2, dist - a1)
  {
    var k := (r1 * r1 - r2 * r2) / dist;
    QuotientTimes(r1 * r1 - r2 * r2, dist);
    ApothemDifference(dist, r1, r2, k, a1);
    HalfChordNonNegative(dist, r1, r2, k, a1);
  }

  lemma QuotientTimes(x: real, d: real)
    requires d != 0.0
    ensures x / d * d == x
  {
  }

  /** `a1^2 - a2^2 = dist (a1 - a2) = dist k = r1^2 - r2^2`. */
  lemma ApothemDifference(dist: real, r1: real, r2: real, k: real, a1: real)
    requires k * dist == r1 * r1 - r2 * r2 && a1 == 0.5 * (dist + k)
    ensures HalfChordSquared(r1, a1) == HalfChordSquared(r2, dist - a1)
  {
    assert a1 * a1 - (dist - a1) * (dist - a1) == dist * (2.0 * a1 - dist);
    assert dist * (2.0 * a1 - dist) == dist * k;
  }

  /**
   * `4 (r1^2 - a1^2) = u v` with `u = 2 r1 - dist - k` and `v = 2 r1 + dist + k`, where
   * `u dist = (r2 - r1 + dist) (r1 + r2 - dist)` and `v dist = (r1 - r2 + dist) (r1 + r2 + dist)`
   * are not negative.
   */
  lemma HalfChordNonNegative(dist: real, r1: real, r2: real, k: real, a1: real)
    requires dist > 0.0 && Abs(r1 - r2) < dist <= r1 + r2
    requires k * dist == r1 * r1 - r2 * r2 && a1 == 0.5 * (dist + k)
    ensures HalfChordSquared(r1, a1) >= 0.0
  {
    var u, v := 2.0 * r1 - dist - k, 2.0 * r1 + dist + k;
    assert u * dist == (r2 - r1 + dist) * (r2 + r1 - dist);
    assert v * dist == (r1 - r2 + dist) * (r1 + r2 + dist);
    NonNegativeFactors(r2 - r1 + dist, r2 + r1 - dist);
    NonNegativeFactors(r1 - r2 + dist, r1 + r2 + dist);
    SignOfProduct(u, dist);
    SignOfProduct(v, dist);
    NonNegativeFactors(u, v);
    assert 4.0 * HalfChordSquared(r1, a1) == u * v;
  }

  lemma NonNegativeFactors(x: real, y: real)
    requires x >= 0.0 && y >= 0.0
    ensures x * y >= 0.0
  {
  }

  /** For a unit `dir`, the point `c + dir s + perp(dir) y` is at squared distance `s^2 + y^2` from `c`. */
  lemma OffsetLength(c: Vec2, dir: Vec2, s: real, y: real, e: Vec2)
    requires IsUnit(dir) && e == c.Add(dir.Scale(s)).Add(dir.Perp().Scale(y))
    ensures e.Sub(c).LengthSquared() == s * s + y * y
  {
    assert e.Sub(c) == dir.Scale(-(-s)).Add(dir.Perp().Scale(y));
    OffsetFromCenter(dir, -s, y, e.Sub(c));
  }

  /**
   * A lens vertex `c1 + dir a1 + perp(dir) y` is `dir (a1 - dist) + perp(dir) y` away from
   * `c2 = c1 + dir dist`.
   */
  lemma FromSecondCenter(c1: Vec2, c2: Vec2, dir: Vec2, dist: real, a1: real, y: real, e: Vec2)
    requires c2 == c1.Add(dir.Scale(dist)) && e == c1.Add(dir.Scale(a1)).Add(dir.Perp().Scale(y))
    ensures e == c2.Add(dir.Scale(a1 - dist)).Add(dir.Perp().Scale(y))
  {
    assert dir.Scale(a1) == dir.Scale(dist).Add(dir.Scale(a1 - dist));
  }

  /** The lens vertex `m - perp(dir) h` is `m + perp(dir) (-h)`. */
  lemma MinusOffset(m: Vec2, p: Vec2, h: real)
    ensures m.Sub(p.Scale(h)) == m.Add(p.Scale(-h))
  {
  }

  /**
   * Both lens vertices lie on the circle of radius `r1` around `c1` and on the circle of radius
   * `r2` around `c2 = c1 + dir dist`.
   */
  lemma LensVerticesOnCircles(c1: Vec2, c2: Vec2, dir: Vec2, dist: real, r1: real, r2: real, a1: real, h: real,
                               vs: seq<ArcVertex>)
    requires IsUnit(dir) && c2 == c1.Add(dir.Scale(dist))
    requires h * h == HalfChordSquared(r1, a1) && HalfChordSquared(r1, a1) == HalfChordSquared(r2, dist - a1)
    requires vs == LensVertices(c1, dir, r1, r2, a1, dist - a1, h)
    ensures |vs| == 2
    ensures OnCircle(vs[0].point, Circle(c1, r1)) && OnCircle(vs[0].point, Circle(c2, r2))
    ensures OnCircle(vs[1].point, Circle(c1, r1)) && OnCircle(vs[1].point, Circle(c2, r2))
  {
    var m := c1.Add(dir.Scale(a1));
    MinusOffset(m, dir.Perp(), h);
    VertexOnCircles(c1, c2, dir, dist, r1, r2, a1, -h, vs[0].point);
    VertexOnCircles(c1, c2, dir, dist, r1, r2, a1, h, vs[1].point);
  }

  lemma VertexOnCircles(c1: Vec2, c2: Vec2, dir: Vec2, dist: real, r1: real, r2: real, a1: real, y: real, e: Vec2)
    requires IsUnit(dir) && c2 == c1.Add(dir.Scale(dist))
    requires y * y == HalfChordSquared(r1, a1) && HalfChordSquared(r1, a1) == HalfChordSquared(r2, dist - a1)
    requires e == c1.Add(dir.Scale(a1)).Add(dir.Perp().Scale(y))
    ensures OnCircle(e, Circle(c1, r1)) && OnCircle(e, Circle(c2, r2))
  {
    OffsetLength(c1, dir, a1, y, e);
    FromSecondCenter(c1, c2, dir, dist, a1, y, e);
    OffsetLength(c2, dir, a1 - dist, y, e);
    assert (a1 - dist) * (a1 - dist) == (dist - a1) * (dist - a1);
  }

  /** With an exact square root, both vertices of the lens lie on both circles. */
  lemma LensOnBothCircles(d1: Disk, d2: Disk, p: Polygon<ArcVertex>)
    requires SqrtSpec() && DiskDisk(d1, d2) == Some(Left(p))
    ensures |p.vertices| == 2
    ensures OnCircle(p.vertices[0].point, d1.circle) && OnCircle(p.vertices[0].point, d2.circle)
    ensures OnCircle(p.vertices[1].point, d1.circle) && OnCircle(p.vertices[1].point, d2.circle)
  {
    var dist, dir, a1, h := LensParts(d1, d2, p);
    LensVerticesOnCircles(d1.Center(), d2.Center(), dir, dist, d1.Radius(), d2.Radius(), a1, h, p.vertices);
  }

  /**
   * With an exact square root, the midpoint of the common chord lies on the line of centers, at
   * `radius - sagitta` from each center towards the other one (`n` is the unit direction from the
   * first center to the second), and the chord from the first vertex to the second is
   * perpendicular to that line, running along `perp(n)`.
   */
  lemma LensChord(d1: Disk, d2: Disk, p: Polygon<ArcVertex>)
    requires SqrtSpec() && DiskDisk(d1, d2) == Some(Left(p))
    ensures |p.vertices| == 2
    ensures var n, mid := Normalize(d2.Center().Sub(d1.Center())), p.vertices[0].point.Add(p.vertices[1].point).Scale(0.5);
            mid == d1.Center().Add(n.Scale(d1.Radius() - p.vertices[0].sagitta)) &&
            mid == d2.Center().Sub(n.Scale(d2.Radius() - p.vertices[1].sagitta))
    ensures var n := Normalize(d2.Center().Sub(d1.Center()));
            var chord := p.vertices[1].point.Sub(p.vertices[0].point);
            chord.Dot(n) == 0.0 && chord.Dot(n.Perp()) >= 0.0
  {
    var dist, dir, a1, h := LensParts(d1, d2, p);
    assert dir == Normalize(d2.Center().Sub(d1.Center()));
    LensChordAt(d1.Center(), d2.Center(), dir, dist, d1.Radius(), d2.Radius(), a1, h, p.vertices);
  }

  /** `LensChord` over the quantities of the lens. */
  lemma LensChordAt(c1: Vec2, c2: Vec2, dir: Vec2, dist: real, r1: real, r2: real, a1: real, h: real,
                    vs: seq<ArcVertex>)
    requires IsUnit(dir) && c2 == c1.Add(dir.Scale(dist)) && h >= 0.0
    requires vs == LensVertices(c1, dir, r1, r2, a1, dist - a1, h)
    ensures |vs| == 2
    ensures var mid := vs[0].point.Add(vs[1].point).Scale(0.5);
            mid == c1.Add(dir.Scale(r1 - vs[0].sagitta)) && mid == c2.Sub(dir.Scale(r2 - vs[1].sagitta))
    ensures var chord := vs[1].point.Sub(vs[0].point);
            chord.Dot(dir) == 0.0 && chord.Dot(dir.Perp()) >= 0.0
  {
    var m := c1.Add(dir.Scale(a1));
    var q := dir.Perp().Scale(h);
    assert vs[1].point.Sub(vs[0].point) == q.Scale(2.0);
    assert vs[0].point.Add(vs[1].point).Scale(0.5) == m;
    assert r1 - vs[0].sagitta == a1 && r2 - vs[1].sagitta == dist - a1;
    assert m == c2.Sub(dir.Scale(dist - a1)) by {
      assert dir.Scale(dist).Sub(dir.Scale(dist - a1)) == dir.Scale(a1);
    }
    AcrossDirection(dir, h);
  }

  /** For a unit `dir`, `2 perp(dir) h` is across `dir` and has component `2h` along `perp(dir)`. */
  lemma AcrossDirection(dir: Vec2, h: real)
    requires IsUnit(dir)
    ensures dir.Perp().Scale(h).Scale(2.0).Dot(dir) == 0.0
    ensures dir.Perp().Scale(h).Scale(2.0).Dot(dir.Perp()) == 2.0 * h
  {
    assert dir.Perp().Scale(h).Scale(2.0).Dot(dir.Perp()) == 2.0 * h * dir.Dot(dir);
  }

  /** An apothem whose half chord square is not negative is within the radius, for a positive radius. */
  lemma ApothemBound(r: real, a: real)
    requires r > 0.0 && HalfChordSquared(r, a) >= 0.0
    ensures -r <= a <= r
  {
    if a > r {
      StrictSquare(r, a);
    } else if a < -r {
      StrictSquare(r, -a);
    }
  }

  // ---------------------------------------------------------------------------------------
  // Exchanging the disks

  /**
   * With an exact square root, `DiskDisk` does not depend on the order of the disks up to the
   * order of the lens vertices: both orders fail together, yield the same disk, or yield the
   * same lens with its two vertices exchanged, which is the same closed arc polygon.
   */
  lemma DiskDiskSwap(d1: Disk, d2: Disk)
    requires SqrtSpec()
    ensures DiskDisk(d2, d1).None? <==> DiskDisk(d1, d2).None?
    ensures DiskDisk(d1, d2).Some? && DiskDisk(d1, d2).value.Right? ==> DiskDisk(d2, d1) == DiskDisk(d1, d2)
    ensures DiskDisk(d1, d2).Some? && DiskDisk(d1, d2).value.Left? ==>
              var vs := DiskDisk(d1, d2).value.left.vertices;
              |vs| == 2 && DiskDisk(d2, d1) == Some(Left(New([vs[1], vs[0]])))
  {
    SwappedLength(d1.Center(), d2.Center());
    match DiskDisk(d1, d2)
    case None =>
    case Some(Right(d)) => SwapNested(d1, d2);
    case Some(Left(p)) => SwapLens(d1, d2, p);
  }

  /** Nested disks give the same disk in either order; on equal radii the disks coincide. */
  lemma SwapNested(d1: Disk, d2: Disk)
    requires SqrtSpec() && DiskDisk(d1, d2).Some? && DiskDisk(d1, d2).value.Right?
    ensures DiskDisk(d2, d1) == DiskDisk(d1, d2)
  {
    var rel := d2.Center().Sub(d1.Center());
    SwappedLength(d1.Center(), d2.Center());
    if d1.Radius() == d2.Radius() {
      LengthSpec(rel);
      assert d2.Center() == d1.Center().Add(rel);
    }
  }

  /** A lens in one order is the lens with exchanged vertices in the other. */
  lemma SwapLens(d1: Disk, d2: Disk, p: Polygon<ArcVertex>)
    requires SqrtSpec() && DiskDisk(d1, d2) == Some(Left(p))
    ensures |p.vertices| == 2 && DiskDisk(d2, d1) == Some(Left(New([p.vertices[1], p.vertices[0]])))
  {
    var dist, dir, a1, h := LensParts(d1, d2, p);
    SwappedLength(d1.Center(), d2.Center());
    LensOf(d2, d1);
    SwappedLens(d1.Center(), d2.Center(), d1.Radius(), d2.Radius(), dist, dir, a1, h, p.vertices);
  }

  /** The lens branch of `DiskDisk`, taken when the centers are between `|r1 - r2|` and `r1 + r2` apart. */
  lemma LensOf(d1: Disk, d2: Disk)
    requires var dist := Length(d2.Center().Sub(d1.Center()));
             Abs(d1.Radius() - d2.Radius()) < dist <= d1.Radius() + d2.Radius()
    ensures var dist := Length(d2.Center().Sub(d1.Center()));
            var a1 := SelfApothem(dist, d1.Radius(), d2.Radius());
            DiskDisk(d1, d2) ==
              Some(Left(New(LensVertices(d1.Center(), d2.Center().Sub(d1.Center()).Div(dist), d1.Radius(), d2.Radius(),
                                         a1, dist - a1, Sqrt(HalfChordSquared(d1.Radius(), a1))))))
  {
  }

  /** The centers are as far apart in either order. */
  lemma SwappedLength(c1: Vec2, c2: Vec2)
    ensures Length(c1.Sub(c2)) == Length(c2.Sub(c1))
  {
    assert c1.Sub(c2).LengthSquared() == c2.Sub(c1).LengthSquared();
  }

  /** The lens of the exchanged disks: the same vertices in the other order. */
  lemma SwappedLens(c1: Vec2, c2: Vec2, r1: real, r2: real, dist: real, dir: Vec2, a1: real, h: real,
                     vs: seq<ArcVertex>)
    requires SqrtSpec() && dist == Length(c2.Sub(c1)) && dist > 0.0
    requires dir == c2.Sub(c1).Div(dist) && c2 == c1.Add(dir.Scale(dist))
    requires a1 == SelfApothem(dist, r1, r2) && h == Sqrt(HalfChordSquared(r1, a1))
    requires HalfChordSquared(r1, a1) == HalfChordSquared(r2, dist - a1)
    requires vs == LensVertices(c1, dir, r1, r2, a1, dist - a1, h)
    ensures |vs| == 2
    ensures var a2 := SelfApothem(dist, r2, r1);
            LensVertices(c2, c1.Sub(c2).Div(dist), r2, r1, a2, dist - a2, Sqrt(HalfChordSquared(r2, a2))) == [vs[1], vs[0]]
  {
    ApothemSwap(dist, r1, r2);
    NegDivide(c2.Sub(c1), dist);
    assert c1.Sub(c2) == c2.Sub(c1).Neg();
    LensVerticesSwap(c1, c2, dir, dist, r1, r2, a1, h);
    assert dist - (dist - a1) == a1;
  }

  lemma NegDivide(v: Vec2, k: real)
    requires k != 0.0
    ensures v.Neg().Div(k) == v.Div(k).Neg()
  {
    assert -v.x / k == -(v.x / k);
    assert -v.y / k == -(v.y / k);
  }

  /** The apothem seen from the second center is the rest of the center distance. */
  lemma ApothemSwap(dist: real, r1: real, r2: real)
    requires dist != 0.0
    ensures SelfApothem(dist, r2, r1) == dist - SelfApothem(dist, r1, r2)
  {
    assert (r2 * r2 - r1 * r1) / dist == -((r1 * r1 - r2 * r2) / dist);
  }

  /** `LensVertices` from the second center along `-dir` lists the same two vertices, exchanged. */
  lemma LensVerticesSwap(c1: Vec2, c2: Vec2, dir: Vec2, dist: real, r1: real, r2: real, a1: real, h: real)
    requires c2 == c1.Add(dir.Scale(dist))
    ensures var vs := LensVertices(c1, dir, r1, r2, a1, dist - a1, h);
            LensVertices(c2, dir.Neg(), r2, r1, dist - a1, a1, h) == [vs[1], vs[0]]
  {
    var m := c1.Add(dir.Scale(a1));
    assert c2.Add(dir.Neg().Scale(dist - a1)) == m;
    assert dir.Neg().Perp().Scale(h) == dir.Perp().Scale(h).Neg();
  }
}

=== FILE: geom.dfy ===
/**
 * The crate root (src/lib.rs): the tolerance, the `Moment` of a shape with its weighted
 * `merge`, the `Closed::contains` default, and the forwarding of winding numbers and
 * moments through `Option` and `Either`.
 */
module Geom {
  import opened Numeric

  /** The single global tolerance (`EPS: f32 = 1e-8`). */
  const EPS: real := 0.00000001

  datatype Option<T> = None | Some(value: T)

  datatype Either<L, R> = Left(left: L) | Right(right: R)

  /** Zeroth moment (`area`) and the centroid it is attached to. */
  datatype Moment = Moment(area: real, centroid: Vec2)

  /** `Moment::default()`: zero area at the origin. */
  const DEFAULT_MOMENT: Moment := Moment(0.0, ZERO)

  /** The first moment `centroid * area`, the quantity that merging adds up. */
  function FirstMoment(m: Moment): Vec2 { m.centroid.Scale(m.area) }

  /**
   * `Moment::merge`: areas add; below the tolerance the result is the default moment,
   * otherwise the centroid is the area-weighted average, so first moments add as well.
   */
  function Merge(a: Moment, b: Moment): (m: Moment)
    ensures Abs(a.area + b.area) < EPS ==> m == DEFAULT_MOMENT
    ensures EPS <= Abs(a.area + b.area) ==>
              m.area == a.area + b.area && FirstMoment(m) == FirstMoment(a).Add(FirstMoment(b))
  {
    var area := a.area + b.area;
    if Abs(area) < EPS then
      DEFAULT_MOMENT
    else
      var sum := a.centroid.Scale(a.area).Add(b.centroid.Scale(b.area));
      DivScale(sum, area);
      Moment(area, sum.Div(area))
  }

  /** Two moments with the same non-zero area and the same first moment are equal. */
  lemma MomentOfFirstMoment(m1: Moment, m2: Moment)
    requires m1.area == m2.area && m1.area != 0.0
    requires FirstMoment(m1) == FirstMoment(m2)
    ensures m1 == m2
  {
    ScaleDiv(m1.centroid, m1.area);
    ScaleDiv(m2.centroid, m2.area);
  }

  /** Merging does not depend on the order of its arguments. */
  lemma MergeCommutative(a: Moment, b: Moment)
    ensures Merge(a, b) == Merge(b, a)
  {
    var area := a.area + b.area;
    if EPS <= Abs(area) {
      MomentOfFirstMoment(Merge(a, b), Merge(b, a));
    }
  }

  /** Merging a zero-area moment into a non-negligible one leaves the latter unchanged. */
  lemma MergeZeroArea(a: Moment, b: Moment)
    requires b.area == 0.0 && EPS <= Abs(a.area)
    ensures Merge(a, b) == a
  {
    assert FirstMoment(b) == ZERO;
    MomentOfFirstMoment(Merge(a, b), a);
  }

  /** Merging is associative as long as no partial sum of areas falls below the tolerance. */
  lemma MergeAssociative(a: Moment, b: Moment, c: Moment)
    requires EPS <= Abs(a.area + b.area) && EPS <= Abs(b.area + c.area)
    requires EPS <= Abs(a.area + b.area + c.area)
    ensures Merge(Merge(a, b), c) == Merge(a, Merge(b, c))
  {
    var ab, bc := Merge(a, b), Merge(b, c);
    assert ab.area + c.area == a.area + bc.area;
    MomentOfFirstMoment(Merge(ab, c), Merge(a, bc));
  }

  /** `Closed::contains`: a shape contains a point when its winding number is positive. */
  predicate Contains<S>(winding: (S, Vec2) -> int, shape: S, point: Vec2) {
    winding(shape, point) > 0
  }

  /** `Closed for Option<T>`: an absent shape winds around nothing. */
  function OptionWinding<S>(winding: (S, Vec2) -> int, shape: Option<S>, point: Vec2): (w: int)
    ensures shape.None? ==> w == 0
    ensures shape.Some? ==> w == winding(shape.value, point)
  {
    match shape
    case Some(s) => winding(s, point)
    case None => 0
  }

  /** `Integrable for Option<T>`: an absent shape has the default moment. */
  function OptionMoment<S>(moment: S -> Moment, shape: Option<S>): (m: Moment)
    ensures shape.None? ==> m == DEFAULT_MOMENT
    ensures shape.Some? ==> m == moment(shape.value)
  {
    match shape
    case Some(s) => moment(s)
    case None => DEFAULT_MOMENT
  }

  /** `Closed for Either<L, R>`: the winding number of whichever side is held. */
  function EitherWinding<L, R>(left: (L, Vec2) -> int, right: (R, Vec2) -> int,
                               shape: Either<L, R>, point: Vec2): (w: int)
    ensures shape.Left? ==> w == left(shape.left, point)
    ensures shape.Right? ==> w == right(shape.right, point)
  {
    match shape
    case Left(l) => left(l, point)
    case Right(r) => right(r, point)
  }

  /** `Integrable for Either<L, R>`: the moment of whichever side is held. */
  function EitherMoment<L, R>(left: L -> Moment, right: R -> Moment, shape: Either<L, R>): (m: Moment)
    ensures shape.Left? ==> m == left(shape.left)
    ensures shape.Right? ==> m == right(shape.right)
  {
    match shape
    case Left(l) => left(l)
    case Right(r) => right(r)
  }

  /** An absent shape contains no point. */
  lemma NoneContainsNothing<S>(winding: (S, Vec2) -> int, point: Vec2)
    ensures !Contains((o: Option<S>, p: Vec2) => OptionWinding(winding, o, p), None, point)
  {
  }
}

=== FILE: lines.dfy ===
/**
 * Infinite lines and bounded segments (src/line.rs): degeneracy and proximity tests and the
 * four pairwise intersections. Both shapes are a pair of points; a line extends past them,
 * a segment is the parameter range [0, 1] from the first point to the second.
 */
module Lines {
  import opened Numeric
  import opened Geom

  /** Infinite line through two points. */
  datatype Line = Line(0: Vec2, 1: Vec2) {
    function Dir(): Vec2 { this.1.Sub(this.0) }

    /** Both coordinates of the direction are below `EPS` in absolute value. */
    predicate IsDegenerate()
      ensures IsDegenerate() <==> Abs(this.1.x - this.0.x) < EPS && Abs(this.1.y - this.0.y) < EPS
    {
      Dir().MaxAbs() < EPS
    }

    /** Whether `point` is within the EPS-neighbourhood of the line. */
    predicate IsNear(point: Vec2) {
      var r := Dir();
      if r.MaxAbs() < EPS then point.Sub(this.0).MaxAbs() < EPS
      else Abs(r.PerpDot(point.Sub(this.0))) < EPS
    }
  }

  /** Segment bounded by two points. */
  datatype LineSegment = LineSegment(0: Vec2, 1: Vec2) {
    function Dir(): Vec2 { this.1.Sub(this.0) }

    /** The line through the segment's ends: same direction, and both ends are near it. */
    function ToLine(): (l: Line)
      ensures l.Dir() == Dir() && l.IsNear(this.0) && l.IsNear(this.1)
    {
      Line(this.0, this.1)
    }

    /** A segment is degenerate whichever way round its ends are taken. */
    predicate IsDegenerate()
      ensures IsDegenerate() <==> Line(this.1, this.0).IsDegenerate()
      ensures IsDegenerate() <==> Abs(Dir().x) < EPS && Abs(Dir().y) < EPS
    {
      ToLine().IsDegenerate()
    }

    /** Whether `point` is within the EPS-neighbourhood of the segment. */
    predicate IsNear(point: Vec2) {
      var r := Dir();
      if r.MaxAbs() < EPS then point.Sub(this.0).MaxAbs() < EPS
      else if Abs(r.PerpDot(point.Sub(this.0))) > EPS then false
      else
        var dot := point.Sub(this.0).Dot(r);
        -EPS <= dot && dot <= r.LengthSquared() + EPS
    }
  }

  /** `LineSegment::is_between`; it is not part of this model, so its value is left open. */
  const IsBetween: (LineSegment, Vec2) -> bool

  /** `Line::signed_distance`; it is not part of this model, so its value is left open. */
  const SignedDistance: (Line, Vec2) -> real

  /** `x` lies exactly on the line through `a` and `b`. */
  predicate OnLine(a: Vec2, b: Vec2, x: Vec2) { b.Sub(a).PerpDot(x.Sub(a)) == 0.0 }

  /** The tolerant parameter range `-EPS ..= 1 + EPS`. */
  predicate InRange(t: real) { -EPS <= t <= 1.0 + EPS }

  /**
   * The quantities every intersection starts from, for `p + t r` (first operand) against
   * `q + u s` (second operand): `pq = q - p`, `den = r x s`, `pqr = pq x r`, `pqs = pq x s`.
   */
  datatype Frame = Frame(p: Vec2, q: Vec2, r: Vec2, s: Vec2, pq: Vec2, den: real, pqr: real, pqs: real)

  function FrameOf(a0: Vec2, a1: Vec2, b0: Vec2, b1: Vec2): (f: Frame)
    ensures f.p == a0 && f.q == b0 && f.r == a1.Sub(a0) && f.s == b1.Sub(b0)
  {
    var r, s, pq := a1.Sub(a0), b1.Sub(b0), b0.Sub(a0);
    Frame(a0, b0, r, s, pq, r.PerpDot(s), pq.PerpDot(r), pq.PerpDot(s))
  }

  /** `Intersect<Line> for Line`. */
  function IntersectLines(self: Line, other: Line): (res: Option<Vec2>)
    ensures var f := FrameOf(self.0, self.1, other.0, other.1);
            Abs(f.den) > EPS ==>
              res.Some? && OnLine(self.0, self.1, res.value) && OnLine(other.0, other.1, res.value)
    ensures var f := FrameOf(self.0, self.1, other.0, other.1);
            Abs(f.den) <= EPS ==> res.None? || res.value == self.0 || res.value == other.0
    ensures var f := FrameOf(self.0, self.1, other.0, other.1);
            Abs(f.den) <= EPS && f.s.MaxAbs() > EPS ==>
              res == if other.IsNear(self.0) then Some(self.0) else None
    ensures var f := FrameOf(self.0, self.1, other.0, other.1);
            Abs(f.den) <= EPS && f.r.MaxAbs() > EPS && f.s.MaxAbs() <= EPS ==>
              res == if self.IsNear(other.0) then Some(other.0) else None
  {
    var f := FrameOf(self.0, self.1, other.0, other.1);
    if Abs(f.den) > EPS then
      CrossingOnBothLines(f);
      Some(Lerp(self.0, self.1, f.pqs / f.den))
    else
      NearStarts(self, other);
      match (f.r.MaxAbs() > EPS, f.s.MaxAbs() > EPS)
      case (true, true) => if Abs(f.pqs) < EPS then Some(f.p) else None
      case (false, true) => if Abs(f.pqs) < EPS then Some(f.p) else None
      case (true, false) => if Abs(f.pqr) < EPS then Some(f.q) else None
      case (false, false) => if f.pq.MaxAbs() < EPS then Some(f.p) else None
  }

  /** For a non-degenerate line, nearness of the other line's start is the cross product test of the frame. */
  lemma NearStarts(self: Line, other: Line)
    ensures var f := FrameOf(self.0, self.1, other.0, other.1);
            f.s.MaxAbs() > EPS ==> (other.IsNear(self.0) <==> Abs(f.pqs) < EPS)
    ensures var f := FrameOf(self.0, self.1, other.0, other.1);
            f.r.MaxAbs() > EPS ==> (self.IsNear(other.0) <==> Abs(f.pqr) < EPS)
  {
    var f := FrameOf(self.0, self.1, other.0, other.1);
    assert other.Dir().PerpDot(self.0.Sub(other.0)) == f.pqs;
    assert self.Dir().PerpDot(other.0.Sub(self.0)) == -f.pqr;
  }

  /** `Intersect<Line> for LineSegment`. */
  function IntersectSegmentLine(self: LineSegment, other: Line): (res: Option<Vec2>)
    ensures var f := FrameOf(self.0, self.1, other.0, other.1);
            Abs(f.den) > EPS ==>
              res == if InRange(f.pqs / f.den) then IntersectLines(self.ToLine(), other) else None
    ensures var f := FrameOf(self.0, self.1, other.0, other.1);
            Abs(f.den) <= EPS && f.r.MaxAbs() > EPS && f.s.MaxAbs() > EPS ==>
              res == if Abs(f.pqs) < EPS then Some(self.0.Add(f.r.Scale(0.5))) else None
    ensures var f := FrameOf(self.0, self.1, other.0, other.1);
            Abs(f.den) <= EPS && f.r.MaxAbs() <= EPS && f.s.MaxAbs() > EPS ==>
              res == if other.IsNear(self.0) then Some(self.0) else None
    ensures var f := FrameOf(self.0, self.1, other.0, other.1);
            Abs(f.den) <= EPS && f.r.MaxAbs() > EPS && f.s.MaxAbs() <= EPS ==>
              (NonZeroLengthSquared(f.r);
               res == if self.ToLine().IsNear(other.0) && InRange(SegmentParam(self, other.0)) then Some(other.0) else None)
    ensures var f := FrameOf(self.0, self.1, other.0, other.1);
            Abs(f.den) <= EPS && f.r.MaxAbs() <= EPS && f.s.MaxAbs() <= EPS ==>
              res == if other.0.Sub(self.0).MaxAbs() < EPS then Some(self.0) else None
  {
    var f := FrameOf(self.0, self.1, other.0, other.1);
    if Abs(f.den) > EPS then
      var u := f.pqs / f.den;
      if InRange(u) then Some(Lerp(self.0, self.1, u)) else None
    else
      NearStarts(self.ToLine(), other);
      StartParams(self.0, self.1, other.0, other.1);
      match (f.r.MaxAbs() > EPS, f.s.MaxAbs() > EPS)
      case (true, true) => if Abs(f.pqs) < EPS then Some(f.p.Add(f.r.Scale(0.5))) else None
      case (false, true) => if Abs(f.pqs) < EPS then Some(f.p) else None
      case (true, false) =>
        NonZeroLengthSquared(f.r);
        var u := f.pq.Dot(f.r) / f.r.LengthSquared();
        if Abs(f.pqr) < EPS && InRange(u) then Some(f.q) else None
      case (false, false) => if f.pq.MaxAbs() < EPS then Some(f.p) else None
  }

  /** `Intersect<LineSegment> for Line` delegates to the segment. */
  function IntersectLineSegment(self: Line, other: LineSegment): (res: Option<Vec2>)
    ensures res == IntersectSegmentLine(other, self)
  {
    IntersectSegmentLine(other, self)
  }

  /** The overlap parameter of two collinear segments: the midpoint of `[max(t_min, 0), min(t_max, 1)]`. */
  function OverlapMid(f: Frame): real
    requires f.r.LengthSquared() != 0.0
  {
    var t0 := f.pq.Dot(f.r) / f.r.LengthSquared();
    var t1 := f.pq.Add(f.s).Dot(f.r) / f.r.LengthSquared();
    var tMin, tMax := Min(t0, t1), Max(t0, t1);
    (Max(tMin, 0.0) + Min(tMax, 1.0)) * 0.5
  }

  /** Whether the projections of two collinear segments overlap within the tolerance. */
  predicate Overlaps(f: Frame)
    requires f.r.LengthSquared() != 0.0
  {
    var t0 := f.pq.Dot(f.r) / f.r.LengthSquared();
    var t1 := f.pq.Add(f.s).Dot(f.r) / f.r.LengthSquared();
    !(Max(t0, t1) < -EPS || Min(t0, t1) > 1.0 + EPS)
  }

  /** `Intersect<LineSegment> for LineSegment`. */
  function IntersectSegments(self: LineSegment, other: LineSegment): (res: Option<Vec2>)
    ensures var f := FrameOf(self.0, self.1, other.0, other.1);
            Abs(f.den) > EPS ==>
              res == if InRange(f.pqr / f.den) then IntersectSegmentLine(self, other.ToLine()) else None
    ensures var f := FrameOf(self.0, self.1, other.0, other.1);
            Abs(f.den) <= EPS && f.r.MaxAbs() > EPS && f.s.MaxAbs() > EPS ==>
              (NonZeroLengthSquared(f.r);
               res == if self.ToLine().IsNear(other.0) && Overlaps(f) then Some(self.0.Add(f.r.Scale(OverlapMid(f)))) else None)
    ensures var f := FrameOf(self.0, self.1, other.0, other.1);
            Abs(f.den) <= EPS && f.r.MaxAbs() <= EPS && f.s.MaxAbs() > EPS ==>
              (NonZeroLengthSquared(f.s);
               res == if other.ToLine().IsNear(self.0) && InRange(SegmentParam(other, self.0)) then Some(self.0) else None)
    ensures var f := FrameOf(self.0, self.1, other.0, other.1);
            Abs(f.den) <= EPS && f.r.MaxAbs() > EPS && f.s.MaxAbs() <= EPS ==>
              (NonZeroLengthSquared(f.r);
               res == if self.ToLine().IsNear(other.0) && InRange(SegmentParam(self, other.0)) then Some(other.0) else None)
    ensures var f := FrameOf(self.0, self.1, other.0, other.1);
            Abs(f.den) <= EPS && f.r.MaxAbs() <= EPS && f.s.MaxAbs() <= EPS ==>
              res == if other.0.Sub(self.0).MaxAbs() < EPS then Some(self.0) else None
  {
    var f := FrameOf(self.0, self.1, other.0, other.1);
    if Abs(f.den) > EPS then
      var u, v := f.pqs / f.den, f.pqr / f.den;
      if InRange(u) && InRange(v) then Some(Lerp(self.0, self.1, u)) else None
    else
      NearStarts(self.ToLine(), other.ToLine());
      StartParams(self.0, self.1, other.0, other.1);
      match (f.r.MaxAbs() > EPS, f.s.MaxAbs() > EPS)
      case (true, true) =>
        if Abs(f.pqr) < EPS then
          NonZeroLengthSquared(f.r);
          if Overlaps(f) then Some(self.0.Add(f.r.Scale(OverlapMid(f)))) else None
        else None
      case (false, true) =>
        NonZeroLengthSquared(f.s);
        var v := -f.pq.Dot(f.s) / f.s.LengthSquared();
        if Abs(f.pqs) < EPS && InRange(v) then Some(f.p) else None
      case (true, false) =>
        NonZeroLengthSquared(f.r);
        var u := f.pq.Dot(f.r) / f.r.LengthSquared();
        if Abs(f.pqr) < EPS && InRange(u) then Some(f.q) else None
      case (false, false) => if f.pq.MaxAbs() < EPS then Some(f.p) else None
  }

  // ---------------------------------------------------------------------------------------
  // Properties

  /** Two non-parallel lines meet in exactly one point: every point on both lines is the result. */
  lemma LinesMeetOnce(self: Line, other: Line, x: Vec2)
    requires Abs(FrameOf(self.0, self.1, other.0, other.1).den) > EPS
    requires OnLine(self.0, self.1, x) && OnLine(other.0, other.1, x)
    ensures IntersectLines(self, other) == Some(x)
  {
    var f := FrameOf(self.0, self.1, other.0, other.1);
    CommonPointUnique(self.0, self.1, other.0, other.1, IntersectLines(self, other).value, x);
  }

  /** Intersecting non-parallel lines does not depend on their order. */
  lemma LinesCommute(a: Line, b: Line)
    requires Abs(FrameOf(a.0, a.1, b.0, b.1).den) > EPS
    ensures IntersectLines(a, b) == IntersectLines(b, a)
  {
    var f, g := FrameOf(a.0, a.1, b.0, b.1), FrameOf(b.0, b.1, a.0, a.1);
    assert g.den == -f.den;
    var x := IntersectLines(b, a).value;
    LinesMeetOnce(a, b, x);
  }

  /** Intersecting non-parallel segments does not depend on their order. */
  lemma SegmentsCommute(a: LineSegment, b: LineSegment)
    requires Abs(FrameOf(a.0, a.1, b.0, b.1).den) > EPS
    ensures IntersectSegments(a, b) == IntersectSegments(b, a)
  {
    var f, g := FrameOf(a.0, a.1, b.0, b.1), FrameOf(b.0, b.1, a.0, a.1);
    FrameSwap(a.0, a.1, b.0, b.1);
    var u, v := f.pqs / f.den, f.pqr / f.den;
    assert g.pqs / g.den == v && g.pqr / g.den == u by { NegDiv(f.pqr, f.den); NegDiv(f.pqs, f.den); }
    var ab := IntersectSegmentLine(a, b.ToLine());
    var ba := IntersectSegmentLine(b, a.ToLine());
    assert ab == if InRange(u) then IntersectLines(a.ToLine(), b.ToLine()) else None;
    assert ba == if InRange(v) then IntersectLines(b.ToLine(), a.ToLine()) else None;
    LinesCommute(a.ToLine(), b.ToLine());
  }

  /** Swapping the operands negates the denominator and exchanges the two numerators up to sign. */
  lemma FrameSwap(a0: Vec2, a1: Vec2, b0: Vec2, b1: Vec2)
    ensures var f, g := FrameOf(a0, a1, b0, b1), FrameOf(b0, b1, a0, a1);
            g.den == -f.den && g.pqs == -f.pqr && g.pqr == -f.pqs
  {
  }

  lemma NegDiv(a: real, b: real)
    requires b != 0.0
    ensures -a / -b == a / b
  {
  }

  /** When both operands are degenerate, every intersection reports the first point iff the two points coincide. */
  lemma BothDegenerate(a0: Vec2, a1: Vec2, b0: Vec2, b1: Vec2)
    requires a1.Sub(a0).MaxAbs() <= EPS && b1.Sub(b0).MaxAbs() <= EPS
    ensures var expected := if b0.Sub(a0).MaxAbs() < EPS then Some(a0) else None;
            IntersectLines(Line(a0, a1), Line(b0, b1)) == expected &&
            IntersectSegmentLine(LineSegment(a0, a1), Line(b0, b1)) == expected &&
            IntersectSegments(LineSegment(a0, a1), LineSegment(b0, b1)) == expected
  {
    var f := FrameOf(a0, a1, b0, b1);
    SmallCross(f.r, f.s);
  }

  /** Two collinear overlapping segments yield a point whose parameter on the first lies in `[-EPS/2, 1 + EPS/2]`. */
  lemma OverlapMidInRange(f: Frame)
    requires f.r.LengthSquared() != 0.0 && Overlaps(f)
    ensures -EPS / 2.0 <= OverlapMid(f) <= 1.0 + EPS / 2.0
  {
  }

  /** The parameter of the projection of `x` on the line of a non-degenerate segment. */
  function SegmentParam(seg: LineSegment, x: Vec2): real
    requires seg.Dir().LengthSquared() != 0.0
  {
    x.Sub(seg.0).Dot(seg.Dir()) / seg.Dir().LengthSquared()
  }

  /**
   * The point two collinear segments yield lies on the first segment's line, and its parameter
   * there is within `EPS/2` of both `[0, 1]` and the projection of the second segment.
   */
  lemma CollinearOverlapPoint(self: LineSegment, other: LineSegment)
    requires var f := FrameOf(self.0, self.1, other.0, other.1);
             Abs(f.den) <= EPS && f.r.MaxAbs() > EPS && f.s.MaxAbs() > EPS
    requires IntersectSegments(self, other).Some?
    ensures self.Dir().LengthSquared() != 0.0
    ensures var x := IntersectSegments(self, other).value;
            var (t, t0, t1) := (SegmentParam(self, x), SegmentParam(self, other.0), SegmentParam(self, other.1));
            OnLine(self.0, self.1, x) && self.ToLine().IsNear(other.0) &&
            -EPS / 2.0 <= t <= 1.0 + EPS / 2.0 &&
            Min(t0, t1) - EPS / 2.0 <= t <= Max(t0, t1) + EPS / 2.0
  {
    var f := FrameOf(self.0, self.1, other.0, other.1);
    NonZeroLengthSquared(f.r);
    assert IntersectSegments(self, other) == Some(self.0.Add(f.r.Scale(OverlapMid(f))));
    OverlapMidInRange(f);
    ParamAlong(self, OverlapMid(f));
    EndParams(self, other, f);
    var q := f.r.LengthSquared();
    MidWithinEnds(f.pq.Dot(f.r) / q, f.pq.Add(f.s).Dot(f.r) / q);
  }

  /** The point `a + m (b - a)` is on the segment's line, at parameter `m`. */
  lemma ParamAlong(seg: LineSegment, m: real)
    requires seg.Dir().LengthSquared() != 0.0
    ensures var x := seg.0.Add(seg.Dir().Scale(m));
            OnLine(seg.0, seg.1, x) && SegmentParam(seg, x) == m
  {
    var r := seg.Dir();
    var x := seg.0.Add(r.Scale(m));
    assert x.Sub(seg.0) == r.Scale(m);
    assert r.Scale(m).Dot(r) == m * r.LengthSquared();
  }

  /** The parameter of each operand's start on the other operand, in terms of the frame. */
  lemma StartParams(a0: Vec2, a1: Vec2, b0: Vec2, b1: Vec2)
    ensures var f := FrameOf(a0, a1, b0, b1);
            f.r.LengthSquared() != 0.0 ==> SegmentParam(LineSegment(a0, a1), b0) == f.pq.Dot(f.r) / f.r.LengthSquared()
    ensures var f := FrameOf(a0, a1, b0, b1);
            f.s.LengthSquared() != 0.0 ==> SegmentParam(LineSegment(b0, b1), a0) == -f.pq.Dot(f.s) / f.s.LengthSquared()
  {
    var f := FrameOf(a0, a1, b0, b1);
    assert a0.Sub(b0).Dot(f.s) == -f.pq.Dot(f.s);
  }

  /** The parameters of the second segment's ends on the first, in terms of the frame. */
  lemma EndParams(self: LineSegment, other: LineSegment, f: Frame)
    requires f == FrameOf(self.0, self.1, other.0, other.1) && f.r.LengthSquared() != 0.0
    ensures SegmentParam(self, other.0) == f.pq.Dot(f.r) / f.r.LengthSquared()
    ensures SegmentParam(self, other.1) == f.pq.Add(f.s).Dot(f.r) / f.r.LengthSquared()
  {
    assert other.1.Sub(self.0) == f.pq.Add(f.s);
  }

  /** The midpoint of `[max(t_min, 0), min(t_max, 1)]` is within `EPS/2` of `[t_min, t_max]` when they overlap. */
  lemma MidWithinEnds(t0: real, t1: real)
    requires !(Max(t0, t1) < -EPS || Min(t0, t1) > 1.0 + EPS)
    ensures var m := (Max(Min(t0, t1), 0.0) + Min(Max(t0, t1), 1.0)) * 0.5;
            Min(t0, t1) - EPS / 2.0 <= m <= Max(t0, t1) + EPS / 2.0
  {
  }

  /** A non-degenerate line is near every point `lerp(a, b, t)` of it. */
  lemma LineNearOwnPoints(l: Line, t: real)
    requires !l.IsDegenerate()
    ensures l.IsNear(Lerp(l.0, l.1, t))
  {
    var r := l.Dir();
    assert Lerp(l.0, l.1, t).Sub(l.0) == r.Scale(t);
    assert r.PerpDot(r.Scale(t)) == 0.0;
  }

  /** A segment is near every point `lerp(a, b, t)` with `t` in `[0, 1]`, degenerate or not. */
  lemma SegmentNearOwnPoints(seg: LineSegment, t: real)
    requires 0.0 <= t <= 1.0
    ensures seg.IsNear(Lerp(seg.0, seg.1, t))
  {
    var r := seg.Dir();
    LerpOffset(seg.0, seg.1, t);
    if r.MaxAbs() < EPS {
      ShortOffset(r, t);
    } else {
      AlongOffset(r, t);
    }
  }

  lemma LerpOffset(a: Vec2, b: Vec2, t: real)
    ensures Lerp(a, b, t).Sub(a) == b.Sub(a).Scale(t)
  {
  }

  /** A fraction `t` in `[0, 1]` of a vector shorter than EPS is shorter than EPS. */
  lemma ShortOffset(r: Vec2, t: real)
    requires 0.0 <= t <= 1.0 && r.MaxAbs() < EPS
    ensures r.Scale(t).MaxAbs() < EPS
  {
    var v := r.Scale(t);
    AbsScaleLe(r.x, t, v.x);
    AbsScaleLe(r.y, t, v.y);
  }

  /** A fraction `t` in `[0, 1]` of `r` is parallel to `r` and projects into `[0, |r|^2]`. */
  lemma AlongOffset(r: Vec2, t: real)
    requires 0.0 <= t <= 1.0
    ensures r.PerpDot(r.Scale(t)) == 0.0
    ensures 0.0 <= r.Scale(t).Dot(r) <= r.LengthSquared()
  {
    var q := r.LengthSquared();
    assert r.Scale(t).Dot(r) == t * q;
    MulLe(t, q);
  }

  /**
   * Nearness to a segment implies nearness to its line, except on the boundary `|r x (x - a)| == EPS`,
   * which the segment test admits and the line test rejects.
   */
  lemma SegmentNearImpliesLineNear(seg: LineSegment, x: Vec2)
    requires seg.IsNear(x)
    requires Abs(seg.Dir().PerpDot(x.Sub(seg.0))) != EPS
    ensures seg.ToLine().IsNear(x)
  {
  }

  /** The boundary case: a point at cross product exactly EPS is near the segment but not near its line. */
  lemma SegmentNearBoundary()
    ensures var seg, x := LineSegment(Vec2(0.0, 0.0), Vec2(1.0, 0.0)), Vec2(0.5, EPS);
            seg.IsNear(x) && !seg.ToLine().IsNear(x)
  {
  }

  // ---------------------------------------------------------------------------------------
  // Helpers

  lemma NonZeroLengthSquared(v: Vec2)
    requires v.MaxAbs() > EPS
    ensures v.LengthSquared() != 0.0
  {
    if v.LengthSquared() == 0.0 {
      ZeroLengthSquared(v);
    }
  }

  /** The non-parallel crossing point `lerp(p, p + r, pqs / den)` lies on both lines. */
  lemma CrossingOnBothLines(f: Frame)
    requires f == FrameOf(f.p, f.p.Add(f.r), f.q, f.q.Add(f.s)) && f.den != 0.0
    ensures var x := Lerp(f.p, f.p.Add(f.r), f.pqs / f.den);
            OnLine(f.p, f.p.Add(f.r), x) && OnLine(f.q, f.q.Add(f.s), x)
  {
    var t := f.pqs / f.den;
    var r, s, pq := f.r, f.s, f.pq;
    assert f.p.Add(f.r).Sub(f.p) == r;
    assert f.q.Add(f.s).Sub(f.q) == s;
    assert pq == f.q.Sub(f.p);
    var x := Lerp(f.p, f.p.Add(f.r), t);
    assert x == f.p.Add(r.Scale(t));
    assert r.PerpDot(r.Scale(t)) == 0.0;
    assert t * f.den == f.pqs;
    assert x.Sub(f.q) == r.Scale(t).Sub(pq);
    calc {
      s.PerpDot(r.Scale(t).Sub(pq));
      s.x * (r.y * t - pq.y) - s.y * (r.x * t - pq.x);
      t * (s.x * r.y - s.y * r.x) - (s.x * pq.y - s.y * pq.x);
      -(t * f.den) + f.pqs;
      0.0;
    }
  }

  /** Two points on both of two non-parallel lines coincide. */
  lemma CommonPointUnique(a0: Vec2, a1: Vec2, b0: Vec2, b1: Vec2, x: Vec2, y: Vec2)
    requires FrameOf(a0, a1, b0, b1).den != 0.0
    requires OnLine(a0, a1, x) && OnLine(b0, b1, x) && OnLine(a0, a1, y) && OnLine(b0, b1, y)
    ensures x == y
  {
    var r, s, d := a1.Sub(a0), b1.Sub(b0), x.Sub(y);
    CrossOfDifference(r, a0, x, y);
    CrossOfDifference(s, b0, x, y);
    ParallelToBoth(r, s, d);
  }

  /** `r x (x - y) = r x (x - o) - r x (y - o)`. */
  lemma CrossOfDifference(r: Vec2, o: Vec2, x: Vec2, y: Vec2)
    ensures r.PerpDot(x.Sub(y)) == r.PerpDot(x.Sub(o)) - r.PerpDot(y.Sub(o))
  {
  }

  /** A vector parallel to two non-parallel vectors is zero. */
  lemma ParallelToBoth(r: Vec2, s: Vec2, d: Vec2)
    requires r.PerpDot(s) != 0.0 && r.PerpDot(d) == 0.0 && s.PerpDot(d) == 0.0
    ensures d == ZERO
  {
    var den := r.PerpDot(s);
    assert den * d.x == s.x * r.PerpDot(d) - r.x * s.PerpDot(d);
    assert den * d.y == s.y * r.PerpDot(d) - r.y * s.PerpDot(d);
    ZeroProduct(den, d.x);
    ZeroProduct(den, d.y);
  }

  /** The cross product of two vectors with coordinates at most EPS is below EPS. */
  lemma SmallCross(r: Vec2, s: Vec2)
    requires r.MaxAbs() <= EPS && s.MaxAbs() <= EPS
    ensures Abs(r.PerpDot(s)) <= EPS
  {
    SmallCoordinates(r);
    SmallCoordinates(s);
    SmallCoordinatesCross(r, s);
  }

  lemma SmallCoordinates(v: Vec2)
    requires v.MaxAbs() <= EPS
    ensures Abs(v.x) <= EPS && Abs(v.y) <= EPS
  {
  }

  lemma SmallCoordinatesCross(r: Vec2, s: Vec2)
    requires Abs(r.x) <= EPS && Abs(r.y) <= EPS && Abs(s.x) <= EPS && Abs(s.y) <= EPS
    ensures Abs(r.PerpDot(s)) <= EPS
  {
    SmallDifference(r.x, s.y, r.y, s.x, r.PerpDot(s));
  }

  lemma SmallDifference(ax: real, ay: real, bx: real, by_: real, d: real)
    requires Abs(ax) <= EPS && Abs(ay) <= EPS && Abs(bx) <= EPS && Abs(by_) <= EPS
    requires d == ax * ay - bx * by_
    ensures Abs(d) <= EPS
  {
    var a, b := ax * ay, bx * by_;
    AbsMulLe(ax, ay);
    AbsMulLe(bx, by_);
    AbsSub(a, b);
  }

  lemma AbsMulLe(a: real, b: real)
    requires Abs(a) <= EPS && Abs(b) <= EPS
    ensures Abs(a * b) <= EPS / 2.0
  {
    var x, y, e := Abs(a), Abs(b), EPS;
    assert 0.0 <= x <= e && 0.0 <= y <= e;
    assert Abs(a * b) == x * y;
    MulMono(x, e, y);
    MulMono(y, e, e);
    assert x * y <= e * y;
    assert e * y == y * e;
    assert e * e <= e / 2.0;
    assert x * y <= e / 2.0;
  }

  lemma AbsSub(a: real, b: real)
    ensures Abs(a - b) <= Abs(a) + Abs(b)
  {
  }

  lemma MulMono(a: real, b: real, c: real)
    requires a <= b && 0.0 <= c
    ensures a * c <= b * c
  {
    assert b * c - a * c == (b - a) * c;
  }

  lemma AbsScaleLe(a: real, t: real, p: real)
    requires 0.0 <= t <= 1.0 && p == a * t
    ensures Abs(p) <= Abs(a)
  {
    MulMono(t, 1.0, Abs(a));
    assert Abs(p) == t * Abs(a);
  }

  lemma MulLe(t: real, q: real)
    requires 0.0 <= t <= 1.0 && 0.0 <= q
    ensures 0.0 <= t * q <= q
  {
    MulMono(t, 1.0, q);
  }
}

=== FILE: numeric.dfy ===
/**
 * The 2D vector collaborator (glam's `Vec2`) over exact reals.
 *
 * Products, sums, dot and cross products are exact here. The operations that the platform
 * computes with a library call (`sqrt`, hence `length` and `normalize`) and the constant `PI`
 * are left uninterpreted: `Sqrt` and `PI` are constants whose values are not fixed, and the one
 * property of `Sqrt` that some lemmas rely on is stated as the hypothesis `SqrtSpec()`.
 */
module Numeric {

  datatype Vec2 = Vec2(x: real, y: real) {

    function Add(o: Vec2): Vec2 { Vec2(x + o.x, y + o.y) }

    function Sub(o: Vec2): Vec2 { Vec2(x - o.x, y - o.y) }

    function Neg(): Vec2 { Vec2(-x, -y) }

    function Scale(k: real): Vec2 { Vec2(x * k, y * k) }

    /** Component-wise division by a scalar (`v / k`). */
    function Div(k: real): Vec2
      requires k != 0.0
    {
      Vec2(x / k, y / k)
    }

    function Dot(o: Vec2): real { x * o.x + y * o.y }

    /** The scalar cross product `self.x * o.y - self.y * o.x` (glam's `perp_dot`). */
    function PerpDot(o: Vec2): real { x * o.y - y * o.x }

    /** Rotation by +90 degrees (glam's `perp`). */
    function Perp(): Vec2 { Vec2(-y, x) }

    function LengthSquared(): real { x * x + y * y }

    /** `abs().max_element()`: the larger of the two absolute coordinates. */
    function MaxAbs(): real { Max(Abs(x), Abs(y)) }
  }

  const ZERO: Vec2 := Vec2(0.0, 0.0)

  function Abs(r: real): real { if r < 0.0 then -r else r }

  function Max(a: real, b: real): real { if a < b then b else a }

  function Min(a: real, b: real): real { if a < b then a else b }

  /** `Vec2::lerp(a, b, t) = a + (b - a) * t`. */
  function Lerp(a: Vec2, b: Vec2, t: real): Vec2 { a.Add(b.Sub(a).Scale(t)) }

  /** The platform square root; only `SqrtSpec()` is ever assumed of it, and only where stated. */
  const Sqrt: real -> real

  /** `core::f32::consts::PI`; left uninterpreted. */
  const PI: real

  /** Exact square root on the non-negative reals. */
  ghost predicate SqrtSpec() {
    forall v: real {:trigger Sqrt(v)} :: 0.0 <= v ==> 0.0 <= Sqrt(v) && Sqrt(v) * Sqrt(v) == v
  }

  function Length(v: Vec2): real { Sqrt(v.LengthSquared()) }

  /**
   * `normalize()`: `v` scaled by the reciprocal of its length. For a zero-length vector glam
   * produces NaN components; the model returns `v` itself there.
   */
  function Normalize(v: Vec2): Vec2 {
    if Length(v) == 0.0 then v else v.Div(Length(v))
  }

  /** `v.project_onto_normalized(n) = n * v.dot(n)`, exact. */
  function ProjectOntoNormalized(v: Vec2, n: Vec2): Vec2 { n.Scale(v.Dot(n)) }

  /** Dividing by a non-zero scalar and scaling back by it is the identity. */
  lemma DivScale(v: Vec2, k: real)
    requires k != 0.0
    ensures v.Div(k).Scale(k) == v
  {
    assert v.x / k * k == v.x;
    assert v.y / k * k == v.y;
  }

  /** Scaling by a non-zero scalar and dividing by it is the identity. */
  lemma ScaleDiv(v: Vec2, k: real)
    requires k != 0.0
    ensures v.Scale(k).Div(k) == v
  {
    assert v.x * k / k == v.x;
    assert v.y * k / k == v.y;
  }

  predicate IsUnit(n: Vec2) { n.Dot(n) == 1.0 }

  /** Instantiates `SqrtSpec()` at one argument. */
  lemma SqrtOf(v: real)
    requires SqrtSpec() && 0.0 <= v
    ensures 0.0 <= Sqrt(v) && Sqrt(v) * Sqrt(v) == v
  {
  }

  /** The square root of a square is the absolute value. */
  lemma SqrtOfSquare(a: real)
    requires SqrtSpec()
    ensures Sqrt(a * a) == Abs(a)
  {
    var r, m := Sqrt(a * a), Abs(a);
    SqrtOf(a * a);
    assert m * m == a * a;
    assert (r - m) * (r + m) == r * r - m * m == 0.0;
    if r != m {
      ZeroProduct(r - m, r + m);
    }
  }

  /** Under `SqrtSpec()`, `Length` squares back to the squared length and vanishes only at zero. */
  lemma LengthSpec(v: Vec2)
    requires SqrtSpec()
    ensures 0.0 <= Length(v) && Length(v) * Length(v) == v.LengthSquared()
    ensures Length(v) == 0.0 <==> v == ZERO
  {
    var l, q := Length(v), v.LengthSquared();
    SqrtOf(q);
    assert 0.0 <= l && l * l == q;
    if l == 0.0 {
      assert q == 0.0;
      ZeroLengthSquared(v);
    } else if v == ZERO {
      assert q == 0.0;
      SquareZero(l);
    }
  }

  lemma ZeroLengthSquared(v: Vec2)
    requires v.LengthSquared() == 0.0
    ensures v == ZERO
  {
    assert 0.0 <= v.x * v.x && 0.0 <= v.y * v.y;
    SquareZero(v.x);
    SquareZero(v.y);
  }

  lemma SquareZero(l: real)
    requires l * l == 0.0
    ensures l == 0.0
  {
    if l != 0.0 {
      ZeroProduct(l, l);
    }
  }

  lemma ZeroProduct(a: real, b: real)
    requires a * b == 0.0
    ensures a == 0.0 || b == 0.0
  {
  }

  /** A unit vector normalizes to itself. */
  lemma NormalizeUnit(n: Vec2)
    requires SqrtSpec() && IsUnit(n)
    ensures Length(n) == 1.0 && Normalize(n) == n
  {
    assert n.LengthSquared() == 1.0;
    SqrtOfSquare(1.0);
  }

  /** Under `SqrtSpec()` a non-zero vector normalizes to a positive multiple of itself of unit length. */
  lemma NormalizeSpec(v: Vec2)
    requires SqrtSpec() && v != ZERO
    ensures Length(v) > 0.0 && Normalize(v) == v.Scale(1.0 / Length(v))
    ensures IsUnit(Normalize(v))
  {
    LengthSpec(v);
    var l := Length(v);
    var n := Normalize(v);
    assert n.x == v.x / l && n.y == v.y / l;
    assert n.Dot(n) == (v.x * v.x + v.y * v.y) / (l * l);
  }
}

=== FILE: plane.dfy ===
/**
 * Half-planes (src/plane.rs). A half-plane is a unit `normal`, pointing from the free side into
 * the occupied side, and an `offset` such that the boundary is `{ p | p . normal == offset }`.
 * The signed distance is positive inside, and the doubled winding number is its sign.
 */
module Plane {
  import opened Numeric
  import opened Geom
  import opened Lines

  datatype HalfPlane = HalfPlane(normal: Vec2, offset: real)

  /** `HalfPlane::from_normal`: the half-plane whose boundary passes through `point`. */
  function FromNormal(point: Vec2, normal: Vec2): (h: HalfPlane)
    ensures h.normal == normal && Distance(h, point) == 0.0
  {
    HalfPlane(normal, point.Dot(normal))
  }

  /** `HalfPlane::from_edge`: occupied on the left when looking from `a` towards `b`. */
  function FromEdge(a: Vec2, b: Vec2): (h: HalfPlane)
    ensures Distance(h, a) == 0.0
  {
    FromNormal(a, Normalize(b.Sub(a).Perp()))
  }

  /** `HalfPlane::distance`: signed distance, positive inside. */
  function Distance(h: HalfPlane, point: Vec2): real {
    point.Dot(h.normal) - h.offset
  }

  /** `HalfPlane::boundary_point`: the foot of the perpendicular from the origin. */
  function BoundaryPoint(h: HalfPlane): Vec2 {
    h.normal.Scale(h.offset)
  }

  /** `HalfPlane::edge`: the boundary as a line directed so that the inside is on its left. */
  function Edge(h: HalfPlane): (l: Line)
    ensures l.0 == BoundaryPoint(h)
    ensures l.Dir().Dot(h.normal) == 0.0
  {
    var p := BoundaryPoint(h);
    Line(p, p.Sub(h.normal.Perp()))
  }

  /** `Bound for HalfPlane`: the sign of the distance, a boundary point counting as inside. */
  function Winding2(h: HalfPlane, point: Vec2): (w: int)
    ensures w == 1 || w == -1
    ensures w == 1 <==> Distance(h, point) >= 0.0
  {
    if Distance(h, point) >= 0.0 then 1 else -1
  }

  predicate HalfPlaneContains(h: HalfPlane, point: Vec2) {
    Winding2(h, point) > 0
  }

  // ---------------------------------------------------------------------------------------
  // Properties

  /** A half-plane contains exactly the points at non-negative distance, its boundary included. */
  lemma ContainsIffDistance(h: HalfPlane, point: Vec2)
    ensures HalfPlaneContains(h, point) <==> Distance(h, point) >= 0.0
  {
  }

  /** Moving a point by `k` along a unit normal changes its distance by exactly `k`. */
  lemma DistanceAlongNormal(h: HalfPlane, point: Vec2, k: real)
    requires IsUnit(h.normal)
    ensures Distance(h, point.Add(h.normal.Scale(k))) == Distance(h, point) + k
  {
    var n := h.normal;
    assert point.Add(n.Scale(k)).Dot(n) == point.Dot(n) + k * n.Dot(n);
  }

  /**
   * With a unit normal, the distance is measured along the normal from the boundary: stepping
   * back by it from the point lands on the boundary, and it is the normal component of the
   * point's offset from the boundary point, which lies on the normal through the origin.
   */
  lemma DistanceToBoundary(h: HalfPlane, point: Vec2)
    requires IsUnit(h.normal)
    ensures var d := Distance(h, point);
            Distance(h, point.Sub(h.normal.Scale(d))) == 0.0 &&
            d == point.Sub(BoundaryPoint(h)).Dot(h.normal) &&
            BoundaryPoint(h).PerpDot(h.normal) == 0.0
  {
    var n, d := h.normal, Distance(h, point);
    assert point.Sub(n.Scale(d)).Dot(n) == point.Dot(n) - d * n.Dot(n);
    assert BoundaryPoint(h).Dot(n) == h.offset * n.Dot(n);
  }

  /** With a unit normal, both points of `edge()` lie on the boundary. */
  lemma EdgeOnBoundary(h: HalfPlane)
    requires IsUnit(h.normal)
    ensures Distance(h, BoundaryPoint(h)) == 0.0
    ensures Distance(h, Edge(h).0) == 0.0 && Distance(h, Edge(h).1) == 0.0
  {
    var n, p := h.normal, BoundaryPoint(h);
    assert p.Dot(n) == h.offset * n.Dot(n);
    assert p.Sub(n.Perp()).Dot(n) == p.Dot(n);
  }

  /**
   * `from_edge(a, b)` has a unit normal, and its distance to `point`, scaled by `|b - a|`, is the
   * cross product `(b - a) x (point - a)`: positive exactly on the left of `a -> b`.
   */
  lemma FromEdgeSide(a: Vec2, b: Vec2, point: Vec2)
    requires SqrtSpec() && a != b
    ensures IsUnit(FromEdge(a, b).normal)
    ensures Distance(FromEdge(a, b), point) * Length(b.Sub(a)) == b.Sub(a).PerpDot(point.Sub(a))
  {
    var d, q := b.Sub(a), point.Sub(a);
    FromEdgeNormal(a, b);
    var len := Length(d);
    var n := FromEdge(a, b).normal;
    DistanceFromNormal(a, n, point);
    ScaledDot(q, d.Perp(), len);
  }

  /** The normal of `from_edge(a, b)` is the unit vector `perp(b - a) / |b - a|`. */
  lemma FromEdgeNormal(a: Vec2, b: Vec2)
    requires SqrtSpec() && a != b
    ensures var d := b.Sub(a);
            Length(d) > 0.0 && FromEdge(a, b).normal == d.Perp().Scale(1.0 / Length(d)) &&
            IsUnit(FromEdge(a, b).normal)
  {
    var d := b.Sub(a);
    assert d != ZERO;
    UnitPerp(d);
    assert FromEdge(a, b).normal == Normalize(d.Perp());
  }

  /** `perp(d) / |d|` is a unit vector, and it is what normalizing `perp(d)` gives. */
  lemma UnitPerp(d: Vec2)
    requires SqrtSpec() && d != ZERO
    ensures Length(d) > 0.0 && Normalize(d.Perp()) == d.Perp().Scale(1.0 / Length(d))
    ensures IsUnit(Normalize(d.Perp()))
  {
    var v := d.Perp();
    assert v.LengthSquared() == d.LengthSquared();
    assert v != ZERO by { assert v.x == -d.y && v.y == d.x; }
    NormalizeSpec(v);
  }

  lemma DistanceFromNormal(a: Vec2, n: Vec2, point: Vec2)
    ensures Distance(FromNormal(a, n), point) == point.Sub(a).Dot(n)
  {
  }

  /** `q . (v * (1 / len)) * len == q . v`. */
  lemma ScaledDot(q: Vec2, v: Vec2, len: real)
    requires len > 0.0
    ensures q.Dot(v.Scale(1.0 / len)) * len == q.Dot(v)
  {
    var k := 1.0 / len;
    assert k * len == 1.0;
    calc {
      q.Dot(v.Scale(k)) * len;
      (q.x * (v.x * k) + q.y * (v.y * k)) * len;
      (q.x * v.x + q.y * v.y) * (k * len);
      q.Dot(v);
    }
  }

  /** The half-plane contains `point` exactly when `point` is on the left of, or on, the line `a -> b`. */
  lemma FromEdgeContains(a: Vec2, b: Vec2, point: Vec2)
    requires SqrtSpec() && a != b
    ensures HalfPlaneContains(FromEdge(a, b), point) <==> b.Sub(a).PerpDot(point.Sub(a)) >= 0.0
  {
    FromEdgeSide(a, b, point);
    var d := b.Sub(a);
    LengthSpec(d);
    var dist, len := Distance(FromEdge(a, b), point), Length(d);
    assert len != 0.0;
    SignOfProduct(dist, len);
  }

  /** Rebuilding a half-plane with a unit normal from its own edge gives it back. */
  lemma FromEdgeOfEdge(h: HalfPlane)
    requires SqrtSpec() && IsUnit(h.normal)
    ensures FromEdge(Edge(h).0, Edge(h).1) == h
  {
    var n := h.normal;
    var l := Edge(h);
    assert l.1.Sub(l.0) == n.Perp().Neg();
    assert l.1.Sub(l.0).Perp() == n;
    NormalizeUnit(n);
    EdgeOnBoundary(h);
  }

  /**
   * The distance is `point . normal - offset`: for normal `(0, 1)` and offset `-2` the point
   * `(10, 2)` is at distance 4, the boundary being `y == -2`.
   */
  lemma OffsetSign()
    ensures Distance(HalfPlane(Vec2(0.0, 1.0), -2.0), Vec2(10.0, 2.0)) == 4.0
    ensures Distance(HalfPlane(Vec2(0.0, 1.0), -2.0), Vec2(10.0, -2.0)) == 0.0
  {
  }

  lemma SignOfProduct(a: real, b: real)
    requires b > 0.0
    ensures a * b >= 0.0 <==> a >= 0.0
  {
    if a < 0.0 {
      assert a * b == -((-a) * b);
    }
  }
}

=== FILE: polygon.dfy ===
/**
 * The polygon container (src/polygon/mod.rs): an ordered sequence of vertices, its cyclic
 * windows and its edges. A window of size N is produced by scanning the vertex sequence
 * concatenated with itself through an N-slot buffer that is rotated left and refilled at its
 * end; the first N - 1 partially filled states are skipped and as many windows are taken as
 * there are vertices.
 */
module Polygons {
  import opened Numeric
  import opened Geom

  datatype Polygon<V> = Polygon(vertices: seq<V>)

  /** `Polygon::new`: wraps the given vertices. */
  function New<V>(vertices: seq<V>): (p: Polygon<V>)
    ensures p.vertices == vertices
  {
    Polygon(vertices)
  }

  /** `FromIterator for Polygon`: collects the items in iteration order. */
  function FromIter<V>(items: seq<V>): (p: Polygon<V>)
    ensures p.vertices == items && Len(p) == |items|
  {
    New(items)
  }

  /** `Polygon::eq`: element-by-element comparison of the two vertex sequences. */
  function Eq<V(==)>(p: Polygon<V>, q: Polygon<V>): (b: bool)
    ensures b <==> p.vertices == q.vertices
  {
    SeqEq(p.vertices, q.vertices)
  }

  /** The lock-step comparison performed by `Iterator::eq`. */
  function SeqEq<V(==)>(a: seq<V>, b: seq<V>): (r: bool)
    ensures r <==> a == b
  {
    if a == [] || b == [] then a == [] && b == []
    else if a[0] != b[0] then false
    else
      var r := SeqEq(a[1..], b[1..]);
      assert a == [a[0]] + a[1..] && b == [b[0]] + b[1..];
      r
  }

  function Len<V>(p: Polygon<V>): (n: nat)
    ensures n == |p.vertices|
  {
    |p.vertices|
  }

  function IsEmpty<V>(p: Polygon<V>): (b: bool)
    ensures b <==> Len(p) == 0
  {
    p.vertices == []
  }

  // ---------------------------------------------------------------------------------------
  // Cyclic windows

  function Nones<V>(n: nat): (w: seq<Option<V>>)
    ensures |w| == n && forall j :: 0 <= j < n ==> w[j].None?
  {
    seq(n, _ => None)
  }

  function Somes<V>(s: seq<V>): (w: seq<Option<V>>)
    ensures |w| == |s| && forall j :: 0 <= j < |s| ==> w[j] == Some(s[j])
  {
    seq(|s|, j requires 0 <= j < |s| => Some(s[j]))
  }

  /** The `scan` step: rotate the buffer left by one and put the new item in the last slot. */
  function Rotate<V>(w: seq<Option<V>>, v: V): (w': seq<Option<V>>)
    requires |w| >= 1
    ensures |w'| == |w| && w'[|w| - 1] == Some(v)
    ensures forall j :: 0 <= j < |w| - 1 ==> w'[j] == w[j + 1]
  {
    w[1..] + [Some(v)]
  }

  /** Every state the `scan` emits, one per item. */
  function ScanWindows<V>(w: seq<Option<V>>, items: seq<V>): (states: seq<seq<Option<V>>>)
    requires |w| >= 1
    ensures |states| == |items|
    decreases |items|
  {
    if items == [] then []
    else
      var w' := Rotate(w, items[0]);
      [w'] + ScanWindows(w', items[1..])
  }

  /** Unwraps a buffer whose slots are all filled. */
  function Unwrap<V>(w: seq<Option<V>>): (vs: seq<V>)
    requires forall j :: 0 <= j < |w| ==> w[j].Some?
    ensures |vs| == |w| && forall j :: 0 <= j < |w| ==> w[j] == Some(vs[j])
  {
    seq(|w|, j requires 0 <= j < |w| => w[j].value)
  }

  /** The number of windows: `min(n, max(0, 2n - N + 1))`. */
  function WindowCount(n: nat, size: nat): (c: nat)
    requires size >= 1
  {
    var avail := if 2 * n >= size - 1 then 2 * n - (size - 1) else 0;
    if avail < n then avail else n
  }

  /**
   * `Polygon::vertices_window::<N>`: window `i` is `v[i], v[(i + 1) % n], ..., v[(i + N - 1) % n]`,
   * and there are `min(n, max(0, 2n - N + 1))` of them.
   */
  function VerticesWindow<V>(p: Polygon<V>, size: nat): (ws: seq<seq<V>>)
    requires size >= 1
    ensures |ws| == WindowCount(|p.vertices|, size)
    ensures forall i :: 0 <= i < |ws| ==> |ws[i]| == size
    ensures forall i, j :: 0 <= i < |ws| && 0 <= j < size ==>
              ws[i][j] == p.vertices[(i + j) % |p.vertices|]
  {
    var vs := p.vertices;
    var chain := vs + vs;
    var count := WindowCount(|vs|, size);
    if count == 0 then []
    else
      var states := ScanWindows(Nones<V>(size), chain);
      var kept := states[size - 1 ..];
      KeptStates(vs, size);
      var ws := seq(count, i requires 0 <= i < count => Unwrap(kept[i]));
      WindowValues(vs, size, ws);
      ws
  }

  /** The index after `i` among `n` vertices, wrapping round: `(i + 1) % n` for `i < n`. */
  function Succ(i: nat, n: nat): (j: nat)
    ensures i < n ==> j < n
  {
    if i + 1 < n then i + 1 else 0
  }

  /** `Polygon::edges`: `from_vertices` applied to every window of two. */
  function Edges<V, E>(p: Polygon<V>, fromVertices: (V, V) -> E): (es: seq<E>)
    ensures |p.vertices| == 0 ==> es == []
    ensures |p.vertices| >= 1 ==> |es| == |p.vertices|
    ensures forall i :: 0 <= i < |es| ==>
              es[i] == fromVertices(p.vertices[i], p.vertices[Succ(i, |p.vertices|)])
  {
    var ws := VerticesWindow(p, 2);
    PairWindows(p);
    MapPairs(ws, fromVertices)
  }

  /** `map(|[a, b]| from_vertices(a, b))` over windows of two. */
  function MapPairs<V, E>(ws: seq<seq<V>>, fromVertices: (V, V) -> E): (es: seq<E>)
    requires forall i :: 0 <= i < |ws| ==> |ws[i]| == 2
    ensures |es| == |ws| && forall i :: 0 <= i < |ws| ==> es[i] == fromVertices(ws[i][0], ws[i][1])
  {
    seq(|ws|, i requires 0 <= i < |ws| => fromVertices(ws[i][0], ws[i][1]))
  }

  // ---------------------------------------------------------------------------------------
  // Properties

  /** Windows of two are the `n` cyclic pairs `(v[i], v[(i + 1) % n])`. */
  lemma PairWindows<V>(p: Polygon<V>)
    ensures var ws, n := VerticesWindow(p, 2), |p.vertices|;
            (n == 0 ==> ws == []) && (n >= 1 ==> |ws| == n) &&
            forall i :: 0 <= i < |ws| ==>
              |ws[i]| == 2 && ws[i][0] == p.vertices[i] && ws[i][1] == p.vertices[Succ(i, n)]
  {
    var ws, n := VerticesWindow(p, 2), |p.vertices|;
    assert |ws| == WindowCount(n, 2);
    forall i | 0 <= i < |ws|
      ensures |ws[i]| == 2 && ws[i][0] == p.vertices[i] && ws[i][1] == p.vertices[Succ(i, n)]
    {
      assert ws[i][0] == p.vertices[(i + 0) % n];
      assert ws[i][1] == p.vertices[(i + 1) % n];
      ModBelow(i, n);
      if i + 1 < n {
        ModBelow(i + 1, n);
      } else {
        ModWrap(i + 1, n);
      }
    }
  }

  /** After `k + 1` steps the scan buffer holds the `N` items that end at position `k`. */
  lemma {:induction false} ScanState<V>(w: seq<Option<V>>, items: seq<V>)
    requires |w| >= 1
    ensures forall k :: 0 <= k < |items| ==>
              ScanWindows(w, items)[k] == (w + Somes(items))[k + 1 .. k + 1 + |w|]
    decreases |items|
  {
    if items != [] {
      var w' := Rotate(w, items[0]);
      var all := w + Somes(items);
      var states := ScanWindows(w, items);
      assert states == [w'] + ScanWindows(w', items[1..]);
      ScanState(w', items[1..]);
      ShiftedChain(w, items);
      forall k | 0 <= k < |items|
        ensures states[k] == all[k + 1 .. k + 1 + |w|]
      {
        if k == 0 {
          assert w' == all[1 .. 1 + |w|];
        } else {
          assert states[k] == ScanWindows(w', items[1..])[k - 1];
          assert all[1..][k .. k + |w|] == all[k + 1 .. k + 1 + |w|];
        }
      }
    }
  }

  /** One scan step shifts the chain `buffer + items` by one place. */
  lemma ShiftedChain<V>(w: seq<Option<V>>, items: seq<V>)
    requires |w| >= 1 && items != []
    ensures Rotate(w, items[0]) + Somes(items[1..]) == (w + Somes(items))[1..]
  {
    SomesCons(items);
    calc {
      (w + Somes(items))[1..];
      w[1..] + Somes(items);
      w[1..] + ([Some(items[0])] + Somes(items[1..]));
      (w[1..] + [Some(items[0])]) + Somes(items[1..]);
    }
  }

  lemma SomesCons<V>(items: seq<V>)
    requires items != []
    ensures Somes(items) == [Some(items[0])] + Somes(items[1..])
  {
  }

  /** The states kept by `skip(N - 1)` are the full windows `Some(chain[i]), ..., Some(chain[i + N - 1])`. */
  lemma KeptStates<V>(vs: seq<V>, size: nat)
    requires size >= 1 && WindowCount(|vs|, size) > 0
    ensures size - 1 <= 2 * |vs|
    ensures var kept := ScanWindows(Nones<V>(size), vs + vs)[size - 1 ..];
            WindowCount(|vs|, size) <= |kept| &&
            forall i :: 0 <= i < |kept| ==> i + size <= 2 * |vs| && kept[i] == Somes((vs + vs)[i .. i + size])
  {
    var chain := vs + vs;
    var w := Nones<V>(size);
    var states := ScanWindows(w, chain);
    ScanState(w, chain);
    var kept := states[size - 1 ..];
    forall i | 0 <= i < |kept|
      ensures i + size <= 2 * |vs| && kept[i] == Somes(chain[i .. i + size])
    {
      assert kept[i] == states[size - 1 + i];
      var all := w + Somes(chain);
      assert states[size - 1 + i] == all[size + i .. 2 * size + i];
      assert all[size + i .. 2 * size + i] == Somes(chain)[i .. i + size];
    }
  }

  /** Unwrapping the kept states yields the cyclic windows. */
  lemma WindowValues<V>(vs: seq<V>, size: nat, ws: seq<seq<V>>)
    requires size >= 1 && |ws| <= WindowCount(|vs|, size)
    requires forall i :: 0 <= i < |ws| ==> i + size <= 2 * |vs| && Somes(ws[i]) == Somes((vs + vs)[i .. i + size])
    ensures forall i :: 0 <= i < |ws| ==> |ws[i]| == size
    ensures forall i, j :: 0 <= i < |ws| && 0 <= j < size ==> ws[i][j] == vs[(i + j) % |vs|]
  {
    forall i, j | 0 <= i < |ws| && 0 <= j < size
      ensures |ws[i]| == size && ws[i][j] == vs[(i + j) % |vs|]
    {
      WindowEntry(vs, size, ws[i], i, j);
    }
  }

  lemma WindowEntry<V>(vs: seq<V>, size: nat, w: seq<V>, i: nat, j: nat)
    requires i + size <= 2 * |vs| && j < size
    requires Somes(w) == Somes((vs + vs)[i .. i + size])
    ensures |w| == size && w[j] == vs[(i + j) % |vs|]
  {
    var slice := (vs + vs)[i .. i + size];
    assert |Somes(w)| == |w|;
    assert Some(w[j]) == Somes(w)[j] == Somes(slice)[j] == Some(slice[j]);
    ChainIndex(vs, i + j);
  }

  lemma ChainIndex<V>(vs: seq<V>, m: nat)
    requires m < 2 * |vs|
    ensures (vs + vs)[m] == vs[m % |vs|]
  {
    if m >= |vs| {
      ModWrap(m, |vs|);
    } else {
      ModBelow(m, |vs|);
    }
  }

  lemma ModBelow(m: int, n: int)
    requires 0 <= m < n
    ensures m % n == m
  {
  }

  lemma ModWrap(m: int, n: int)
    requires 0 < n <= m < 2 * n
    ensures m % n == m - n
  {
    assert m == n + (m - n);
  }

  /** A polygon with no vertices has no edges; one with a single vertex has the one edge `(v0, v0)`. */
  lemma EdgesOfSmallPolygons<V, E>(v0: V, fromVertices: (V, V) -> E)
    ensures Edges(Polygon([]), fromVertices) == []
    ensures Edges(Polygon([v0]), fromVertices) == [fromVertices(v0, v0)]
  {
    var es := Edges(Polygon([v0]), fromVertices);
    assert es[0] == fromVertices(v0, v0);
  }

  /** Equality is an equivalence: reflexive, symmetric and transitive, as the element-wise comparison makes it. */
  lemma EqIsEquivalence<V>(p: Polygon<V>, q: Polygon<V>, r: Polygon<V>)
    ensures Eq(p, p)
    ensures Eq(p, q) == Eq(q, p)
    ensures Eq(p, q) && Eq(q, r) ==> Eq(p, r)
  {
  }
}

=== FILE: polygon_circle.dfy ===
/**
 * Arc polygons (src/polygon/circle.rs): polygons whose edges are circular arcs. Vertex `i`
 * carries the sagitta of the arc from it to vertex `i + 1`, so the region is the straight
 * frame through the vertex points with a disk segment added (positive sagitta) or cut away
 * (negative sagitta) on every edge. The winding number and the moment are loops over the
 * edges, proved against specification functions over the arc sequence.
 */
module ArcPolygons {
  import opened Numeric
  import opened Geom
  import opened Lines
  import opened Polygons
  import opened StraightPolygon
  import opened Circles
  import opened Arcs

  /** `ArcPolygon::frame`: the straight polygon through the vertex points, sagittas dropped. */
  function Frame(p: Polygon<ArcVertex>): (f: Polygon<Vec2>)
    ensures |f.vertices| == |p.vertices|
    ensures forall i :: 0 <= i < |p.vertices| ==> f.vertices[i] == p.vertices[i].point
  {
    New(seq(|p.vertices|, i requires 0 <= i < |p.vertices| => p.vertices[i].point))
  }

  /** `Polygon::edges` of an arc polygon: the arc from each vertex to the next, cyclically. */
  function ArcEdges(p: Polygon<ArcVertex>): (es: seq<Arc>)
    ensures |es| == |p.vertices|
    ensures forall i :: 0 <= i < |es| ==>
              es[i] == ArcFromVertices(p.vertices[i], p.vertices[Succ(i, |p.vertices|)])
  {
    Edges(p, ArcFromVertices)
  }

  // ---------------------------------------------------------------------------------------
  // Winding number

  /** The disk-segment winding numbers of the arcs, summed left to right. */
  function SegmentWindings(arcs: seq<Arc>, point: Vec2): int
  {
    if arcs == [] then 0
    else SegmentWindings(arcs[..|arcs| - 1], point) + SegmentWinding(DiskSegment(arcs[|arcs| - 1]), point)
  }

  /** `Closed for ArcPolygon`: the frame's winding number plus that of the disk segment on every edge. */
  function ArcWinding(p: Polygon<ArcVertex>, point: Vec2): int {
    Winding(Frame(p), point) + SegmentWindings(ArcEdges(p), point)
  }

  /** `ArcPolygon::winding_number_2`: the frame's count, then one pass over the arcs. */
  method ArcWindingNumber2(p: Polygon<ArcVertex>, point: Vec2) returns (w: int)
    ensures w == ArcWinding(p, point)
  {
    w := WindingNumber2(Frame(p), point);
    w := AddSegmentWindings(w, ArcEdges(p), point);
  }

  /** The loop of `winding_number_2` over the arcs, adding to the count `w0`. */
  method AddSegmentWindings(w0: int, arcs: seq<Arc>, point: Vec2) returns (w: int)
    ensures w == w0 + SegmentWindings(arcs, point)
  {
    w := w0;
    for i := 0 to |arcs|
      invariant w == w0 + SegmentWindings(arcs[..i], point)
    {
      w := w + SegmentWinding(DiskSegment(arcs[i]), point);
      assert arcs[..i + 1][..i] == arcs[..i];
    }
    assert arcs[..|arcs|] == arcs;
  }

  /** Every vertex has a sagitta below the tolerance: all edges are straight. */
  predicate Flat(p: Polygon<ArcVertex>) {
    forall i :: 0 <= i < |p.vertices| ==> Abs(p.vertices[i].sagitta) < EPS
  }

  /** The frame's edges are the chords of the arc edges, and each arc has its start vertex's sagitta. */
  lemma FrameEdgesAreChords(p: Polygon<ArcVertex>)
    ensures |SegmentEdges(Frame(p))| == |ArcEdges(p)| == |p.vertices|
    ensures forall i :: 0 <= i < |p.vertices| ==>
              SegmentEdges(Frame(p))[i] == Chord(ArcEdges(p)[i]) && ArcEdges(p)[i].sagitta == p.vertices[i].sagitta
  {
    var f, se, ae, n := Frame(p), SegmentEdges(Frame(p)), ArcEdges(p), |p.vertices|;
    forall i | 0 <= i < n
      ensures se[i] == Chord(ae[i]) && ae[i].sagitta == p.vertices[i].sagitta
    {
      var j := Succ(i, n);
      assert se[i] == LineSegment(f.vertices[i], f.vertices[j]);
      assert ae[i] == ArcFromVertices(p.vertices[i], p.vertices[j]);
    }
  }

  /** Arcs whose sagittas are all below the tolerance add nothing to the winding number. */
  lemma {:induction false} FlatSegmentWindings(arcs: seq<Arc>, point: Vec2)
    requires forall i :: 0 <= i < |arcs| ==> Abs(arcs[i].sagitta) < EPS
    ensures SegmentWindings(arcs, point) == 0
  {
    if arcs != [] {
      FlatSegmentWindings(arcs[..|arcs| - 1], point);
    }
  }

  /** The arc on each edge of a flat polygon has a sagitta below the tolerance. */
  lemma FlatArcEdges(p: Polygon<ArcVertex>)
    requires Flat(p)
    ensures forall i :: 0 <= i < |ArcEdges(p)| ==> Abs(ArcEdges(p)[i].sagitta) < EPS
  {
    var ae, n := ArcEdges(p), |p.vertices|;
    forall i | 0 <= i < n
      ensures Abs(ae[i].sagitta) < EPS
    {
      assert ae[i] == ArcFromVertices(p.vertices[i], p.vertices[Succ(i, n)]);
    }
  }

  /** An arc polygon with straight edges winds around a point exactly as its frame does. */
  lemma FlatArcsWinding(p: Polygon<ArcVertex>, point: Vec2)
    requires Flat(p)
    ensures ArcWinding(p, point) == Winding(Frame(p), point)
    ensures Contains(ArcWinding, p, point) <==> Contains(Winding, Frame(p), point)
  {
    FlatArcEdges(p);
    FlatSegmentWindings(ArcEdges(p), point);
    assert ArcWinding(p, point) == Winding(Frame(p), point);
  }

  /** Each disk segment moves the count by at most two, so the arcs move it by at most `2 n`. */
  lemma {:induction false} SegmentWindingsBound(arcs: seq<Arc>, point: Vec2)
    ensures -2 * |arcs| <= SegmentWindings(arcs, point) <= 2 * |arcs|
  {
    if arcs != [] {
      SegmentWindingsBound(arcs[..|arcs| - 1], point);
    }
  }

  /** The arcs only ever change the frame's count by an even number. */
  lemma {:induction false} SegmentWindingsEven(arcs: seq<Arc>, point: Vec2)
    ensures SegmentWindings(arcs, point) % 2 == 0
  {
    if arcs != [] {
      var init := arcs[..|arcs| - 1];
      SegmentWindingsEven(init, point);
      var w := SegmentWinding(DiskSegment(arcs[|arcs| - 1]), point);
      EvenPlusEven(SegmentWindings(init, point), w);
    }
  }

  lemma EvenPlusEven(a: int, b: int)
    requires a % 2 == 0 && (b == 0 || b == 2 || b == -2)
    ensures (a + b) % 2 == 0
  {
  }

  /** Adding the arcs preserves the parity of the frame's count and changes it by at most `2 n`. */
  lemma ArcWindingNearFrame(p: Polygon<ArcVertex>, point: Vec2)
    ensures (ArcWinding(p, point) - Winding(Frame(p), point)) % 2 == 0
    ensures Abs((ArcWinding(p, point) - Winding(Frame(p), point)) as real) <= 2.0 * |p.vertices| as real
  {
    var ae := ArcEdges(p);
    SegmentWindingsEven(ae, point);
    SegmentWindingsBound(ae, point);
    EvenWithin(Winding(Frame(p), point), SegmentWindings(ae, point), |ae|);
  }

  lemma EvenWithin(f: int, w: int, n: nat)
    requires w % 2 == 0 && -2 * n <= w <= 2 * n
    ensures ((f + w) - f) % 2 == 0 && Abs(((f + w) - f) as real) <= 2.0 * n as real
  {
  }

  // ---------------------------------------------------------------------------------------
  // Moment

  /** The moments of the disk segments on `arcs` merged into `m`, left to right. */
  function MergeSegments(m: Moment, arcs: seq<Arc>): Moment
  {
    if arcs == [] then m
    else Merge(MergeSegments(m, arcs[..|arcs| - 1]), SegmentMoment(DiskSegment(arcs[|arcs| - 1])))
  }

  /**
   * `Integrable for ArcPolygon`: the frame's shoelace moment, as `Polygon::moment` computes it,
   * merged with the moment of every disk segment on the edges.
   */
  function ArcMoment(p: Polygon<ArcVertex>): Moment {
    MergeSegments(ShoelaceAsWritten(Frame(p)), ArcEdges(p))
  }

  /** With a counter-clockwise frame, the moment starts from the frame's true moment. */
  lemma ArcMomentCounterClockwise(p: Polygon<ArcVertex>)
    requires SignedArea2(Frame(p)) > 0.0
    ensures ArcMoment(p) == MergeSegments(ShoelaceMoment(Frame(p)), ArcEdges(p))
  {
    AsWrittenCounterClockwise(Frame(p));
  }

  /** `ArcPolygon::moment`: the frame's moment, then one merging pass over the arcs. */
  method ArcPolygonMoment(p: Polygon<ArcVertex>) returns (m: Moment)
    ensures m == ArcMoment(p)
  {
    m := PolygonMoment(Frame(p));
    m := MergeSegmentMoments(m, ArcEdges(p));
  }

  /** The loop of `moment` over the arcs, merging into `m0`. */
  method MergeSegmentMoments(m0: Moment, arcs: seq<Arc>) returns (m: Moment)
    ensures m == MergeSegments(m0, arcs)
  {
    m := m0;
    for i := 0 to |arcs|
      invariant m == MergeSegments(m0, arcs[..i])
    {
      m := Merge(m, SegmentMoment(DiskSegment(arcs[i])));
      assert arcs[..i + 1][..i] == arcs[..i];
    }
    assert arcs[..|arcs|] == arcs;
  }

  /**
   * Merging the zero-area moments of flat segments keeps a non-negligible moment and turns a
   * negligible one into the default moment.
   */
  lemma {:induction false} MergeFlatSegments(m: Moment, arcs: seq<Arc>)
    requires forall i :: 0 <= i < |arcs| ==> Abs(arcs[i].sagitta) < EPS
    ensures MergeSegments(m, arcs) == if arcs == [] || EPS <= Abs(m.area) then m else DEFAULT_MOMENT
  {
    if arcs != [] {
      var init := arcs[..|arcs| - 1];
      MergeFlatSegments(m, init);
      var seg := SegmentMoment(DiskSegment(arcs[|arcs| - 1]));
      assert seg.area == 0.0;
      if EPS <= Abs(m.area) {
        MergeZeroArea(m, seg);
      }
    }
  }

  /**
   * An arc polygon with straight edges has its frame's shoelace moment, except that a frame of
   * negligible area gives the default moment.
   */
  lemma FlatArcsMoment(p: Polygon<ArcVertex>)
    requires Flat(p)
    ensures var frame := ShoelaceAsWritten(Frame(p));
            ArcMoment(p) == if frame.area < EPS then DEFAULT_MOMENT else frame
  {
    var frame := ShoelaceAsWritten(Frame(p));
    FlatArcEdges(p);
    MergeFlatSegments(frame, ArcEdges(p));
    if p.vertices == [] {
      assert SegmentEdges(Frame(p)) == [];
    }
  }
}

=== FILE: polygon_clip.dfy ===
/**
 * Clipping straight polygons (src/polygon/line.rs): Sutherland-Hodgman clipping of a polygon
 * against one half-plane, and against another polygon as a fold over the half-planes on the
 * left of its edges.
 *
 * One clipping step walks from the previous vertex `a` to the current vertex `b` and emits
 * `b` when it is inside, preceded by the boundary crossing when the step enters the half-plane,
 * or the crossing alone when the step leaves it. The crossing is computed with the tolerant
 * line/segment intersection and unwrapped; the model requires that every crossing it unwraps
 * exists (`ClipDefined`), and `ShallowClosingEdgePanics` describes inputs where it does not.
 */
module StraightClip {
  import opened Numeric
  import opened Geom
  import opened Lines
  import opened Plane
  import opened Polygons
  import opened StraightPolygon
  import opened ClipWalks

  // ---------------------------------------------------------------------------------------
  // One half-plane

  /** `plane.contains(v)`. */
  function InsideOf(h: HalfPlane): Vec2 -> bool {
    v => HalfPlaneContains(h, v)
  }

  /** `plane.edge().intersect_to(&LineSegment(a, b))`: where the step `a -> b` meets the boundary. */
  function Crossing(h: HalfPlane, a: Vec2, b: Vec2): Option<Vec2> {
    IntersectLineSegment(Edge(h), LineSegment(a, b))
  }

  function CrossingOf(h: HalfPlane): (Vec2, Vec2) -> Option<Vec2> {
    (a, b) => Crossing(h, a, b)
  }

  /** The walk of the clip starts from the last vertex, so the closing edge is handled first. */
  predicate ClipDefined(h: HalfPlane, p: Polygon<Vec2>) {
    p.vertices == [] || WalkDefined(InsideOf(h), CrossingOf(h), p.vertices[|p.vertices| - 1], p.vertices)
  }

  /** What `IntersectTo<HalfPlane> for Polygon` returns: `None` for an empty polygon or output. */
  function Clip(h: HalfPlane, p: Polygon<Vec2>): (r: Option<Polygon<Vec2>>)
    ensures p.vertices == [] ==> r.None?
    ensures r.Some? ==> r.value.vertices != []
  {
    var vs := p.vertices;
    if vs == [] then None
    else
      var out := Walk(InsideOf(h), CrossingOf(h), vs[|vs| - 1], vs);
      if out == [] then None else Some(FromIter(out))
  }

  /** `IntersectTo<HalfPlane> for Polygon::intersect_to`: the Sutherland-Hodgman step. */
  method IntersectHalfPlane(p: Polygon<Vec2>, h: HalfPlane) returns (r: Option<Polygon<Vec2>>)
    requires ClipDefined(h, p)
    ensures r == Clip(h, p)
  {
    var vs := p.vertices;
    if |vs| == 0 {
      return None;
    }
    var out := ClipWalk(InsideOf(h), CrossingOf(h), vs[|vs| - 1], vs);
    if out == [] {
      r := None;
    } else {
      r := Some(FromIter(out));
    }
  }

  /** `IntersectTo<Polygon> for HalfPlane`: the same clip with the operands swapped. */
  method HalfPlaneIntersectPolygon(h: HalfPlane, other: Polygon<Vec2>) returns (r: Option<Polygon<Vec2>>)
    requires ClipDefined(h, other)
    ensures r == Clip(h, other)
  {
    r := IntersectHalfPlane(other, h);
  }

  // ---------------------------------------------------------------------------------------
  // Properties of one half-plane

  /** The clip has at most twice as many vertices as the polygon. */
  lemma ClipLength(h: HalfPlane, p: Polygon<Vec2>)
    ensures Clip(h, p).Some? ==> |Clip(h, p).value.vertices| <= 2 * |p.vertices|
  {
    if p.vertices != [] {
      WalkLength(InsideOf(h), CrossingOf(h), p.vertices[|p.vertices| - 1], p.vertices);
    }
  }

  /** Every vertex inside: the clip gives the polygon back unchanged. */
  lemma AllInsideKeepsPolygon(h: HalfPlane, p: Polygon<Vec2>)
    requires p.vertices != []
    requires forall i :: 0 <= i < |p.vertices| ==> HalfPlaneContains(h, p.vertices[i])
    ensures ClipDefined(h, p) && Clip(h, p) == Some(p)
  {
    var vs := p.vertices;
    var last := vs[|vs| - 1];
    var contains := InsideOf(h);
    forall i | 0 <= i < |vs|
      ensures contains(vs[i])
    {
      assert contains(vs[i]) == HalfPlaneContains(h, vs[i]);
    }
    forall i | 0 <= i < |vs|
      ensures StepDefined(contains, CrossingOf(h), PrevOf(last, vs, i), vs[i])
    {
      assert contains(PrevOf(last, vs, i));
    }
    AllInsideWalk(contains, CrossingOf(h), last, vs);
  }

  /** No vertex inside: nothing is emitted and the clip is `None`. */
  lemma NoneInsideIsNone(h: HalfPlane, p: Polygon<Vec2>)
    requires forall i :: 0 <= i < |p.vertices| ==> !HalfPlaneContains(h, p.vertices[i])
    ensures ClipDefined(h, p) && Clip(h, p).None?
  {
    var vs := p.vertices;
    if vs != [] {
      var last := vs[|vs| - 1];
      var contains := InsideOf(h);
      forall i | 0 <= i < |vs|
        ensures !contains(vs[i])
      {
        assert contains(vs[i]) == HalfPlaneContains(h, vs[i]);
      }
      forall i | 0 <= i < |vs|
        ensures StepDefined(contains, CrossingOf(h), PrevOf(last, vs, i), vs[i])
      {
        assert !contains(PrevOf(last, vs, i));
      }
      NoneInsideWalk(contains, CrossingOf(h), last, vs);
    }
  }

  /**
   * The `unwrap()` can panic: a step that starts at distance exactly `-EPS` and ends on the
   * boundary enters the half-plane, but it is within the parallel tolerance of the boundary while
   * its start is not within the coincidence tolerance, so no crossing is found.
   */
  lemma ShallowEntryHasNoCrossing(h: HalfPlane, a: Vec2, b: Vec2)
    requires IsUnit(h.normal)
    requires Distance(h, a) == -EPS && Distance(h, b) == 0.0 && b.Sub(a).MaxAbs() > EPS
    ensures !HalfPlaneContains(h, a) && HalfPlaneContains(h, b) && Crossing(h, a, b).None?
  {
    var l := Edge(h);
    EdgeFrame(h, a, b);
    UnitDirection(h.normal);
    var f := FrameOf(a, b, l.0, l.1);
    assert Abs(f.den) <= EPS && Abs(f.pqs) >= EPS;
  }

  /** The direction of the boundary of a unit normal is not within `EPS` of zero. */
  lemma UnitDirection(n: Vec2)
    requires IsUnit(n)
    ensures Vec2(n.y, -n.x).MaxAbs() > EPS
  {
    if Abs(n.x) <= EPS && Abs(n.y) <= EPS {
      SquareLe(n.x, EPS);
      SquareLe(n.y, EPS);
      assert false;
    }
  }

  lemma SquareLe(x: real, e: real)
    requires Abs(x) <= e
    ensures x * x <= e * e
  {
    var m := Abs(x);
    assert x * x == m * m;
    assert m * m <= e * m;
    assert e * m <= e * e;
  }

  /** A polygon whose closing edge is such a shallow entry cannot be clipped: the first step panics. */
  lemma ShallowClosingEdgePanics(h: HalfPlane, p: Polygon<Vec2>, a: Vec2, b: Vec2)
    requires |p.vertices| >= 2 && a == p.vertices[|p.vertices| - 1] && b == p.vertices[0]
    requires IsUnit(h.normal) && Distance(h, a) == -EPS && Distance(h, b) == 0.0 && b.Sub(a).MaxAbs() > EPS
    ensures !ClipDefined(h, p)
  {
    var vs := p.vertices;
    ShallowEntryHasNoCrossing(h, a, b);
    assert InsideOf(h)(a) == HalfPlaneContains(h, a);
    assert InsideOf(h)(b) == HalfPlaneContains(h, b);
    assert CrossingOf(h)(a, b) == Crossing(h, a, b);
    assert !StepDefined(InsideOf(h), CrossingOf(h), PrevOf(a, vs, 0), vs[0]);
  }

  // ---------------------------------------------------------------------------------------
  // Where the crossings lie

  /** A step whose ends are on different sides is not within the parallel tolerance of the boundary. */
  predicate Transversal(h: HalfPlane, a: Vec2, b: Vec2) {
    var l := Edge(h);
    HalfPlaneContains(h, a) != HalfPlaneContains(h, b) ==> Abs(FrameOf(a, b, l.0, l.1).den) > EPS
  }

  /**
   * With a unit normal, a transversal step that changes side has a crossing, and it lies on the
   * boundary: the `unwrap()` can only fail on steps nearly parallel to the boundary.
   */
  lemma TransversalCrossing(h: HalfPlane, a: Vec2, b: Vec2)
    requires IsUnit(h.normal) && Transversal(h, a, b)
    requires HalfPlaneContains(h, a) != HalfPlaneContains(h, b)
    ensures Crossing(h, a, b).Some? && Distance(h, Crossing(h, a, b).value) == 0.0
  {
    var l := Edge(h);
    var f := FrameOf(a, b, l.0, l.1);
    var da, db := Distance(h, a), Distance(h, b);
    EdgeFrame(h, a, b);
    RatioInUnit(da, db);
    assert InRange(f.pqs / f.den);
    var x := IntersectLines(LineSegment(a, b).ToLine(), l).value;
    assert Crossing(h, a, b) == Some(x);
    OnEdgeLine(h, x);
  }

  /** In the frame of a step and the boundary line, the denominator and `pq x s` are distances. */
  lemma EdgeFrame(h: HalfPlane, a: Vec2, b: Vec2)
    requires IsUnit(h.normal)
    ensures var l := Edge(h);
            var f := FrameOf(a, b, l.0, l.1);
            f.s == Vec2(h.normal.y, -h.normal.x) &&
            f.den == Distance(h, a) - Distance(h, b) && f.pqs == Distance(h, a)
  {
    var n, l := h.normal, Edge(h);
    EdgeShape(h);
    var f := FrameOf(a, b, l.0, l.1);
    CrossWithEdge(n, f.r);
    CrossWithEdge(n, f.pq);
    DotOfDifference(b, a, n);
    DotOfDifference(l.0, a, n);
  }

  /** The boundary line runs along `(n.y, -n.x)` from a point at offset `h.offset`. */
  lemma EdgeShape(h: HalfPlane)
    requires IsUnit(h.normal)
    ensures Edge(h).1.Sub(Edge(h).0) == Vec2(h.normal.y, -h.normal.x)
    ensures Edge(h).0.Dot(h.normal) == h.offset
  {
    var n := h.normal;
    assert Edge(h).0.Dot(n) == h.offset * n.Dot(n);
  }

  lemma DotOfDifference(x: Vec2, y: Vec2, n: Vec2)
    ensures x.Sub(y).Dot(n) == x.Dot(n) - y.Dot(n)
  {
  }

  /** Crossing with the boundary direction `(n.y, -n.x)` is minus the dot product with `n`. */
  lemma CrossWithEdge(n: Vec2, x: Vec2)
    ensures x.PerpDot(Vec2(n.y, -n.x)) == -x.Dot(n)
  {
  }

  /** A point on the boundary line of a half-plane with a unit normal is at distance zero. */
  lemma OnEdgeLine(h: HalfPlane, x: Vec2)
    requires IsUnit(h.normal) && OnLine(Edge(h).0, Edge(h).1, x)
    ensures Distance(h, x) == 0.0
  {
    var n, l := h.normal, Edge(h);
    assert l.1.Sub(l.0) == Vec2(n.y, -n.x);
    assert l.0.Dot(n) == h.offset * n.Dot(n);
    assert Vec2(n.y, -n.x).PerpDot(x.Sub(l.0)) == x.Dot(n) - l.0.Dot(n);
  }

  /** Where a linear function with values of opposite signs at the ends vanishes: in `[0, 1]`. */
  lemma RatioInUnit(da: real, db: real)
    requires (da >= 0.0) != (db >= 0.0)
    ensures da - db != 0.0 && 0.0 <= da / (da - db) <= 1.0
  {
    if da >= 0.0 {
      assert da - db > 0.0 && da <= da - db;
    } else {
      assert da - db < 0.0 && da - db <= da;
    }
  }

  /**
   * Sutherland-Hodgman's guarantee: when no edge of the polygon that changes side is nearly
   * parallel to the boundary, the clip is defined and every vertex of the result is inside.
   */
  lemma ClipInside(h: HalfPlane, p: Polygon<Vec2>)
    requires IsUnit(h.normal) && p.vertices != []
    requires forall i :: 0 <= i < |p.vertices| ==>
               Transversal(h, PrevOf(p.vertices[|p.vertices| - 1], p.vertices, i), p.vertices[i])
    ensures ClipDefined(h, p)
    ensures Clip(h, p).Some? ==> forall x :: x in Clip(h, p).value.vertices ==> HalfPlaneContains(h, x)
  {
    var vs := p.vertices;
    var last := vs[|vs| - 1];
    forall i | 0 <= i < |vs|
      ensures CrossingInside(InsideOf(h), CrossingOf(h), PrevOf(last, vs, i), vs[i])
    {
      var a, b := PrevOf(last, vs, i), vs[i];
      if HalfPlaneContains(h, a) != HalfPlaneContains(h, b) {
        TransversalCrossing(h, a, b);
      }
    }
    WalkInside(InsideOf(h), CrossingOf(h), last, vs);
  }

  // ---------------------------------------------------------------------------------------
  // Clipping by a polygon

  /** `HalfPlane::from_edge(a, b)` for every edge `(a, b)` of `other`, in edge order. */
  function EdgePlanes(other: Polygon<Vec2>): (planes: seq<HalfPlane>)
    ensures |planes| == |other.vertices|
    ensures var es := SegmentEdges(other);
            forall i :: 0 <= i < |planes| ==> planes[i] == FromEdge(es[i].0, es[i].1)
  {
    var es := SegmentEdges(other);
    var planes := seq(|es|, i requires 0 <= i < |es| => FromEdge(es[i].0, es[i].1));
    assert |planes| == |es| == |other.vertices|;
    planes
  }

  /** `Clip` and `ClipDefined` as the step of a fold over half-planes. */
  const ClipBy: (HalfPlane, Polygon<Vec2>) -> Option<Polygon<Vec2>> := (h, p) => Clip(h, p)

  const ClipDefinedBy: (HalfPlane, Polygon<Vec2>) -> bool := (h, p) => ClipDefined(h, p)

  /** `IntersectTo<Polygon> for Polygon::intersect_to`: clips `self` by the half-planes of `other`, stopping at the first empty result. */
  method IntersectPolygon(self: Polygon<Vec2>, other: Polygon<Vec2>) returns (r: Option<Polygon<Vec2>>)
    requires FoldDefined(ClipDefinedBy, ClipBy, self, EdgePlanes(other))
    ensures r == Fold(ClipBy, self, EdgePlanes(other))
  {
    r := ClipByAll(self, EdgePlanes(other));
  }

  /** The fold of `IntersectPolygon` over a given sequence of half-planes. */
  method ClipByAll(self: Polygon<Vec2>, planes: seq<HalfPlane>) returns (r: Option<Polygon<Vec2>>)
    requires FoldDefined(ClipDefinedBy, ClipBy, self, planes)
    ensures r == Fold(ClipBy, self, planes)
  {
    var result := self;
    var i := 0;
    while i < |planes|
      invariant 0 <= i <= |planes|
      invariant FoldDefined(ClipDefinedBy, ClipBy, result, planes[i..])
      invariant Fold(ClipBy, self, planes) == Fold(ClipBy, result, planes[i..])
    {
      var h := planes[i];
      FoldHead(ClipDefinedBy, ClipBy, result, planes[i..]);
      assert planes[i..][0] == h && planes[i..][1..] == planes[i + 1..];
      assert ClipDefinedBy(h, result) == ClipDefined(h, result);
      assert ClipBy(h, result) == Clip(h, result);
      var next := IntersectHalfPlane(result, h);
      if next.None? {
        return None;
      }
      result := next.value;
      i := i + 1;
    }
    assert planes[i..] == [];
    r := Some(result);
  }

  // ---------------------------------------------------------------------------------------
  // Properties of the polygon clip

  /** Clipping by a polygon with no edges leaves `self` unchanged. */
  lemma NoEdgesKeepsSelf(self: Polygon<Vec2>, other: Polygon<Vec2>)
    requires other.vertices == []
    ensures FoldDefined(ClipDefinedBy, ClipBy, self, EdgePlanes(other))
    ensures Fold(ClipBy, self, EdgePlanes(other)) == Some(self)
  {
  }

  /** Once a clip comes out empty, later half-planes cannot revive it. */
  lemma EmptyStaysEmpty(p: Polygon<Vec2>, a: seq<HalfPlane>, b: seq<HalfPlane>)
    requires Fold(ClipBy, p, a).None?
    ensures Fold(ClipBy, p, a + b).None?
  {
    FoldAppend(ClipBy, p, a, b);
  }

  /** A polygon inside every half-plane of `other` is its own clip by `other`. */
  lemma InsideKeepsSelf(self: Polygon<Vec2>, other: Polygon<Vec2>)
    requires self.vertices != []
    requires forall i, j :: 0 <= i < |other.vertices| && 0 <= j < |self.vertices| ==>
               HalfPlaneContains(EdgePlanes(other)[i], self.vertices[j])
    ensures FoldDefined(ClipDefinedBy, ClipBy, self, EdgePlanes(other))
    ensures Fold(ClipBy, self, EdgePlanes(other)) == Some(self)
  {
    InsidePlanesKeepSelf(self, EdgePlanes(other));
  }

  /** A polygon inside each of `planes` comes out of the fold over them unchanged. */
  lemma {:induction false} InsidePlanesKeepSelf(self: Polygon<Vec2>, planes: seq<HalfPlane>)
    requires self.vertices != []
    requires forall i, j :: 0 <= i < |planes| && 0 <= j < |self.vertices| ==>
               HalfPlaneContains(planes[i], self.vertices[j])
    ensures FoldDefined(ClipDefinedBy, ClipBy, self, planes)
    ensures Fold(ClipBy, self, planes) == Some(self)
    decreases |planes|
  {
    if planes != [] {
      var h := planes[0];
      AllInsideKeepsPolygon(h, self);
      assert ClipDefinedBy(h, self) == ClipDefined(h, self);
      assert ClipBy(h, self) == Clip(h, self);
      InsidePlanesKeepSelf(self, planes[1..]);
    }
  }
}

=== FILE: polygon_line.dfy ===
/**
 * Polygons with straight edges (src/polygon/line.rs): the convexity test, the crossing-rule
 * winding number, the shoelace moment, Sutherland-Hodgman clipping against a half-plane and
 * clipping against another polygon as a fold over its edges.
 *
 * Each algorithm is a method with a loop, proved against a specification function over the
 * cyclic edge sequence; the properties the code promises are lemmas about those functions.
 */
module StraightPolygon {
  import opened Numeric
  import opened Geom
  import opened Lines
  import opened Plane
  import opened Polygons

  // ---------------------------------------------------------------------------------------
  // Edges and sums over them

  /** `Edge::from_vertices` for `LineSegment`. */
  function SegmentFromVertices(a: Vec2, b: Vec2): (s: LineSegment)
    ensures s.0 == a && s.1 == b
  {
    LineSegment(a, b)
  }

  /** `Polygon::edges` of a straight polygon: segment `i` joins `v[i]` to `v[(i + 1) % n]`. */
  function SegmentEdges(p: Polygon<Vec2>): (es: seq<LineSegment>)
    ensures |es| == |p.vertices|
    ensures forall i :: 0 <= i < |es| ==>
              es[i] == LineSegment(p.vertices[i], p.vertices[Succ(i, |p.vertices|)])
  {
    Edges(p, SegmentFromVertices)
  }

  function Flip(e: LineSegment): LineSegment { LineSegment(e.1, e.0) }

  function FlipAll(es: seq<LineSegment>): (r: seq<LineSegment>)
    ensures |r| == |es| && forall i :: 0 <= i < |es| ==> r[i] == Flip(es[i])
  {
    seq(|es|, i requires 0 <= i < |es| => Flip(es[i]))
  }

  function Reverse<T>(s: seq<T>): (r: seq<T>)
    ensures |r| == |s| && forall i :: 0 <= i < |s| ==> r[i] == s[|s| - 1 - i]
  {
    seq(|s|, i requires 0 <= i < |s| => s[|s| - 1 - i])
  }

  /** Moves the last element to the front. */
  function RotateRight<T>(s: seq<T>): (r: seq<T>)
    requires |s| >= 1
    ensures |r| == |s| && r[0] == s[|s| - 1] && forall i :: 1 <= i < |s| ==> r[i] == s[i - 1]
  {
    [s[|s| - 1]] + s[..|s| - 1]
  }

  /** Left-to-right sum of a real-valued quantity over edges, in the order the loops accumulate it. */
  function Sum(es: seq<LineSegment>, f: LineSegment -> real): real
  {
    if es == [] then 0.0 else Sum(es[..|es| - 1], f) + f(es[|es| - 1])
  }

  /** The same over an integer-valued quantity. */
  function IntSum(es: seq<LineSegment>, f: LineSegment -> int): int
  {
    if es == [] then 0 else IntSum(es[..|es| - 1], f) + f(es[|es| - 1])
  }

  /** Reversing the vertex order flips every edge and reverses the cyclic edge order. */
  lemma EdgesOfReverse(vs: seq<Vec2>)
    requires |vs| >= 1
    ensures SegmentEdges(Polygon(Reverse(vs))) == FlipAll(Reverse(RotateRight(SegmentEdges(Polygon(vs)))))
  {
    var lhs := SegmentEdges(Polygon(Reverse(vs)));
    var rhs := FlipAll(Reverse(RotateRight(SegmentEdges(Polygon(vs)))));
    forall i | 0 <= i < |vs|
      ensures lhs[i] == rhs[i]
    {
      ReversedEdge(vs, i);
    }
  }

  lemma ReversedEdge(vs: seq<Vec2>, i: nat)
    requires i < |vs|
    ensures SegmentEdges(Polygon(Reverse(vs)))[i] == FlipAll(Reverse(RotateRight(SegmentEdges(Polygon(vs)))))[i]
  {
    if i == |vs| - 1 {
      ReversedLastEdge(vs);
    } else {
      ReversedInnerEdge(vs, i);
    }
  }

  /** The closing edge of the reversed polygon is the closing edge of the original, flipped. */
  lemma ReversedLastEdge(vs: seq<Vec2>)
    requires |vs| >= 1
    ensures var n, es := |vs|, SegmentEdges(Polygon(vs));
            SegmentEdges(Polygon(Reverse(vs)))[n - 1] == Flip(es[n - 1]) == FlipAll(Reverse(RotateRight(es)))[n - 1]
  {
    var n, es := |vs|, SegmentEdges(Polygon(vs));
    var x := SegmentEdges(Polygon(Reverse(vs)))[n - 1];
    ReversedEdgeAt(vs, n - 1, 0);
    assert x == LineSegment(vs[0], vs[n - 1]);
    LastEdge(vs);
    assert es[n - 1] == LineSegment(vs[n - 1], vs[0]);
    RotatedFlippedLast(es);
  }

  /** Any other edge `i` of the reversed polygon is edge `n - 2 - i` of the original, flipped. */
  lemma ReversedInnerEdge(vs: seq<Vec2>, i: nat)
    requires i + 1 < |vs|
    ensures var n, es := |vs|, SegmentEdges(Polygon(vs));
            SegmentEdges(Polygon(Reverse(vs)))[i] == Flip(es[n - 2 - i]) == FlipAll(Reverse(RotateRight(es)))[i]
  {
    var n, j, es := |vs|, |vs| - 2 - i, SegmentEdges(Polygon(vs));
    var x := SegmentEdges(Polygon(Reverse(vs)))[i];
    ReversedEdgeAt(vs, i, i + 1);
    assert x == LineSegment(vs[n - 1 - i], vs[j]);
    InnerEdge(vs, j);
    assert es[j] == LineSegment(vs[j], vs[n - 1 - i]);
    RotatedFlippedInner(es, i);
  }

  /** The last entry of the flipped, reversed, right-rotated edge sequence is the last edge, flipped. */
  lemma RotatedFlippedLast(es: seq<LineSegment>)
    requires |es| >= 1
    ensures FlipAll(Reverse(RotateRight(es)))[|es| - 1] == Flip(es[|es| - 1])
  {
  }

  /** Any other entry `i` of it is edge `n - 2 - i`, flipped. */
  lemma RotatedFlippedInner(es: seq<LineSegment>, i: nat)
    requires i + 1 < |es|
    ensures FlipAll(Reverse(RotateRight(es)))[i] == Flip(es[|es| - 2 - i])
  {
  }

  /** The closing edge joins the last vertex to the first. */
  lemma LastEdge(vs: seq<Vec2>)
    requires |vs| >= 1
    ensures SegmentEdges(Polygon(vs))[|vs| - 1] == LineSegment(vs[|vs| - 1], vs[0])
  {
  }

  /** Every other edge joins consecutive vertices. */
  lemma InnerEdge(vs: seq<Vec2>, k: nat)
    requires k + 1 < |vs|
    ensures SegmentEdges(Polygon(vs))[k] == LineSegment(vs[k], vs[k + 1])
  {
  }

  /** Edge `i` of the reversed polygon joins reversed vertices `i` and `k`, its cyclic successor. */
  lemma ReversedEdgeAt(vs: seq<Vec2>, i: nat, k: nat)
    requires i < |vs| && k == (if i == |vs| - 1 then 0 else i + 1)
    ensures SegmentEdges(Polygon(Reverse(vs)))[i] == LineSegment(vs[|vs| - 1 - i], vs[|vs| - 1 - k])
  {
    var rs := Reverse(vs);
    assert rs[i] == vs[|vs| - 1 - i] && rs[k] == vs[|vs| - 1 - k];
    if i == |vs| - 1 {
      LastEdge(rs);
    } else {
      InnerEdge(rs, i);
    }
  }

  lemma {:induction false} SumAppend(a: seq<LineSegment>, b: seq<LineSegment>, f: LineSegment -> real)
    ensures Sum(a + b, f) == Sum(a, f) + Sum(b, f)
    decreases |b|
  {
    if b != [] {
      var b' := b[..|b| - 1];
      assert (a + b)[..|a + b| - 1] == a + b';
      SumAppend(a, b', f);
    } else {
      assert a + b == a;
    }
  }

  lemma {:induction false} SumReverse(s: seq<LineSegment>, f: LineSegment -> real)
    ensures Sum(Reverse(s), f) == Sum(s, f)
    decreases |s|
  {
    if s != [] {
      var s' := s[..|s| - 1];
      assert Reverse(s) == [s[|s| - 1]] + Reverse(s');
      SumAppend([s[|s| - 1]], Reverse(s'), f);
      SumReverse(s', f);
      assert Sum([s[|s| - 1]], f) == f(s[|s| - 1]) by {
        assert [s[|s| - 1]][..0] == [];
      }
    }
  }

  lemma {:induction false} SumFlip(s: seq<LineSegment>, f: LineSegment -> real)
    requires forall e :: f(Flip(e)) == -f(e)
    ensures Sum(FlipAll(s), f) == -Sum(s, f)
    decreases |s|
  {
    if s != [] {
      assert FlipAll(s)[..|s| - 1] == FlipAll(s[..|s| - 1]);
      SumFlip(s[..|s| - 1], f);
    }
  }

  lemma SumRotateRight(s: seq<LineSegment>, f: LineSegment -> real)
    requires |s| >= 1
    ensures Sum(RotateRight(s), f) == Sum(s, f)
  {
    var last, init := [s[|s| - 1]], s[..|s| - 1];
    calc {
      Sum(RotateRight(s), f);
    == { assert RotateRight(s) == last + init; }
      Sum(last + init, f);
    == { SumAppend(last, init, f); }
      Sum(last, f) + Sum(init, f);
    == { assert last[..0] == []; }
      f(s[|s| - 1]) + Sum(init, f);
    }
  }

  /** A quantity that changes sign with the edge direction sums to its negation over the reversed polygon. */
  lemma SumOverReverse(vs: seq<Vec2>, f: LineSegment -> real)
    requires forall e :: f(Flip(e)) == -f(e)
    ensures Sum(SegmentEdges(Polygon(Reverse(vs))), f) == -Sum(SegmentEdges(Polygon(vs)), f)
  {
    if |vs| >= 1 {
      var es := SegmentEdges(Polygon(vs));
      EdgesOfReverse(vs);
      SumFlip(Reverse(RotateRight(es)), f);
      SumReverse(RotateRight(es), f);
      SumRotateRight(es, f);
    }
  }

  lemma {:induction false} IntSumAppend(a: seq<LineSegment>, b: seq<LineSegment>, f: LineSegment -> int)
    ensures IntSum(a + b, f) == IntSum(a, f) + IntSum(b, f)
    decreases |b|
  {
    if b != [] {
      var b' := b[..|b| - 1];
      assert (a + b)[..|a + b| - 1] == a + b';
      IntSumAppend(a, b', f);
    } else {
      assert a + b == a;
    }
  }

  lemma {:induction false} IntSumReverse(s: seq<LineSegment>, f: LineSegment -> int)
    ensures IntSum(Reverse(s), f) == IntSum(s, f)
    decreases |s|
  {
    if s != [] {
      var s' := s[..|s| - 1];
      assert Reverse(s) == [s[|s| - 1]] + Reverse(s');
      IntSumAppend([s[|s| - 1]], Reverse(s'), f);
      IntSumReverse(s', f);
      assert IntSum([s[|s| - 1]], f) == f(s[|s| - 1]) by {
        assert [s[|s| - 1]][..0] == [];
      }
    }
  }

  lemma {:induction false} IntSumFlip(s: seq<LineSegment>, f: LineSegment -> int)
    requires forall e :: f(Flip(e)) == -f(e)
    ensures IntSum(FlipAll(s), f) == -IntSum(s, f)
    decreases |s|
  {
    if s != [] {
      assert FlipAll(s)[..|s| - 1] == FlipAll(s[..|s| - 1]);
      IntSumFlip(s[..|s| - 1], f);
    }
  }

  lemma IntSumOverReverse(vs: seq<Vec2>, f: LineSegment -> int)
    requires forall e :: f(Flip(e)) == -f(e)
    ensures IntSum(SegmentEdges(Polygon(Reverse(vs))), f) == -IntSum(SegmentEdges(Polygon(vs)), f)
  {
    if |vs| >= 1 {
      var es := SegmentEdges(Polygon(vs));
      EdgesOfReverse(vs);
      IntSumFlip(Reverse(RotateRight(es)), f);
      IntSumReverse(RotateRight(es), f);
      IntSumRotateRight(es, f);
    }
  }

  lemma IntSumRotateRight(s: seq<LineSegment>, f: LineSegment -> int)
    requires |s| >= 1
    ensures IntSum(RotateRight(s), f) == IntSum(s, f)
  {
    var last, init := [s[|s| - 1]], s[..|s| - 1];
    calc {
      IntSum(RotateRight(s), f);
    == { assert RotateRight(s) == last + init; }
      IntSum(last + init, f);
    == { IntSumAppend(last, init, f); }
      IntSum(last, f) + IntSum(init, f);
    == { assert last[..0] == []; }
      f(s[|s| - 1]) + IntSum(init, f);
    }
  }

  // ---------------------------------------------------------------------------------------
  // Convexity

  /**
   * The turn at `b` on the path `a, b, c`: `(b - a) x (c - b)`, written out by coordinates.
   * Positive for a left turn, negative for a right turn, zero when the points are collinear.
   */
  function Turn3(a: Vec2, b: Vec2, c: Vec2): (t: real)
    ensures t == b.Sub(a).PerpDot(c.Sub(b))
  {
    (b.x - a.x) * (c.y - b.y) - (b.y - a.y) * (c.x - b.x)
  }

  /** The turn at the middle vertex of a window `[a, b, c]`. */
  function Turn(w: seq<Vec2>): real
    requires |w| == 3
  {
    Turn3(w[0], w[1], w[2])
  }

  /** The turns of all windows of three, in window order. */
  function Turns(p: Polygon<Vec2>): (cs: seq<real>)
    ensures |cs| == WindowCount(|p.vertices|, 3)
    ensures forall i :: 0 <= i < |cs| ==> cs[i] == Turn(VerticesWindow(p, 3)[i])
  {
    TurnsOf(VerticesWindow(p, 3))
  }

  function TurnsOf(ws: seq<seq<Vec2>>): (cs: seq<real>)
    requires forall i :: 0 <= i < |ws| ==> |ws[i]| == 3
    ensures |cs| == |ws| && forall i :: 0 <= i < |ws| ==> cs[i] == Turn(ws[i])
  {
    seq(|ws|, i requires 0 <= i < |ws| => Turn(ws[i]))
  }

  /** No two turns have strictly opposite signs; collinear (zero) turns are allowed anywhere. */
  predicate OneSided(cs: seq<real>) {
    forall i, j :: 0 <= i < |cs| && 0 <= j < |cs| ==> !(cs[i] > 0.0 && cs[j] < 0.0)
  }

  /**
   * `Polygon::is_convex`: remembers the first non-zero turn and fails on the first turn of the
   * opposite sign. The result is true exactly when the turns are one-sided.
   */
  method IsConvex(p: Polygon<Vec2>) returns (convex: bool)
    ensures convex <==> OneSided(Turns(p))
  {
    convex := ConvexScan(VerticesWindow(p, 3));
  }

  /** The loop of `Polygon::is_convex` over the windows of three. */
  method ConvexScan(ws: seq<seq<Vec2>>) returns (convex: bool)
    requires forall i :: 0 <= i < |ws| ==> |ws[i]| == 3
    ensures convex <==> OneSided(TurnsOf(ws))
  {
    ghost var cs := TurnsOf(ws);
    ghost var first := 0;
    var sign := 0.0;
    for i := 0 to |ws|
      invariant sign == 0.0 ==> forall k :: 0 <= k < i ==> cs[k] == 0.0
      invariant sign != 0.0 ==> 0 <= first < i && cs[first] == sign
      invariant sign > 0.0 ==> forall k :: 0 <= k < i ==> cs[k] >= 0.0
      invariant sign < 0.0 ==> forall k :: 0 <= k < i ==> cs[k] <= 0.0
    {
      var w := ws[i];
      var cross := w[1].Sub(w[0]).PerpDot(w[2].Sub(w[1]));
      assert cross == cs[i];
      var product := sign * cross;
      ProductSign(sign, cross, product);
      if sign == 0.0 {
        sign, first := cross, i;
      } else if product < 0.0 {
        OppositeTurns(cs, first, i);
        return false;
      }
    }
    return true;
  }

  /** Two turns of strictly opposite signs make the sequence not one-sided. */
  lemma OppositeTurns(cs: seq<real>, i: nat, j: nat)
    requires i < |cs| && j < |cs|
    requires (cs[i] > 0.0 && cs[j] < 0.0) || (cs[i] < 0.0 && cs[j] > 0.0)
    ensures !OneSided(cs)
  {
    if cs[i] < 0.0 {
      assert cs[j] > 0.0 && cs[i] < 0.0;
    } else {
      assert cs[i] > 0.0 && cs[j] < 0.0;
    }
  }

  lemma ProductSign(a: real, b: real, p: real)
    requires p == a * b
    ensures p < 0.0 <==> (a > 0.0 && b < 0.0) || (a < 0.0 && b > 0.0)
  {
    if a > 0.0 && b > 0.0 {
      assert a * b > 0.0;
    } else if a < 0.0 && b < 0.0 {
      assert a * b == (-a) * (-b);
    } else if a > 0.0 && b < 0.0 {
      assert a * b == -(a * (-b));
    } else if a < 0.0 && b > 0.0 {
      assert a * b == -((-a) * b);
    }
  }

  /** Polygons with fewer than three vertices are convex: there are no turns, or only zero ones. */
  lemma SmallPolygonsConvex(vs: seq<Vec2>)
    requires |vs| <= 2
    ensures OneSided(Turns(Polygon(vs)))
  {
    var cs := Turns(Polygon(vs));
    if |vs| == 2 {
      var ws := VerticesWindow(Polygon(vs), 3);
      ModWrap(2, 2);
      ModWrap(3, 2);
      assert ws[0] == [vs[0], vs[1], vs[0]];
      assert ws[1] == [vs[1], vs[0], vs[1]];
      assert cs[0] == 0.0 && cs[1] == 0.0;
    }
  }

  /** The turn of window `i`, in terms of the vertices. */
  lemma TurnAt(vs: seq<Vec2>, n: nat, i: nat, i1: nat, i2: nat)
    requires n == |vs| && i < WindowCount(n, 3)
    requires i1 == (i + 1) % n && i2 == (i + 2) % n
    ensures i1 < n && i2 < n && i < n
    ensures Turns(Polygon(vs))[i] == Turn3(vs[i], vs[i1], vs[i2])
  {
    var ws := VerticesWindow(Polygon(vs), 3);
    assert ws[i][0] == vs[(i + 0) % |vs|];
    ModBelow(i, |vs|);
  }

  /** The turns of a triangle, vertex by vertex. */
  lemma TriangleTurns(vs: seq<Vec2>)
    requires |vs| == 3
    ensures Turns(Polygon(vs)) ==
              [Turn3(vs[0], vs[1], vs[2]), Turn3(vs[1], vs[2], vs[0]), Turn3(vs[2], vs[0], vs[1])]
  {
    TurnAt(vs, 3, 0, 1, 2);
    TurnAt(vs, 3, 1, 2, 0);
    TurnAt(vs, 3, 2, 0, 1);
  }

  /** The turns of a quadrilateral, vertex by vertex. */
  lemma QuadrilateralTurns(vs: seq<Vec2>)
    requires |vs| == 4
    ensures Turns(Polygon(vs)) ==
              [Turn3(vs[0], vs[1], vs[2]), Turn3(vs[1], vs[2], vs[3]),
               Turn3(vs[2], vs[3], vs[0]), Turn3(vs[3], vs[0], vs[1])]
  {
    TurnAt(vs, 4, 0, 1, 2);
    TurnAt(vs, 4, 1, 2, 3);
    TurnAt(vs, 4, 2, 3, 0);
    TurnAt(vs, 4, 3, 0, 1);
  }

  /** A triangle whose three turns are all left turns (or straight) is convex. */
  lemma LeftTriangleConvex(a: Vec2, b: Vec2, c: Vec2)
    requires Turn3(a, b, c) >= 0.0 && Turn3(b, c, a) >= 0.0 && Turn3(c, a, b) >= 0.0
    ensures OneSided(Turns(Polygon([a, b, c])))
  {
    TriangleTurns([a, b, c]);
    LeftTurnsOneSided(Turns(Polygon([a, b, c])));
  }

  /** A quadrilateral whose four turns are all left turns (or straight) is convex. */
  lemma LeftQuadrilateralConvex(a: Vec2, b: Vec2, c: Vec2, d: Vec2)
    requires Turn3(a, b, c) >= 0.0 && Turn3(b, c, d) >= 0.0 && Turn3(c, d, a) >= 0.0 && Turn3(d, a, b) >= 0.0
    ensures OneSided(Turns(Polygon([a, b, c, d])))
  {
    QuadrilateralTurns([a, b, c, d]);
    LeftTurnsOneSided(Turns(Polygon([a, b, c, d])));
  }

  /** Turns that are all non-negative are one-sided. */
  lemma LeftTurnsOneSided(cs: seq<real>)
    requires forall i :: 0 <= i < |cs| ==> cs[i] >= 0.0
    ensures OneSided(cs)
  {
  }

  /** A hexagon with a left turn at its second vertex and a right turn at its fifth is not convex. */
  lemma MixedHexagon(vs: seq<Vec2>)
    requires |vs| == 6 && Turn3(vs[0], vs[1], vs[2]) > 0.0 && Turn3(vs[3], vs[4], vs[5]) < 0.0
    ensures !OneSided(Turns(Polygon(vs)))
  {
    HexagonTurns(vs);
    var cs := Turns(Polygon(vs));
    assert cs[0] > 0.0 && cs[3] < 0.0;
  }

  lemma HexagonTurns(vs: seq<Vec2>)
    requires |vs| == 6
    ensures |Turns(Polygon(vs))| == 6
    ensures Turns(Polygon(vs))[0] == Turn3(vs[0], vs[1], vs[2])
    ensures Turns(Polygon(vs))[3] == Turn3(vs[3], vs[4], vs[5])
  {
    TurnAt(vs, 6, 0, 1, 2);
    TurnAt(vs, 6, 3, 4, 5);
  }

  lemma MixedTurns(a: Vec2, b: Vec2, c: Vec2, d: Vec2, e: Vec2, f: Vec2)
    requires Turn3(a, b, c) > 0.0 && Turn3(d, e, f) < 0.0
    ensures !OneSided(Turns(Polygon([a, b, c, d, e, f])))
  {
    var vs := [a, b, c, d, e, f];
    assert vs[0] == a && vs[1] == b && vs[2] == c && vs[3] == d && vs[4] == e && vs[5] == f;
    MixedHexagon(vs);
  }

  // ---------------------------------------------------------------------------------------
  // Winding number

  /**
   * The contribution of one edge to `winding_number_2`: +1 when it crosses the horizontal line
   * through the point upwards with the point strictly on its left, -1 when it crosses it
   * downwards with the point strictly on its right, 0 otherwise. An edge "crosses" when one
   * end is at or below the point and the other strictly above.
   */
  function EdgeWinding(e: LineSegment, point: Vec2): (w: int)
    ensures -1 <= w <= 1
    ensures w == 1 <==> e.0.y <= point.y < e.1.y && Side(e.0, e.1, point) > 0.0
    ensures w == -1 <==> e.1.y <= point.y < e.0.y && Side(e.0, e.1, point) < 0.0
  {
    var v0, v1 := e.0, e.1;
    if v0.y <= point.y then
      if v1.y > point.y && Side(v0, v1, point) > 0.0 then 1 else 0
    else if v1.y <= point.y && Side(v0, v1, point) < 0.0 then -1
    else 0
  }

  /** `(v1 - v0) x (point - v0)`, written out by coordinates: positive when `point` is left of `v0 -> v1`. */
  function Side(v0: Vec2, v1: Vec2, point: Vec2): real {
    (v1.x - v0.x) * (point.y - v0.y) - (v1.y - v0.y) * (point.x - v0.x)
  }

  /** `Side` is the cross product the code computes. */
  lemma SideIsCross(v0: Vec2, v1: Vec2, point: Vec2)
    ensures Side(v0, v1, point) == v1.Sub(v0).PerpDot(point.Sub(v0))
  {
  }

  /** `EdgeWinding` with the point fixed, as the quantity summed over the edges. */
  function WindingAt(point: Vec2): LineSegment -> int {
    e => EdgeWinding(e, point)
  }

  /** The straight-polygon `winding_number_2`: the sum of the edge contributions. */
  function Winding(p: Polygon<Vec2>, point: Vec2): int {
    IntSum(SegmentEdges(p), WindingAt(point))
  }

  /**
   * `Polygon::winding_number_2`: one pass over the edges, updating the counter by the
   * crossing rule.
   */
  method WindingNumber2(p: Polygon<Vec2>, point: Vec2) returns (w: int)
    ensures w == Winding(p, point)
  {
    w := CrossingCount(SegmentEdges(p), point);
  }

  /** The loop of `winding_number_2` over the edges. */
  method CrossingCount(es: seq<LineSegment>, point: Vec2) returns (w: int)
    ensures w == IntSum(es, WindingAt(point))
  {
    w := 0;
    for i := 0 to |es|
      invariant w == IntSum(es[..i], WindingAt(point))
    {
      var v0, v1 := es[i].0, es[i].1;
      SideIsCross(v0, v1, point);
      if v0.y <= point.y {
        if v1.y > point.y {
          if v1.Sub(v0).PerpDot(point.Sub(v0)) > 0.0 {
            w := w + 1;
          }
        }
      } else if v1.y <= point.y {
        if v1.Sub(v0).PerpDot(point.Sub(v0)) < 0.0 {
          w := w - 1;
        }
      }
      assert es[..i + 1][..i] == es[..i];
    }
    assert es[..|es|] == es;
  }

  /** A horizontal edge never changes the winding number. */
  lemma HorizontalEdgeWinding(e: LineSegment, point: Vec2)
    requires e.0.y == e.1.y
    ensures EdgeWinding(e, point) == 0
  {
  }

  /** Traversing an edge the other way negates its contribution. */
  lemma EdgeWindingFlip(e: LineSegment, point: Vec2)
    ensures EdgeWinding(Flip(e), point) == -EdgeWinding(e, point)
  {
    SideFlip(e.0, e.1, point);
  }

  /** Swapping the ends of an edge negates the side of every point. */
  lemma SideFlip(v0: Vec2, v1: Vec2, point: Vec2)
    ensures Side(v1, v0, point) == -Side(v0, v1, point)
  {
    var dx, dy, qx, qy := v1.x - v0.x, v1.y - v0.y, point.x - v0.x, point.y - v0.y;
    calc {
      Side(v1, v0, point);
      (-dx) * (qy - dy) - (-dy) * (qx - dx);
      -(dx * qy - dy * qx);
    }
  }

  /** Each edge changes the count by at most one, so `|winding| <= n`. */
  lemma {:induction false} WindingBound(es: seq<LineSegment>, point: Vec2)
    ensures -|es| <= IntSum(es, WindingAt(point)) <= |es|
    decreases |es|
  {
    if es != [] {
      WindingBound(es[..|es| - 1], point);
    }
  }

  /** Reversing the vertex order negates the winding number. */
  lemma WindingReversed(vs: seq<Vec2>, point: Vec2)
    ensures Winding(Polygon(Reverse(vs)), point) == -Winding(Polygon(vs), point)
  {
    forall e: LineSegment
      ensures WindingAt(point)(Flip(e)) == -WindingAt(point)(e)
    {
      EdgeWindingFlip(e, point);
    }
    IntSumOverReverse(vs, WindingAt(point));
  }

  /** Edges that all lie strictly above, or all at or below, the point add nothing. */
  lemma {:induction false} NoCrossingNoWinding(es: seq<LineSegment>, point: Vec2)
    requires (forall i :: 0 <= i < |es| ==> es[i].0.y > point.y && es[i].1.y > point.y) ||
             (forall i :: 0 <= i < |es| ==> es[i].0.y <= point.y && es[i].1.y <= point.y)
    ensures IntSum(es, WindingAt(point)) == 0
    decreases |es|
  {
    if es != [] {
      NoCrossingNoWinding(es[..|es| - 1], point);
    }
  }

  /** A point below every vertex, or at or above every vertex, is outside the polygon. */
  lemma PointOutsideVerticalRange(p: Polygon<Vec2>, point: Vec2)
    requires (forall i :: 0 <= i < |p.vertices| ==> p.vertices[i].y > point.y) ||
             (forall i :: 0 <= i < |p.vertices| ==> p.vertices[i].y <= point.y)
    ensures Winding(p, point) == 0
    ensures !Contains(Winding, p, point)
  {
    var es := SegmentEdges(p);
    NoCrossingNoWinding(es, point);
  }

  /** The winding number of a triangle is the sum of its three edge contributions. */
  lemma TriangleWinding(a: Vec2, b: Vec2, c: Vec2, point: Vec2)
    ensures Winding(Polygon([a, b, c]), point) ==
              EdgeWinding(LineSegment(a, b), point) + EdgeWinding(LineSegment(b, c), point) +
              EdgeWinding(LineSegment(c, a), point)
  {
    var vs := [a, b, c];
    assert vs[0] == a && vs[1] == b && vs[2] == c;
    ModWrap(3, 3);
    var e0, e1, e2 := LineSegment(a, b), LineSegment(b, c), LineSegment(c, a);
    assert SegmentEdges(Polygon(vs)) == [e0, e1, e2];
    IntSum3(e0, e1, e2, WindingAt(point));
  }

  /** The winding number of a hexagon is the sum of its six edge contributions. */
  lemma HexagonWinding(a: Vec2, b: Vec2, c: Vec2, d: Vec2, e: Vec2, f: Vec2, point: Vec2)
    ensures Winding(Polygon([a, b, c, d, e, f]), point) ==
              EdgeWinding(LineSegment(a, b), point) + EdgeWinding(LineSegment(b, c), point) +
              EdgeWinding(LineSegment(c, d), point) + EdgeWinding(LineSegment(d, e), point) +
              EdgeWinding(LineSegment(e, f), point) + EdgeWinding(LineSegment(f, a), point)
  {
    var vs := [a, b, c, d, e, f];
    assert vs[0] == a && vs[1] == b && vs[2] == c && vs[3] == d && vs[4] == e && vs[5] == f;
    ModWrap(6, 6);
    var e0, e1, e2 := LineSegment(a, b), LineSegment(b, c), LineSegment(c, d);
    var e3, e4, e5 := LineSegment(d, e), LineSegment(e, f), LineSegment(f, a);
    assert SegmentEdges(Polygon(vs)) == [e0, e1, e2, e3, e4, e5];
    IntSum6(e0, e1, e2, e3, e4, e5, WindingAt(point));
  }

  lemma IntSum3(e0: LineSegment, e1: LineSegment, e2: LineSegment, f: LineSegment -> int)
    ensures IntSum([e0, e1, e2], f) == f(e0) + f(e1) + f(e2)
  {
    assert [e0, e1, e2][..2] == [e0, e1];
    assert [e0, e1][..1] == [e0];
    assert [e0][..0] == [];
    assert IntSum([e0], f) == f(e0);
    assert IntSum([e0, e1], f) == IntSum([e0], f) + f(e1);
  }

  lemma IntSum6(e0: LineSegment, e1: LineSegment, e2: LineSegment, e3: LineSegment, e4: LineSegment,
                e5: LineSegment, f: LineSegment -> int)
    ensures IntSum([e0, e1, e2, e3, e4, e5], f) == f(e0) + f(e1) + f(e2) + f(e3) + f(e4) + f(e5)
  {
    assert [e0, e1, e2, e3, e4, e5] == [e0, e1, e2] + [e3, e4, e5];
    IntSumAppend([e0, e1, e2], [e3, e4, e5], f);
    IntSum3(e0, e1, e2, f);
    IntSum3(e3, e4, e5, f);
  }

  // ---------------------------------------------------------------------------------------
  // Shoelace moment

  /** The edge term of the shoelace sum, `a x b`. */
  function EdgeCross(e: LineSegment): real { e.0.PerpDot(e.1) }

  /** The x and y parts of the edge term `(a + b) * (a x b)` of the centroid sum. */
  function EdgeFirstX(e: LineSegment): real { (e.0.x + e.1.x) * EdgeCross(e) }

  function EdgeFirstY(e: LineSegment): real { (e.0.y + e.1.y) * EdgeCross(e) }

  /** Twice the signed area: positive for counter-clockwise vertex order. */
  function SignedArea2(p: Polygon<Vec2>): real { Sum(SegmentEdges(p), EdgeCross) }

  /** Six times the first moment, signed like `SignedArea2`. */
  function CentroidSum(p: Polygon<Vec2>): Vec2 {
    var es := SegmentEdges(p);
    Vec2(Sum(es, EdgeFirstX), Sum(es, EdgeFirstY))
  }

  /**
   * The shoelace moment as the code computes it: area `|S| / 2` and centroid `C / (6 * area)`,
   * that is `C / (3 |S|)`, where `S` and `C` are the two sums above.
   */
  function ShoelaceAsWritten(p: Polygon<Vec2>): (m: Moment)
    ensures m.area >= 0.0 && m.area == Abs(SignedArea2(p)) * 0.5
    ensures m.area < EPS ==> m.centroid == ZERO
    ensures EPS <= m.area ==> m.centroid.Scale(3.0 * Abs(SignedArea2(p))) == CentroidSum(p)
  {
    AsWrittenFromSums(SignedArea2(p), CentroidSum(p))
  }

  function AsWrittenFromSums(s: real, c: Vec2): (m: Moment)
    ensures m.area >= 0.0 && m.area == Abs(s) * 0.5
    ensures m.area < EPS ==> m.centroid == ZERO
    ensures EPS <= m.area ==> m.centroid.Scale(3.0 * Abs(s)) == c
  {
    var area := Abs(s) * 0.5;
    if area < EPS then Moment(area, ZERO)
    else
      assert 6.0 * area == 3.0 * Abs(s);
      DivScale(c, 6.0 * area);
      Moment(area, c.Div(6.0 * area))
  }

  /**
   * The shoelace moment with the orientation kept: area `|S| / 2` and centroid `C / (3 S)`,
   * which is the centroid of the enclosed region whichever way the vertices run.
   */
  function ShoelaceMoment(p: Polygon<Vec2>): (m: Moment)
    ensures m.area >= 0.0 && m.area == Abs(SignedArea2(p)) * 0.5
    ensures m.area < EPS ==> m.centroid == ZERO
    ensures EPS <= m.area ==> m.centroid.Scale(3.0 * SignedArea2(p)) == CentroidSum(p)
  {
    MomentFromSums(SignedArea2(p), CentroidSum(p))
  }

  /** The moment of a region whose doubled signed area is `s` and sextupled first moment is `c`. */
  function MomentFromSums(s: real, c: Vec2): (m: Moment)
    ensures m.area >= 0.0 && m.area == Abs(s) * 0.5
    ensures m.area < EPS ==> m.centroid == ZERO
    ensures EPS <= m.area ==> m.centroid.Scale(3.0 * s) == c
  {
    var area := Abs(s) * 0.5;
    if area < EPS then Moment(area, ZERO)
    else
      DivScale(c, 3.0 * s);
      Moment(area, c.Div(3.0 * s))
  }

  /**
   * `Polygon::moment`: one pass over the edges accumulating the shoelace sum and the centroid
   * sum, then the area and the centroid.
   */
  method PolygonMoment(p: Polygon<Vec2>) returns (m: Moment)
    ensures m == ShoelaceAsWritten(p)
  {
    var signed, centroid := ShoelaceSums(SegmentEdges(p));
    m := MomentOfSums(signed, centroid);
  }

  /** The end of `Polygon::moment`: the area from the shoelace sum, then the centroid from the centroid sum. */
  method MomentOfSums(signed: real, centroid: Vec2) returns (m: Moment)
    ensures m == AsWrittenFromSums(signed, centroid)
  {
    var area := Abs(signed) * 0.5;
    var c := centroid;
    if area < EPS {
      c := ZERO;
    } else {
      c := c.Div(6.0 * area);
    }
    m := Moment(area, c);
  }

  /** The accumulation loop of `Polygon::moment`: the shoelace sum and the centroid sum over `es`. */
  method ShoelaceSums(es: seq<LineSegment>) returns (signed: real, centroid: Vec2)
    ensures signed == Sum(es, EdgeCross)
    ensures centroid == Vec2(Sum(es, EdgeFirstX), Sum(es, EdgeFirstY))
  {
    signed := 0.0;
    centroid := ZERO;
    for i := 0 to |es|
      invariant signed == Sum(es[..i], EdgeCross)
      invariant centroid == Vec2(Sum(es[..i], EdgeFirstX), Sum(es[..i], EdgeFirstY))
    {
      var a, b := es[i].0, es[i].1;
      var cross := a.PerpDot(b);
      CentroidStep(centroid, es[i]);
      signed := signed + cross;
      centroid := centroid.Add(a.Add(b).Scale(cross));
      SumStep(es, i, EdgeCross);
      SumStep(es, i, EdgeFirstX);
      SumStep(es, i, EdgeFirstY);
    }
    assert es[..|es|] == es;
  }

  /** The vector update of the centroid sum adds the two coordinate terms of the edge. */
  lemma CentroidStep(c: Vec2, e: LineSegment)
    ensures c.Add(e.0.Add(e.1).Scale(e.0.PerpDot(e.1))) == Vec2(c.x + EdgeFirstX(e), c.y + EdgeFirstY(e))
  {
  }

  lemma SumStep(es: seq<LineSegment>, i: nat, f: LineSegment -> real)
    requires i < |es|
    ensures Sum(es[..i + 1], f) == Sum(es[..i], f) + f(es[i])
  {
    assert es[..i + 1][..i] == es[..i];
  }

  /** Reversing the vertex order negates both shoelace sums. */
  lemma SumsReversed(vs: seq<Vec2>)
    ensures SignedArea2(Polygon(Reverse(vs))) == -SignedArea2(Polygon(vs))
    ensures CentroidSum(Polygon(Reverse(vs))) == CentroidSum(Polygon(vs)).Neg()
  {
    CrossReversed(vs);
    CentroidSumReversed(vs);
  }

  lemma CentroidSumReversed(vs: seq<Vec2>)
    ensures CentroidSum(Polygon(Reverse(vs))) == CentroidSum(Polygon(vs)).Neg()
  {
    FirstXReversed(vs);
    FirstYReversed(vs);
    NegatedSums(Polygon(vs), Polygon(Reverse(vs)));
  }

  lemma NegatedSums(p: Polygon<Vec2>, q: Polygon<Vec2>)
    requires Sum(SegmentEdges(q), EdgeFirstX) == -Sum(SegmentEdges(p), EdgeFirstX)
    requires Sum(SegmentEdges(q), EdgeFirstY) == -Sum(SegmentEdges(p), EdgeFirstY)
    ensures CentroidSum(q) == CentroidSum(p).Neg()
  {
  }

  lemma CrossReversed(vs: seq<Vec2>)
    ensures Sum(SegmentEdges(Polygon(Reverse(vs))), EdgeCross) == -Sum(SegmentEdges(Polygon(vs)), EdgeCross)
  {
    forall e: LineSegment ensures EdgeCross(Flip(e)) == -EdgeCross(e) {}
    SumOverReverse(vs, EdgeCross);
  }

  lemma FirstXReversed(vs: seq<Vec2>)
    ensures Sum(SegmentEdges(Polygon(Reverse(vs))), EdgeFirstX) == -Sum(SegmentEdges(Polygon(vs)), EdgeFirstX)
  {
    forall e: LineSegment ensures EdgeFirstX(Flip(e)) == -EdgeFirstX(e) {
      assert EdgeCross(Flip(e)) == -EdgeCross(e);
    }
    SumOverReverse(vs, EdgeFirstX);
  }

  lemma FirstYReversed(vs: seq<Vec2>)
    ensures Sum(SegmentEdges(Polygon(Reverse(vs))), EdgeFirstY) == -Sum(SegmentEdges(Polygon(vs)), EdgeFirstY)
  {
    forall e: LineSegment ensures EdgeFirstY(Flip(e)) == -EdgeFirstY(e) {
      assert EdgeCross(Flip(e)) == -EdgeCross(e);
    }
    SumOverReverse(vs, EdgeFirstY);
  }

  /** The moment does not depend on the direction in which the vertices are listed. */
  lemma MomentReversed(vs: seq<Vec2>)
    ensures ShoelaceMoment(Polygon(Reverse(vs))) == ShoelaceMoment(Polygon(vs))
  {
    var s, c := SignedArea2(Polygon(vs)), CentroidSum(Polygon(vs));
    var s', c' := SignedArea2(Polygon(Reverse(vs))), CentroidSum(Polygon(Reverse(vs)));
    SumsReversed(vs);
    assert s' == -s && c' == c.Neg();
    MomentOfNegatedSums(s, c);
    assert ShoelaceMoment(Polygon(Reverse(vs))) == MomentFromSums(-s, c.Neg());
  }

  /** Negating both sums leaves the moment unchanged. */
  lemma MomentOfNegatedSums(s: real, c: Vec2)
    ensures MomentFromSums(-s, c.Neg()) == MomentFromSums(s, c)
  {
    if EPS <= Abs(s) * 0.5 {
      assert c.Neg().Div(3.0 * -s) == c.Div(3.0 * s);
    }
  }

  /** For counter-clockwise vertex order the code's centroid is the true one. */
  lemma AsWrittenCounterClockwise(p: Polygon<Vec2>)
    requires SignedArea2(p) > 0.0
    ensures ShoelaceAsWritten(p) == ShoelaceMoment(p)
  {
    PositiveSumsAgree(SignedArea2(p), CentroidSum(p));
  }

  lemma PositiveSumsAgree(s: real, c: Vec2)
    requires s > 0.0
    ensures AsWrittenFromSums(s, c) == MomentFromSums(s, c)
  {
    assert 6.0 * (Abs(s) * 0.5) == 3.0 * s;
  }

  /** For clockwise vertex order the code's centroid is the true one reflected through the origin. */
  lemma AsWrittenClockwise(p: Polygon<Vec2>)
    requires SignedArea2(p) < 0.0 && EPS <= Abs(SignedArea2(p)) * 0.5
    ensures ShoelaceAsWritten(p).area == ShoelaceMoment(p).area
    ensures ShoelaceAsWritten(p).centroid == ShoelaceMoment(p).centroid.Neg()
  {
    NegativeSumsDisagree(SignedArea2(p), CentroidSum(p));
  }

  lemma NegativeSumsDisagree(s: real, c: Vec2)
    requires s < 0.0 && EPS <= Abs(s) * 0.5
    ensures AsWrittenFromSums(s, c).area == MomentFromSums(s, c).area
    ensures AsWrittenFromSums(s, c).centroid == MomentFromSums(s, c).centroid.Neg()
  {
    assert 6.0 * (Abs(s) * 0.5) == -(3.0 * s);
    assert c.Div(-(3.0 * s)) == c.Div(3.0 * s).Neg();
  }

  /** The shoelace sum of a quadrilateral, written out. */
  function QuadrilateralCross(a: Vec2, b: Vec2, c: Vec2, d: Vec2): real {
    a.PerpDot(b) + b.PerpDot(c) + c.PerpDot(d) + d.PerpDot(a)
  }

  /** The centroid sum of a quadrilateral, written out. */
  function QuadrilateralFirst(a: Vec2, b: Vec2, c: Vec2, d: Vec2): Vec2 {
    Vec2((a.x + b.x) * a.PerpDot(b) + (b.x + c.x) * b.PerpDot(c) + (c.x + d.x) * c.PerpDot(d) + (d.x + a.x) * d.PerpDot(a),
         (a.y + b.y) * a.PerpDot(b) + (b.y + c.y) * b.PerpDot(c) + (c.y + d.y) * c.PerpDot(d) + (d.y + a.y) * d.PerpDot(a))
  }

  /** The edges of a quadrilateral `a, b, c, d` are `ab, bc, cd, da`. */
  lemma QuadrilateralEdges(a: Vec2, b: Vec2, c: Vec2, d: Vec2)
    ensures SegmentEdges(Polygon([a, b, c, d])) ==
              [LineSegment(a, b), LineSegment(b, c), LineSegment(c, d), LineSegment(d, a)]
  {
    var vs := [a, b, c, d];
    assert vs[0] == a && vs[1] == b && vs[2] == c && vs[3] == d;
    ModWrap(4, 4);
  }

  lemma Sum4(e0: LineSegment, e1: LineSegment, e2: LineSegment, e3: LineSegment, f: LineSegment -> real)
    ensures Sum([e0, e1, e2, e3], f) == f(e0) + f(e1) + f(e2) + f(e3)
  {
    assert [e0, e1, e2, e3][..3] == [e0, e1, e2];
    assert [e0, e1, e2][..2] == [e0, e1];
    assert [e0, e1][..1] == [e0];
    assert [e0][..0] == [];
    assert Sum([e0], f) == f(e0);
    assert Sum([e0, e1], f) == Sum([e0], f) + f(e1);
    assert Sum([e0, e1, e2], f) == Sum([e0, e1], f) + f(e2);
  }

  /** The shoelace sums of a quadrilateral are the written-out four-term sums. */
  lemma QuadrilateralSums(a: Vec2, b: Vec2, c: Vec2, d: Vec2)
    ensures SignedArea2(Polygon([a, b, c, d])) == QuadrilateralCross(a, b, c, d)
    ensures CentroidSum(Polygon([a, b, c, d])) == QuadrilateralFirst(a, b, c, d)
  {
    var e0, e1, e2, e3 := LineSegment(a, b), LineSegment(b, c), LineSegment(c, d), LineSegment(d, a);
    var es := SegmentEdges(Polygon([a, b, c, d]));
    QuadrilateralEdges(a, b, c, d);
    assert es == [e0, e1, e2, e3];
    QuadrilateralTerms(e0, e1, e2, e3);
  }

  lemma QuadrilateralTerms(e0: LineSegment, e1: LineSegment, e2: LineSegment, e3: LineSegment)
    requires e0.1 == e1.0 && e1.1 == e2.0 && e2.1 == e3.0 && e3.1 == e0.0
    ensures Sum([e0, e1, e2, e3], EdgeCross) == QuadrilateralCross(e0.0, e1.0, e2.0, e3.0)
    ensures Vec2(Sum([e0, e1, e2, e3], EdgeFirstX), Sum([e0, e1, e2, e3], EdgeFirstY)) ==
              QuadrilateralFirst(e0.0, e1.0, e2.0, e3.0)
  {
    Sum4(e0, e1, e2, e3, EdgeCross);
    Sum4(e0, e1, e2, e3, EdgeFirstX);
    Sum4(e0, e1, e2, e3, EdgeFirstY);
  }

  /** Listing a quadrilateral backwards negates both of its sums. */
  lemma QuadrilateralSumsReversed(a: Vec2, b: Vec2, c: Vec2, d: Vec2)
    ensures SignedArea2(Polygon([d, c, b, a])) == -QuadrilateralCross(a, b, c, d)
    ensures CentroidSum(Polygon([d, c, b, a])) == QuadrilateralFirst(a, b, c, d).Neg()
  {
    var vs := [a, b, c, d];
    assert Reverse(vs) == [d, c, b, a];
    SumsReversed(vs);
    QuadrilateralSums(a, b, c, d);
  }
}

=== FILE: polygon_line_tests.dfy ===
/**
 * The worked examples of src/polygon/line.rs (its test module), stated for the vertices the
 * tests use, the side the `intersect_plane` test's clip keeps, and an input on which the
 * half-plane clip panics. Each example is split into a lemma that evaluates the few products
 * involved and a generic lemma that assembles them, so no proof multiplies out a whole polygon
 * at once.
 */
module StraightPolygonTests {
  import opened Numeric
  import opened Geom
  import opened Lines
  import opened Polygons
  import opened Plane
  import opened StraightPolygon
  import opened StraightClip
  import opened ClipWalks

  // ---------------------------------------------------------------------------------------
  // Convexity

  lemma TriangleTurnValues(a: Vec2, b: Vec2, c: Vec2)
    requires a == Vec2(0.0, 0.0) && b == Vec2(2.0, 0.0) && c == Vec2(1.0, 2.0)
    ensures Turn3(a, b, c) == 4.0 && Turn3(b, c, a) == 4.0 && Turn3(c, a, b) == 4.0
  {
  }

  /** The triangle `(0, 0), (2, 0), (1, 2)` is convex. */
  lemma ConvexTriangle(a: Vec2, b: Vec2, c: Vec2)
    requires a == Vec2(0.0, 0.0) && b == Vec2(2.0, 0.0) && c == Vec2(1.0, 2.0)
    ensures OneSided(Turns(Polygon([a, b, c])))
  {
    TriangleTurnValues(a, b, c);
    LeftTriangleConvex(a, b, c);
  }

  lemma SquareTurnValues(a: Vec2, b: Vec2, c: Vec2, d: Vec2)
    requires a == Vec2(0.0, 0.0) && b == Vec2(2.0, 0.0) && c == Vec2(2.0, 2.0) && d == Vec2(0.0, 2.0)
    ensures Turn3(a, b, c) == 4.0 && Turn3(b, c, d) == 4.0 && Turn3(c, d, a) == 4.0 && Turn3(d, a, b) == 4.0
  {
  }

  /** The square `(0, 0), (2, 0), (2, 2), (0, 2)` is convex. */
  lemma ConvexSquare(a: Vec2, b: Vec2, c: Vec2, d: Vec2)
    requires a == Vec2(0.0, 0.0) && b == Vec2(2.0, 0.0) && c == Vec2(2.0, 2.0) && d == Vec2(0.0, 2.0)
    ensures OneSided(Turns(Polygon([a, b, c, d])))
  {
    SquareTurnValues(a, b, c, d);
    LeftQuadrilateralConvex(a, b, c, d);
  }

  lemma HexagonTurnValues(a: Vec2, b: Vec2, c: Vec2, d: Vec2, e: Vec2, f: Vec2)
    requires a == Vec2(0.0, 0.0) && b == Vec2(3.0, 0.0) && c == Vec2(3.0, 2.0)
    requires d == Vec2(1.0, 2.0) && e == Vec2(1.0, 1.0) && f == Vec2(0.0, 1.0)
    ensures Turn3(a, b, c) > 0.0 && Turn3(d, e, f) < 0.0
  {
  }

  /** The L-shaped hexagon turns left at `(3, 0)` and right at `(1, 1)`, so it is not convex. */
  lemma ConcaveExample(a: Vec2, b: Vec2, c: Vec2, d: Vec2, e: Vec2, f: Vec2)
    requires a == Vec2(0.0, 0.0) && b == Vec2(3.0, 0.0) && c == Vec2(3.0, 2.0)
    requires d == Vec2(1.0, 2.0) && e == Vec2(1.0, 1.0) && f == Vec2(0.0, 1.0)
    ensures !OneSided(Turns(Polygon([a, b, c, d, e, f])))
  {
    HexagonTurnValues(a, b, c, d, e, f);
    MixedTurns(a, b, c, d, e, f);
  }

  // ---------------------------------------------------------------------------------------
  // Winding number

  lemma TriangleInteriorEdges(a: Vec2, b: Vec2, c: Vec2, point: Vec2)
    requires a == Vec2(0.0, 0.0) && b == Vec2(2.0, 0.0) && c == Vec2(1.0, 2.0)
    requires point.y == 0.5 && 0.5 <= point.x <= 1.5
    ensures EdgeWinding(LineSegment(a, b), point) == 0
    ensures EdgeWinding(LineSegment(b, c), point) == 1
    ensures EdgeWinding(LineSegment(c, a), point) == 0
  {
  }

  /**
   * The triangle `(0, 0), (2, 0), (1, 2)` contains every point `(x, 0.5)` with `0.5 <= x <= 1.5`,
   * among them the three test points `(1, 0.5)`, `(0.5, 0.5)` and `(1.5, 0.5)`.
   */
  lemma TriangleContainsInterior(a: Vec2, b: Vec2, c: Vec2, point: Vec2)
    requires a == Vec2(0.0, 0.0) && b == Vec2(2.0, 0.0) && c == Vec2(1.0, 2.0)
    requires point.y == 0.5 && 0.5 <= point.x <= 1.5
    ensures Winding(Polygon([a, b, c]), point) == 1
    ensures Contains(Winding, Polygon([a, b, c]), point)
  {
    TriangleInteriorEdges(a, b, c, point);
    TriangleWinding(a, b, c, point);
  }

  lemma TriangleExteriorEdges(a: Vec2, b: Vec2, c: Vec2, point: Vec2)
    requires a == Vec2(0.0, 0.0) && b == Vec2(2.0, 0.0) && c == Vec2(1.0, 2.0)
    requires point == Vec2(3.0, 3.0) || point == Vec2(-1.0, -1.0)
    ensures EdgeWinding(LineSegment(a, b), point) == 0
    ensures EdgeWinding(LineSegment(b, c), point) == 0
    ensures EdgeWinding(LineSegment(c, a), point) == 0
  {
  }

  /** The same triangle does not contain `(3, 3)` or `(-1, -1)`. */
  lemma TriangleExcludesExterior(a: Vec2, b: Vec2, c: Vec2, point: Vec2)
    requires a == Vec2(0.0, 0.0) && b == Vec2(2.0, 0.0) && c == Vec2(1.0, 2.0)
    requires point == Vec2(3.0, 3.0) || point == Vec2(-1.0, -1.0)
    ensures Winding(Polygon([a, b, c]), point) == 0
    ensures !Contains(Winding, Polygon([a, b, c]), point)
  {
    TriangleExteriorEdges(a, b, c, point);
    TriangleWinding(a, b, c, point);
  }

  lemma NotchFirstEdges(a: Vec2, b: Vec2, c: Vec2, d: Vec2, point: Vec2)
    requires a == Vec2(0.0, 0.0) && b == Vec2(2.0, 0.0) && c == Vec2(2.0, 2.0) && d == Vec2(1.0, 2.0)
    requires point == Vec2(0.5, 1.5)
    ensures EdgeWinding(LineSegment(a, b), point) == 0 && EdgeWinding(LineSegment(b, c), point) == 1
    ensures EdgeWinding(LineSegment(c, d), point) == 0
  {
  }

  lemma NotchLastEdges(d: Vec2, e: Vec2, f: Vec2, a: Vec2, point: Vec2)
    requires d == Vec2(1.0, 2.0) && e == Vec2(1.0, 1.0) && f == Vec2(0.0, 1.0) && a == Vec2(0.0, 0.0)
    requires point == Vec2(0.5, 1.5)
    ensures EdgeWinding(LineSegment(d, e), point) == -1 && EdgeWinding(LineSegment(e, f), point) == 0
    ensures EdgeWinding(LineSegment(f, a), point) == 0
  {
  }

  lemma BodyFirstEdges(a: Vec2, b: Vec2, c: Vec2, d: Vec2, point: Vec2)
    requires a == Vec2(0.0, 0.0) && b == Vec2(2.0, 0.0) && c == Vec2(2.0, 2.0) && d == Vec2(1.0, 2.0)
    requires point == Vec2(1.5, 0.5)
    ensures EdgeWinding(LineSegment(a, b), point) == 0 && EdgeWinding(LineSegment(b, c), point) == 1
    ensures EdgeWinding(LineSegment(c, d), point) == 0
  {
  }

  lemma BodyLastEdges(d: Vec2, e: Vec2, f: Vec2, a: Vec2, point: Vec2)
    requires d == Vec2(1.0, 2.0) && e == Vec2(1.0, 1.0) && f == Vec2(0.0, 1.0) && a == Vec2(0.0, 0.0)
    requires point == Vec2(1.5, 0.5)
    ensures EdgeWinding(LineSegment(d, e), point) == 0 && EdgeWinding(LineSegment(e, f), point) == 0
    ensures EdgeWinding(LineSegment(f, a), point) == 0
  {
  }

  /**
   * The L-shaped hexagon `(0, 0), (2, 0), (2, 2), (1, 2), (1, 1), (0, 1)` excludes the point
   * `(0.5, 1.5)` of its notch, where the crossings at `x = 1` and `x = 2` cancel, and contains
   * `(1.5, 0.5)`.
   */
  lemma ConcaveContainment(a: Vec2, b: Vec2, c: Vec2, d: Vec2, e: Vec2, f: Vec2)
    requires a == Vec2(0.0, 0.0) && b == Vec2(2.0, 0.0) && c == Vec2(2.0, 2.0)
    requires d == Vec2(1.0, 2.0) && e == Vec2(1.0, 1.0) && f == Vec2(0.0, 1.0)
    ensures !Contains(Winding, Polygon([a, b, c, d, e, f]), Vec2(0.5, 1.5))
    ensures Contains(Winding, Polygon([a, b, c, d, e, f]), Vec2(1.5, 0.5))
  {
    var notch, body := Vec2(0.5, 1.5), Vec2(1.5, 0.5);
    NotchFirstEdges(a, b, c, d, notch);
    NotchLastEdges(d, e, f, a, notch);
    HexagonWinding(a, b, c, d, e, f, notch);
    BodyFirstEdges(a, b, c, d, body);
    BodyLastEdges(d, e, f, a, body);
    HexagonWinding(a, b, c, d, e, f, body);
  }

  // ---------------------------------------------------------------------------------------
  // Moment

  lemma RectangleTerms(a: Vec2, b: Vec2, c: Vec2, d: Vec2)
    requires a == Vec2(0.0, 0.0) && b == Vec2(3.0, 0.0) && c == Vec2(3.0, 2.0) && d == Vec2(0.0, 2.0)
    ensures QuadrilateralCross(a, b, c, d) == 12.0
    ensures QuadrilateralFirst(a, b, c, d) == Vec2(54.0, 36.0)
  {
  }

  lemma RectangleFromSums()
    ensures MomentFromSums(12.0, Vec2(54.0, 36.0)) == Moment(6.0, Vec2(1.5, 1.0))
    ensures AsWrittenFromSums(12.0, Vec2(54.0, 36.0)) == Moment(6.0, Vec2(1.5, 1.0))
  {
  }

  /** The 3 x 2 rectangle has area 6 and centroid (1.5, 1), both as corrected and as written. */
  lemma RectangleMoment(a: Vec2, b: Vec2, c: Vec2, d: Vec2)
    requires a == Vec2(0.0, 0.0) && b == Vec2(3.0, 0.0) && c == Vec2(3.0, 2.0) && d == Vec2(0.0, 2.0)
    ensures ShoelaceMoment(Polygon([a, b, c, d])) == Moment(6.0, Vec2(1.5, 1.0))
    ensures ShoelaceAsWritten(Polygon([a, b, c, d])) == Moment(6.0, Vec2(1.5, 1.0))
  {
    RectangleTerms(a, b, c, d);
    QuadrilateralSums(a, b, c, d);
    RectangleFromSums();
  }

  lemma ReversedRectangleFromSums()
    ensures MomentFromSums(-12.0, Vec2(-54.0, -36.0)) == Moment(6.0, Vec2(1.5, 1.0))
    ensures AsWrittenFromSums(-12.0, Vec2(-54.0, -36.0)) == Moment(6.0, Vec2(-1.5, -1.0))
  {
  }

  /**
   * The same rectangle listed clockwise: the code as written reports the centroid (-1.5, -1),
   * outside the rectangle, while the orientation-aware centroid stays (1.5, 1).
   */
  lemma ReversedRectangleMoment(a: Vec2, b: Vec2, c: Vec2, d: Vec2)
    requires a == Vec2(0.0, 0.0) && b == Vec2(3.0, 0.0) && c == Vec2(3.0, 2.0) && d == Vec2(0.0, 2.0)
    ensures ShoelaceMoment(Polygon([d, c, b, a])) == Moment(6.0, Vec2(1.5, 1.0))
    ensures ShoelaceAsWritten(Polygon([d, c, b, a])) == Moment(6.0, Vec2(-1.5, -1.0))
  {
    RectangleTerms(a, b, c, d);
    QuadrilateralSums(a, b, c, d);
    QuadrilateralSumsReversed(a, b, c, d);
    ReversedRectangleFromSums();
  }

  // ---------------------------------------------------------------------------------------
  // Clipping

  /**
   * An instance: with the boundary `y == 0`, inside above it, the closing edge of the polygon
   * `[b, a] == [(1, 0), (0, -EPS)]` runs from `a` to `b` and the clip panics on it.
   */
  lemma UnwrapCanFail(h: HalfPlane, a: Vec2, b: Vec2)
    requires h == HalfPlane(Vec2(0.0, 1.0), 0.0) && a == Vec2(0.0, -EPS) && b == Vec2(1.0, 0.0)
    ensures !ClipDefined(h, Polygon([b, a]))
  {
    ShallowEntryValues(h, a, b);
    TwoVertexPanics(h, a, b);
  }

  /**
   * The `intersect_plane` test clips the square `(0, 0), (2, 0), (2, 2), (0, 2)` by
   * `from_normal((1, 0), (1, 0))`, whose inside is `x >= 1`: `(0, 0)` and `(0, 2)` are at
   * distance `-1` from its boundary, `(2, 0)` and `(2, 2)` at distance `1`, so `SquareClipInside`
   * applies and the clip keeps the right half of the square, not the left half the test expects.
   */
  lemma IntersectPlaneValues(h: HalfPlane, a: Vec2, b: Vec2, c: Vec2, d: Vec2)
    requires h == FromNormal(Vec2(1.0, 0.0), Vec2(1.0, 0.0))
    requires a == Vec2(0.0, 0.0) && b == Vec2(2.0, 0.0) && c == Vec2(2.0, 2.0) && d == Vec2(0.0, 2.0)
    ensures IsUnit(h.normal)
    ensures Distance(h, a) == -1.0 && Distance(h, b) == 1.0 && Distance(h, c) == 1.0 && Distance(h, d) == -1.0
  {
    assert h == HalfPlane(Vec2(1.0, 0.0), 1.0);
    XDistance(h, a);
    XDistance(h, b);
    XDistance(h, c);
    XDistance(h, d);
  }

  /**
   * A quadrilateral whose first and last vertices are at distance `-1` from the boundary and
   * whose middle two are at distance `1` can be clipped; every vertex of its clip is inside, so
   * the first and last vertices are not among them.
   */
  lemma SquareClipInside(h: HalfPlane, a: Vec2, b: Vec2, c: Vec2, d: Vec2)
    requires IsUnit(h.normal)
    requires Distance(h, a) == -1.0 && Distance(h, b) == 1.0 && Distance(h, c) == 1.0 && Distance(h, d) == -1.0
    ensures ClipDefined(h, Polygon([a, b, c, d]))
    ensures Clip(h, Polygon([a, b, c, d])).Some? ==>
              forall x :: x in Clip(h, Polygon([a, b, c, d])).value.vertices ==> Distance(h, x) >= 0.0
    ensures Clip(h, Polygon([a, b, c, d])).Some? ==>
              a !in Clip(h, Polygon([a, b, c, d])).value.vertices && d !in Clip(h, Polygon([a, b, c, d])).value.vertices
  {
    var p := Polygon([a, b, c, d]);
    ContainsIffDistance(h, a);
    ContainsIffDistance(h, b);
    ContainsIffDistance(h, c);
    ContainsIffDistance(h, d);
    SeparatedStep(h, d, a);
    SeparatedStep(h, a, b);
    SeparatedStep(h, b, c);
    SeparatedStep(h, c, d);
    assert forall i :: 0 <= i < |p.vertices| ==> Transversal(h, PrevOf(p.vertices[|p.vertices| - 1], p.vertices, i), p.vertices[i]);
    ClipInside(h, p);
    var r := Clip(h, p);
    if r.Some? {
      forall x | x in r.value.vertices
        ensures Distance(h, x) >= 0.0
      {
        ContainsIffDistance(h, x);
      }
    }
  }

  /** A step is transversal when its ends are on the same side or their distances differ by more than `EPS`. */
  lemma SeparatedStep(h: HalfPlane, u: Vec2, v: Vec2)
    requires IsUnit(h.normal)
    requires HalfPlaneContains(h, u) == HalfPlaneContains(h, v) || Abs(Distance(h, u) - Distance(h, v)) > EPS
    ensures Transversal(h, u, v)
  {
    EdgeFrame(h, u, v);
  }

  /** The distance to the boundary of `x >= 1` is `x - 1`. */
  lemma XDistance(h: HalfPlane, u: Vec2)
    requires h == HalfPlane(Vec2(1.0, 0.0), 1.0)
    ensures Distance(h, u) == u.x - 1.0
  {
    assert u.Dot(h.normal) == u.x;
  }

  lemma TwoVertexPanics(h: HalfPlane, a: Vec2, b: Vec2)
    requires IsUnit(h.normal) && Distance(h, a) == -EPS && Distance(h, b) == 0.0 && b.Sub(a).MaxAbs() > EPS
    ensures !ClipDefined(h, Polygon([b, a]))
  {
    ShallowClosingEdgePanics(h, Polygon([b, a]), a, b);
  }

  lemma ShallowEntryValues(h: HalfPlane, a: Vec2, b: Vec2)
    requires h == HalfPlane(Vec2(0.0, 1.0), 0.0) && a == Vec2(0.0, -EPS) && b == Vec2(1.0, 0.0)
    ensures IsUnit(h.normal) && Distance(h, a) == -EPS && Distance(h, b) == 0.0 && b.Sub(a).MaxAbs() > EPS
  {
    assert b.Sub(a) == Vec2(1.0, EPS);
  }
}
